=== FILE: README.md ===
# Tema_1 library server, modelled in Dafny

Tema_1 is a hand-written Node.js REST server over MySQL. It serves four
resources:

- `/books`
- `/authors`
- `/libraries`
- `/library-books`, the rows that place a book with its author in a library

A request goes through these steps:

1. `server.js` cleans the path and upper-cases the method.
2. `OPTIONS` is answered at once with the CORS preflight.
3. Otherwise the `Access-Control-Allow-Origin: *` header is set and the path is tried against six anchored `\d+` regular expressions.
4. If none of them leads to a registered handler, the literal key `METHOD:path` is looked up in the merged route table of `routes/router.js`.
5. If that also fails, the `default` handler answers 404.

Each handler checks its input, issues a few SQL statements and answers with
`sendResponse`.

The model is a set of pure functions. Each handler is a function from
`(Store, Db, route id, query, body)` to `(Store, Response)`:

- `Store` holds the four tables. Each table is a map from id to row, plus an
  auto-increment counter.
- `Db` is an oracle. It says which statement of the request fails, and whether
  MySQL reported that failure as a duplicate key. It also says whether a
  recommendation query returns any row.
- The SQL a handler builds is a token sequence (`Text`, `Param`, `Ident`)
  together with its bound parameters. This lets the model state that
  placeholders and parameters line up, and that client values enter the
  statement text only as escaped identifiers, with every other value bound
  as a parameter. An escaped identifier is taken to hold no `?` (see Left
  out).
- The rows a `SELECT` returns to the client are denoted by the query that
  selects them.

Modules, in dependency order:

| module | file | models |
|---|---|---|
| `Js` | js.dfy | JavaScript values, truthiness, `isNaN`, `parseInt`, ASCII `toUpperCase` |
| `Seqs` | seqs.dfy | the subsequence relation and small sequence facts |
| `Paths` | paths.dfy | path cleaning and the six route expressions |
| `Router` | router.dfy | the route keys, the four resource tables and their merge |
| `Dispatcher` | dispatcher.dfy | the choice of handler and id in `server.js` |
| `Validation` | validation.dfy | `validateBookData`, `validateAuthorData` |
| `Sql` | sql.dfy | the statements built by the list, recommendation and PATCH handlers |
| `Store` | store.dfy | tables, rows, the fault oracle |
| `Http` | http.dfy | responses, `sendResponse`, the CORS header, 201 echoes |
| `Paging` | paging.dfy | the list endpoints' pagination metadata |
| `BooksApi`, `AuthorsApi`, `LibrariesApi`, `LibraryBooksApi` | books.dfy, authors.dfy, libraries.dfy, library_books.dfy | the handlers of each route file |
| `Server` | server.dfy | the request callback as a whole |

## Model

| member | source | states |
|---|---|---|
| `Js.FieldOrNull` | Tema_1/routes/books.js:202-203 | an absent body field is bound as NULL, a present one as its value |
| `Js.NatText` | Tema_1/routes/books.js:218-221 | the decimal text of an id is a digit string |
| `Js.NatTextValue` | Tema_1/routes/books.js:218-221 | reading back the decimal text of an id gives the id: a `Location` header names the row that was created |
| `Js.DigitPrefix` | Tema_1/routes/books.js:45-46 | the digits `parseInt` reads are a prefix of the text, and the first character after them is not a digit |
| `Js.ParseInt` | Tema_1/routes/books.js:45-46 | `parseInt` yields a number exactly when the text, after an optional sign, starts with a digit; otherwise NaN |
| `Js.ParseIntText` | Tema_1/routes/books.js:45-46 | `parseInt` of the decimal text of any integer returns that integer |
| `Js.DigitPrefixOfDigits` | Tema_1/routes/books.js:45-46 | a text made only of digits is read by `parseInt` in full |
| `Js.Upper` | Tema_1/server.js:15 | upper-casing keeps the length and maps each character on its own |
| `Js.UpperIsDesc` | Tema_1/routes/books.js:39 | `order` selects DESC exactly when it is `desc` in any mix of cases |
| `Js.IsNaN` | Tema_1/validation_scripts.js:9 | `isNaN` is false for `null`, booleans, numbers and digit strings, and true for an object |
| `Js.ArrayNumber` | Tema_1/validation_scripts.js:9 | an array coerces through its joined text: `[]` and `[null]` are 0, a one-element array is numeric exactly when its element's text is, `[n]` is numeric for every integer, and two or more elements always give NaN |
| `Paths.RemoveBreaks` | Tema_1/server.js:13 | the result has no CR or LF, is no longer than the input, and leaves a text without them unchanged |
| `Paths.RemoveBreaksAppend` | Tema_1/server.js:13 | removing line breaks distributes over concatenation |
| `Paths.Normalize` | Tema_1/server.js:12-13 | the cleaned path has no line break and is the break-free text with at most one trailing `/` removed |
| `Paths.NormalizeStripsOne` | Tema_1/server.js:13 | exactly one trailing slash is removed, so `/` becomes the empty path and `a//` becomes `a/` |
| `Paths.NormalizeClean` | Tema_1/server.js:13 | a clean path without a trailing slash is a fixed point, with or without one added slash |
| `Paths.MatchId` | Tema_1/server.js:29-32 | a match means the path is the prefix followed by a non-empty digit capture |
| `Paths.MatchSub` | Tema_1/server.js:34-35 | a match means the path is prefix, digit capture, suffix |
| `Paths.MatchIdInstance` | Tema_1/server.js:29-32 | every digit string after the prefix is matched and captured in full |
| `Paths.MatchSubInstance` | Tema_1/server.js:34-35 | every digit string between prefix and suffix is matched and captured |
| `Paths.MatchesDisjoint` | Tema_1/server.js:29-35 | the six expressions are pairwise disjoint: at most one matches any path |
| `Paths.LastChars` | Tema_1/server.js:29-35 | an id match ends in a digit and a sub-route match ends in `s` |
| `Paths.PrefixClash` | Tema_1/server.js:29-32 | two prefixes that differ at some position cannot both start one path |
| `Paths.PrefixesExclusive` | Tema_1/server.js:29-35 | no path starts with two different resource prefixes |
| `Paths.NonDigitAfterPrefix` | Tema_1/server.js:29-35 | a path that continues a resource prefix with a non-digit matches none of the six expressions |
| `Paths.ClassifyShapePath` | Tema_1/server.js:38-80 | each of the six shapes, filled with digits, is classified as that shape with those digits |
| `Paths.ClassifySound` | Tema_1/server.js:38-80 | a classified path is exactly its shape filled with its captured digits |
| `Paths.Classify` | Tema_1/server.js:38-80 | the `else if` chain; its partners `Paths.ClassifySound`, `Paths.ClassifyShapePath` and `Paths.MatchesDisjoint` state that it captures exactly the six shapes filled with digits, and that no two expressions compete |
| `Paths.ShapePathClean` | Tema_1/server.js:13 | a captured-shape path is unchanged by cleaning |
| `Paths.NoBreaksAppend` | Tema_1/server.js:13 | two break-free texts concatenate to a break-free text |
| `Paths.PrefixNoBreaks` | Tema_1/server.js:13 | the four resource prefixes contain no line break |
| `Paths.CollectionPath` | Tema_1/routes/router.js:7-11 | a collection path plus `/` is its resource's prefix |
| `Paths.SingleSlashUncaptured` | Tema_1/server.js:29-35 | a path with no `/` after its first character matches none of the expressions |
| `Paths.CollectionPathFacts` | Tema_1/server.js:13 | a collection path survives cleaning and matches no expression, so only the literal key reaches it |
| `Router.VerbOf` | Tema_1/server.js:83 | any method text is represented by a verb whose text is that method |
| `Router.VerbRoundTrip` | Tema_1/server.js:83 | a canonical verb is recovered from its own text |
| `Router.TargetOf` | Tema_1/server.js:83 | any path is represented by a target whose text is that path |
| `Router.TargetRoundTrip` | Tema_1/server.js:83 | a canonical target (a route template) is recovered from its own text |
| `Router.KeyOf` | Tema_1/server.js:83 | the key looked up for a method and a path is the text `METHOD:path` |
| `Router.KeyOfInjective` | Tema_1/server.js:83 | two colon-free methods give the same key only for the same method and path |
| `Router.ColonAfterVerb` | Tema_1/server.js:83 | in `METHOD:path` the first colon sits right after the method |
| `Router.Spread` | Tema_1/routes/router.js:7-11 | in an object spread the later table wins a shared key |
| `Router.TablesDisjoint` | Tema_1/routes/router.js:8-11 | no key is registered by more than one of the four resource tables, so the spread shadows nothing |
| `Router.RoutesIsUnion` | Tema_1/routes/router.js:7-15 | the merged table holds a key exactly when a resource table holds it, with that table's handler, plus `default` |
| `Router.Routes` | Tema_1/routes/router.js:7-15 | the merged route table; `Router.RoutesIsUnion` and `Router.TablesDisjoint` state what it holds |
| `Router.OnlyDefaultLacksColon` | Tema_1/routes/router.js:12 | every dispatch key contains `:` and `default` does not |
| `Router.NotFoundOnlyAtDefault` | Tema_1/routes/router.js:12-14 | the 404 handler is stored under `default` and under no dispatch key |
| `Dispatcher.Dispatch` | Tema_1/server.js:15-25 | the callback short-circuits exactly when the method upper-cases to `OPTIONS` |
| `Dispatcher.CaptureKeyText` | Tema_1/server.js:40-61 | the key tried for a captured id is `METHOD:/<resource>/:id/` |
| `Dispatcher.CapturedPath` | Tema_1/server.js:38-80 | a captured shape with a registered handler dispatches to it with the digits as id, with or without one trailing slash |
| `Dispatcher.IdPathDispatch` | Tema_1/server.js:38-65 | `/<resource>/<digits>` runs that resource's `:id` handler for the method, with the digits as id |
| `Dispatcher.DispatchedIdIsCaptured` | Tema_1/server.js:38-88 | a handler receives an id only from a regex capture: the id is digits and the cleaned path is that shape filled with it |
| `Dispatcher.Uncaptured` | Tema_1/server.js:83-91 | with no usable capture the literal key decides, and `default` runs when it is not registered |
| `Dispatcher.RecommendationsAnyMethod` | Tema_1/server.js:66-72 | every method except OPTIONS reaches the recommendations handler, because its key hard-codes `GET` |
| `Dispatcher.StatsAnyMethod` | Tema_1/server.js:73-79 | every method except OPTIONS reaches the per-library statistics, because its key hard-codes `GET` |
| `Dispatcher.NonDigitFallsThrough` | Tema_1/server.js:29-91 | `GET /books/abc` is captured by no expression and ends at the 404 default |
| `Dispatcher.UnregisteredMethodFallsThrough` | Tema_1/server.js:52-91 | `PATCH /libraries/5` is captured but has no handler, falls through the literal key and ends at the default |
| `Dispatcher.RecommendationsLiteralPath` | Tema_1/server.js:83-88 | `/books/recommendations` is reached only through the literal key, with no id |
| `Dispatcher.StatsLiteralPath` | Tema_1/server.js:83-88 | `/libraries/stats` is reached only through the literal key, with no id |
| `Dispatcher.IdTemplatePathWithoutId` | Tema_1/server.js:83-88 | `/books/:id//` is cleaned to a registered key and reaches the `:id` handler with an undefined id |
| `Dispatcher.StatsTemplatePathWithoutId` | Tema_1/server.js:83-88 | the literal template path reaches the per-library statistics with an undefined id |
| `Validation.When` | Tema_1/validation_scripts.js:5-6 | a failed check contributes its one message, a passed one nothing |
| `Validation.ValidateBook` | Tema_1/validation_scripts.js:1-14 | each book message appears exactly when its rule fails; the required-field rules apply only when `isRequired`; messages keep source order; at most three; empty means valid |
| `Validation.ValidateAuthor` | Tema_1/validation_scripts.js:17-29 | each author message appears exactly when its rule fails; the name rule applies only when `isRequired`; source order; at most two; empty means valid |
| `Validation.SubsequenceOfThree` | Tema_1/validation_scripts.js:2-13 | messages pushed conditionally in order form a subsequence of the full message list |
| `Validation.ValidateBookReadsThreeKeys` | Tema_1/validation_scripts.js:1-14 | two bodies that agree on title, author and published_year get the same errors |
| `Validation.ValidateAuthorReadsTwoKeys` | Tema_1/validation_scripts.js:17-29 | two bodies that agree on name and birth_year get the same errors |
| `Validation.ArrayAndObjectYears` | Tema_1/validation_scripts.js:9-11 | a published year of `[1999]` or `[]` passes validation, while `[1, 2]` and an object are rejected as not a number |
| `Sql.JoinPlaceholders` | Tema_1/routes/books.js:34-36 | joining `n` conditions yields `n` placeholders |
| `Sql.JoinAt` | Tema_1/routes/books.js:34-36 | the `i`-th joined condition's text is followed by its placeholder |
| `Sql.ActiveFilters` | Tema_1/routes/books.js:19-32 | the applied filters are exactly the declared ones whose query value is truthy, in declaration order |
| `Sql.ConditionTexts` | Tema_1/routes/books.js:19-32 | one condition text per applied filter, position by position |
| `Sql.Bindings` | Tema_1/routes/books.js:19-32 | one parameter per applied filter, position by position, `%v%` for LIKE |
| `Sql.Where` | Tema_1/routes/books.js:34-36 | the WHERE part is empty exactly when no filter applies, and otherwise starts with ` WHERE ` |
| `Sql.WherePlaceholders` | Tema_1/routes/books.js:34-36 | the WHERE part has one placeholder per applied filter |
| `Sql.WhereAt` | Tema_1/routes/books.js:34-36 | the `i`-th condition of the WHERE part is followed by its placeholder |
| `Sql.OrderBy` | Tema_1/routes/books.js:38-43 | the ORDER BY part binds no parameter |
| `Sql.SortDirection` | Tema_1/routes/books.js:38-43 | no sort gives `ORDER BY id ASC`; a sort gives the escaped column with DESC exactly when `order` upper-cases to `DESC`; no whitelist |
| `Sql.NumberParam` | Tema_1/routes/books.js:45-46 | an absent or falsy value gives the default, otherwise `parseInt` of the value |
| `Sql.Offset` | Tema_1/routes/books.js:47 | the offset is `(page - 1) * limit` without clamping, and NaN when either is NaN |
| `Sql.PagingDefaults` | Tema_1/routes/books.js:45-50 | with no limit and no page the limit is 10 and the offset 0; with a page only, the offset is `10 * page - 10`, not clamped |
| `Sql.ListQueryWellFormed` | Tema_1/routes/books.js:15-50 | the list statement has as many placeholders as parameters |
| `Sql.ListTokensAt` | Tema_1/routes/books.js:15-50 | in the list statement the `i`-th condition text is followed by its placeholder |
| `Sql.ListConditionsAlign` | Tema_1/routes/books.js:19-36 | the `i`-th condition of the list statement is the `i`-th applied filter's condition, followed by a placeholder |
| `Sql.ListParamsAlign` | Tema_1/routes/books.js:19-32 | the `i`-th parameter is the `i`-th applied filter's binding of the query value |
| `Sql.ListTokensIgnoreFilterValues` | Tema_1/routes/books.js:15-50 | the statement text depends on which filters are truthy and on the sort, never on the filter values: client values travel only as parameters |
| `Sql.SameActiveFilters` | Tema_1/routes/books.js:19-32 | queries that agree on which filters are truthy apply the same filters |
| `Sql.WhereIffFilterGiven` | Tema_1/routes/books.js:34-36 | the list statement has a WHERE exactly when some filter is truthy |
| `Sql.ListQuery` | Tema_1/routes/books.js:15-50 | the paginated list statement; `Sql.ListQueryWellFormed`, `Sql.ListConditionsAlign`, `Sql.ListParamsAlign` and `Sql.ListTokensIgnoreFilterValues` state its shape |
| `Sql.FilterQuery` | Tema_1/routes/library-books.js:32-56 | the `/library-books` statement has as many placeholders as parameters |
| `Sql.FilterQueryUnfiltered` | Tema_1/routes/library-books.js:28-49 | with no filter given the statement selects the whole table and binds nothing |
| `Sql.FilterQueryAt` | Tema_1/routes/library-books.js:32-49 | the `i`-th condition of the statement is the `i`-th given filter's, followed by its placeholder, and the `i`-th parameter is that filter's value |
| `Sql.IdArg` | Tema_1/routes/books.js:118 | the route id is bound as NULL exactly when it is undefined |
| `Sql.RecommendByIdShape` | Tema_1/routes/books.js:117-133 | the statement is `id != ?` followed by the enabled genre and author equalities in that order, their values bound in the same order, and the limit as text at the end |
| `Sql.RecommendByIdWellFormed` | Tema_1/routes/books.js:117-133 | the by-id recommendation statement has as many placeholders as parameters |
| `Sql.RecommendByIdQuery` | Tema_1/routes/books.js:117-133 | the by-id recommendation statement; `Sql.RecommendByIdShape` and `Sql.RecommendByIdWellFormed` state its shape |
| `Sql.AndClauses` | Tema_1/routes/books.js:163-171 | each applied filter contributes one ` AND ` condition and one placeholder |
| `Sql.AndClausesPlaceholders` | Tema_1/routes/books.js:163-171 | the AND part has one placeholder per applied filter |
| `Sql.AndClausesAt` | Tema_1/routes/books.js:163-171 | the `i`-th AND clause is that filter's condition followed by its placeholder |
| `Sql.RecommendByFilterWellFormed` | Tema_1/routes/books.js:160-175 | the by-filter recommendation statement has as many placeholders as parameters |
| `Sql.RecommendByFilterConditions` | Tema_1/routes/books.js:160-171 | after `WHERE 1=1` the `i`-th condition is the `i`-th truthy filter's, followed by a placeholder |
| `Sql.RecommendByFilterParams` | Tema_1/routes/books.js:163-171 | the `i`-th parameter is the `i`-th truthy filter's binding, `%author%` for the author |
| `Sql.RecommendByFilterQuery` | Tema_1/routes/books.js:160-175 | the by-filter recommendation statement; `Sql.RecommendByFilterConditions`, `Sql.RecommendByFilterParams` and `Sql.RecommendByFilterWellFormed` state its shape |
| `Sql.Updates` | Tema_1/routes/books.js:351-358 | the updated fields are exactly the whitelisted fields present in the body, in whitelist order |
| `Sql.SetTexts` | Tema_1/routes/books.js:364-366 | one `field = ` text per updated field, position by position |
| `Sql.Values` | Tema_1/routes/books.js:368 | one parameter per updated field, holding the body's value |
| `Sql.UpdateQueryWellFormed` | Tema_1/routes/books.js:364-372 | the UPDATE has as many placeholders as parameters, the id included |
| `Sql.UpdateQueryClauses` | Tema_1/routes/books.js:364-371 | the `i`-th SET clause names the `i`-th updated field and is followed by its placeholder |
| `Sql.UpdateQueryParams` | Tema_1/routes/books.js:364-372 | the `i`-th parameter is the body's value for the `i`-th updated field, and the id comes last |
| `Sql.UpdateTokensIgnoreValues` | Tema_1/routes/books.js:351-371 | the UPDATE text depends on which fields are present, never on their values |
| `Sql.SameUpdates` | Tema_1/routes/books.js:351-358 | bodies with the same whitelisted keys update the same fields |
| `Sql.UpdateQuery` | Tema_1/routes/books.js:364-372 | the PATCH statement; `Sql.UpdateQueryClauses`, `Sql.UpdateQueryParams` and `Sql.UpdateTokensIgnoreValues` state its shape |
| `Store.Insert` | Tema_1/routes/books.js:201-213 | an INSERT without id stores the row under a fresh id, bumps the counter, and keeps every other row |
| `Store.InsertAt` | Tema_1/routes/books.js:251-253 | an INSERT with an explicit free non-zero id adds exactly that row and keeps every other row |
| `Store.InsertWithId` | Tema_1/routes/books.js:251-253 | an INSERT that names the id stores the row under that id when it is non-zero, and under the auto-increment counter when it is NULL or 0; in a valid table that id is fresh and no other row changes |
| `Store.Put` | Tema_1/routes/books.js:302-304 | an UPDATE replaces one existing row and keeps the ids and every other row |
| `Store.Remove` | Tema_1/routes/books.js:406 | a DELETE by id removes that row and keeps every other row |
| `Store.Lookup` | Tema_1/routes/books.js:82-91 | `SELECT ... WHERE id = ?` finds a row exactly when the key is present, and the row is the stored one |
| `Store.RowKey` | Tema_1/routes/books.js:82 | a route id selects a row exactly when it is a digit string, and selects its decimal value |
| `Store.KeyOfValue` | Tema_1/routes/library-books.js:70-94 | a body id selects the row of its numeric or digit-string value; other values select no row here, where MySQL would coerce some of them (see Left out) |
| `Store.Valid` | Tema_1/routes/books.js:201-213 | every row id lies strictly between 0 and the counter, so neither 0 nor the counter holds a row; every writing handler keeps it (`Server.Run`) |
| `Store.ValidStore` | Tema_1/routes/router.js:7-15 | all four tables are valid; `Server.Run` and `Server.Serve` keep it |
| `Store.EntriesUnique` | Tema_1/routes/library-books.js:94-100 | no two `library_books` rows put one book in one library; `LibraryBooksApi.AddEntry`, `LibraryBooksApi.ReplaceEntry` and `Server.Run` keep it |
| `Store.BooksIn` | Tema_1/routes/library.js:141-224 | a library holds at most as many entries as the table has |
| `Http.Send` | Tema_1/utils.js:32-35 | every handler answer carries exactly the JSON content-type header |
| `Http.CreatedAt` | Tema_1/routes/books.js:218-221 | a 201 names the new row in `Location` |
| `Http.Echo` | Tema_1/routes/books.js:212-216 | a created row is echoed as the body with the id added, without the timestamp |
| `Http.WithCors` | Tema_1/server.js:27 | the CORS origin header `*` is added and status, body and other headers are kept |
| `Paging.TotalPages` | Tema_1/routes/books.js:65-66 | for a positive limit the page count is the least `p` with `count <= p * limit`, and a zero limit gives none; a NaN or negative limit never reaches it, since MySQL refuses that LIMIT and the handler has already answered 500 (`Paging.ListPageOutcome`) |
| `Paging.CeilingBounds` | Tema_1/routes/books.js:66 | the computed page count is the least number of full pages holding all rows |
| `Paging.FloorBounds` | Tema_1/routes/books.js:66 | the rounding used for a negative limit brackets the count |
| `Paging.ListPageOutcome` | Tema_1/routes/books.js:45-78 | 500 exactly when the list statement fails or MySQL refuses its `LIMIT`/`OFFSET`, otherwise 200; a failing count drops totals from the metadata; a page count is computed only for a limit of at least 0 and is `null` exactly for 0; with no limit and no page the answer is 200 with page 1, limit 10 |
| `Paging.PagingRefusedCases` | Tema_1/routes/books.js:45-50 | the paging MySQL refuses: a NaN limit or page, a negative limit, and a page below 1 with a positive limit (a negative OFFSET); a non-negative limit with a page of at least 1, and the defaults, are taken |
| `Paging.ListPage` | Tema_1/routes/books.js:45-78 | the shared list handler; `Paging.ListPageOutcome` states its status and metadata |
| `Paging.TotalPagesExamples` | Tema_1/routes/books.js:65-66 | worked page counts: 12 rows at 5 per page make 3 pages, at 10 make 2, 10 rows at 10 make 1, 0 rows make 0, and a zero limit gives none |
| `BooksApi.ListBooks` | Tema_1/routes/books.js:11-79 | 500 exactly when the list statement fails or MySQL refuses its `LIMIT`/`OFFSET`; a 200 carries the filtered list statement, and its `totalItems` counts every book whatever the filters |
| `BooksApi.GetBook` | Tema_1/routes/books.js:81-93 | 200 exactly when the statement runs and the row exists, 404 exactly when it runs and the row is missing; `BooksApi.CreateThenGet` and `BooksApi.CreateWithIdThenGet` are its partners |
| `BooksApi.RecommendForBook` | Tema_1/routes/books.js:95-147 | 400 exactly when neither flag is `true`; a 200 needs the book and a non-empty result, and carries the by-id statement built from the stored book's genre and author; a healthy run whose `LIMIT` MySQL takes and that returns no rows is the 404 `No recommendations found` |
| `BooksApi.RecommendByFilter` | Tema_1/routes/books.js:149-188 | 400 exactly when neither `genre` nor `author` is given; a 200 needs rows and carries the by-filter statement; a `LIMIT` MySQL refuses is a 500 (`BooksApi.RecommendByFilterChecks`) |
| `BooksApi.BookOf` | Tema_1/routes/books.js:201-203 | an inserted book takes each whitelisted column from the body, NULL when absent |
| `BooksApi.PatchedBook` | Tema_1/routes/books.js:351-371 | a patched book takes the body's value for each field present and keeps the rest |
| `BooksApi.CreateBook` | Tema_1/routes/books.js:192-228 | an invalid body is a 400 with the validator's messages before any statement; 409 exactly when the INSERT reports a duplicate ISBN; 201 exactly when the body is valid and the INSERT runs, storing `BookOf(body)` under the counter; nothing else writes, only the books table, and the table stays valid |
| `BooksApi.CreateBookWithId` | Tema_1/routes/books.js:230-280 | an invalid body is a 400 before the id lookup; 409 exactly when a valid body meets a taken id or the INSERT reports a duplicate ISBN; a 201 needs a free id, stores `BookOf(body)` under the id MySQL assigns and names it in `Location`; nothing else writes |
| `BooksApi.ReplaceBook` | Tema_1/routes/books.js:284-321 | an invalid body is a 400 before the lookup; a valid body for a missing book is a 404; 409 exactly when the UPDATE hits a duplicate ISBN; a 204 stores `BookOf(body)` over the existing row and is the only answer that writes, only to the books table; `BooksApi.ReplaceThenGet` is its partner |
| `BooksApi.ReplaceThenGet` | Tema_1/routes/books.js:284-321 | after a 204 the book reads back as the body's columns, absent ones NULL; a duplicate ISBN is a 409 that changes nothing |
| `BooksApi.PatchBook` | Tema_1/routes/books.js:329-388 | a non-empty invalid body is a 400 before the lookup; 409 exactly when the UPDATE of an existing book reports a duplicate ISBN; a 200 replaces exactly the present fields of that row; nothing else writes, only the books table |
| `BooksApi.DeleteBook` | Tema_1/routes/books.js:396-414 | a delete writes only on 200 and only the books table |
| `BooksApi.DeleteBookTwice` | Tema_1/routes/books.js:396-414 | deleting twice answers 200 then 404, and the first call removes exactly that row |
| `BooksApi.CreateThenGet` | Tema_1/routes/books.js:192-228 | a created book is readable under the id its `Location` names |
| `BooksApi.CreateWithIdThenGet` | Tema_1/routes/books.js:230-280 | a create under a free explicit id answers 201 naming `/books/<id>`; for a non-zero id the book is readable there and a repeat is a 409 that changes nothing; for id 0 the row lands under the counter, `/books/0` stays a 404 and a repeat creates another row |
| `BooksApi.PatchEmptyBody` | Tema_1/routes/books.js:333-335 | an empty PATCH body is a 400 before any lookup, whatever the table holds |
| `BooksApi.PatchCheckOrder` | Tema_1/routes/books.js:337-362 | a bad year is a 400 even for a missing book; a body with no whitelisted field is a 400 only for an existing book, else 404 |
| `BooksApi.PatchMatchesUpdate` | Tema_1/routes/books.js:351-381 | a successful PATCH stores in each updated column the value its UPDATE binds, keeps the omitted columns and every other row |
| `BooksApi.RecommendChecks` | Tema_1/routes/books.js:99-141 | 400 exactly when neither flag is the text `true`; otherwise a missing book is a 404, and on a healthy database an existing book gives 200 exactly when rows come back and MySQL takes the `LIMIT`; a refused `LIMIT` is a 500 |
| `BooksApi.RecommendByFilterChecks` | Tema_1/routes/books.js:149-188 | 400 exactly when neither filter is given; past that a failing statement, or a `LIMIT` MySQL refuses, is a 500, and a healthy one answers 200 exactly when rows come back, else 404; a 200 carries at least one filter condition |
| `AuthorsApi.ListAuthors` | Tema_1/routes/authors.js:11-74 | 500 exactly when the list statement fails or MySQL refuses its `LIMIT`/`OFFSET`; a 200 carries the filtered list statement, and its `totalItems` counts every author |
| `AuthorsApi.GetAuthor` | Tema_1/routes/authors.js:76-100 | 200 exactly when the first statement runs and the author exists, whether or not the books statement fails; 404 exactly when it runs and the author is missing |
| `AuthorsApi.AuthorOf` | Tema_1/routes/authors.js:112-114 | an inserted author takes each whitelisted column from the body, NULL when absent |
| `AuthorsApi.PatchedAuthor` | Tema_1/routes/authors.js:253-273 | a patched author takes the body's value for each field present and keeps the rest |
| `AuthorsApi.BooksByAuthorQuery` | Tema_1/routes/authors.js:86 | the author's books are selected by one LIKE parameter, `%name%` |
| `AuthorsApi.CreateAuthor` | Tema_1/routes/authors.js:103-136 | 201 exactly when the body is valid and the INSERT runs; a 201 stores `AuthorOf(body)` under the counter its `Location` names; nothing else writes, and only the authors table; `AuthorsApi.CreateThenGet` is its partner |
| `AuthorsApi.CreateThenGet` | Tema_1/routes/authors.js:103-136 | a created author reads back, with its books statement, at the `Location` the 201 names |
| `AuthorsApi.CreateAuthorWithId` | Tema_1/routes/authors.js:138-185 | an invalid body is a 400 before the id lookup; 409 exactly when a valid body meets a taken id; a 201 needs a free id, stores `AuthorOf(body)` under the id MySQL assigns and names it in `Location`; nothing else writes |
| `AuthorsApi.ReplaceAuthor` | Tema_1/routes/authors.js:189-223 | a full update writes only on 204 and only the authors table |
| `AuthorsApi.PatchAuthor` | Tema_1/routes/authors.js:231-287 | an empty body is a 400 before any lookup; a valid body with no whitelisted field is a 400 for an existing author; a 200 replaces exactly the present fields of that row and is the only answer that writes, only to the authors table |
| `AuthorsApi.PatchEmptyBody` | Tema_1/routes/authors.js:235-237 | an empty PATCH body is a 400 before any lookup, whatever the table holds |
| `AuthorsApi.PatchCheckOrder` | Tema_1/routes/authors.js:239-264 | a bad birth year is a 400 even for a missing author; a body with no whitelisted field is a 400 only for an existing author, else 404 |
| `AuthorsApi.DeleteAuthor` | Tema_1/routes/authors.js:295-313 | a delete writes only on 200 and only the authors table |
| `AuthorsApi.ReplaceValidatesFirst` | Tema_1/routes/authors.js:193-205 | an invalid body is a 400 whatever the table holds; a valid body for a missing author is a 404 |
| `AuthorsApi.ReplaceWritesAllColumns` | Tema_1/routes/authors.js:207-216 | a successful full update is a 204 with no body and sets every column, absent ones to NULL |
| `AuthorsApi.GetAuthorDegrades` | Tema_1/routes/authors.js:82-96 | a failing books statement still gives 200 with the author alone; otherwise the author comes with its books |
| `AuthorsApi.CreateWithIdConflict` | Tema_1/routes/authors.js:147-177 | a taken id is a 409 that changes nothing; a free one is named in `Location` and, when non-zero, holds the new row, while id 0 stores the row under the counter |
| `AuthorsApi.CreateFailureIsServerError` | Tema_1/routes/authors.js:112-118 | a failing author insert is a 500 even for a duplicate key |
| `AuthorsApi.DeleteAuthorTwice` | Tema_1/routes/authors.js:295-313 | deleting twice answers 200 then 404 |
| `AuthorsApi.PatchMatchesUpdate` | Tema_1/routes/authors.js:253-280 | a successful PATCH stores in each updated column the value its UPDATE binds and keeps the omitted ones |
| `LibrariesApi.ListLibraries` | Tema_1/routes/library.js:10-73 | 500 exactly when the list statement fails or MySQL refuses its `LIMIT`/`OFFSET`; a 200 carries the filtered list statement, and its `totalItems` counts every library |
| `LibrariesApi.GetLibrary` | Tema_1/routes/library.js:75-87 | 200 exactly when the statement runs and the library exists, 404 exactly when it runs and the library is missing |
| `LibrariesApi.AllLibraryStats` | Tema_1/routes/library.js:89-139 | 200 exactly when none of the four statements fails, and any other answer is the 500 database error |
| `LibrariesApi.InvalidLibraryId` | Tema_1/routes/library.js:142-144 | an undefined id is invalid and a digit id never is |
| `LibrariesApi.LibraryStatsById` | Tema_1/routes/library.js:141-224 | 400 exactly when the id guard fails; a 200 needs the library to exist |
| `LibrariesApi.LibraryOf` | Tema_1/routes/library.js:236-238 | an inserted library takes name and location from the body |
| `LibrariesApi.LibraryEcho` | Tema_1/routes/library.js:244-249 | a created library is echoed as its id, name and location |
| `LibrariesApi.CreateLibrary` | Tema_1/routes/library.js:228-261 | a create writes only on 201 and only the libraries table |
| `LibrariesApi.CreateLibraryWithId` | Tema_1/routes/library.js:263-310 | 409 exactly when `name` and `location` are truthy and the id is taken; a 201 needs a free id and stores `LibraryOf(body)` under the id MySQL assigns, named in `Location`; nothing else writes, and only the libraries table; `LibrariesApi.CreateWithIdConflict` is its partner |
| `LibrariesApi.CreateWithIdConflict` | Tema_1/routes/library.js:263-310 | a taken id is a 409 that changes nothing; a free one is named in `Location` and, when non-zero, holds the new row, while id 0 stores the row under the counter |
| `LibrariesApi.ReplaceLibrary` | Tema_1/routes/library.js:314-341 | an absent library is a 404 whatever the body; a 200 overwrites both columns of the existing row and is the only answer that writes, only to the libraries table; `LibrariesApi.ReplaceMissingLibrary` and `LibrariesApi.ReplaceAcceptsAnyBody` are its partners |
| `LibrariesApi.ReplaceMissingLibrary` | Tema_1/routes/library.js:318-324 | on a healthy database an absent library is a 404 that changes nothing |
| `LibrariesApi.DeleteLibrary` | Tema_1/routes/library.js:349-361 | a delete writes only on 200 and only the libraries table |
| `LibrariesApi.StatsIdGuard` | Tema_1/routes/library.js:142-144 | without an id the per-library statistics are a 400 whatever the database; a captured digit id passes the guard |
| `LibrariesApi.StatsOfLibrary` | Tema_1/routes/library.js:141-224 | with a healthy database the statistics name the library and count its entries; a missing library is a 404 |
| `LibrariesApi.CreateRequiresNameAndLocation` | Tema_1/routes/library.js:228-269 | both create variants are a 400 exactly when name or location is falsy |
| `LibrariesApi.ReplaceAcceptsAnyBody` | Tema_1/routes/library.js:314-334 | the full update checks no field: for an existing library it is always 200 and writes both columns |
| `LibrariesApi.DeleteLibraryTwice` | Tema_1/routes/library.js:349-359 | deleting twice answers 200 then 404 |
| `LibrariesApi.CreateThenGet` | Tema_1/routes/library.js:228-261 | a created library is readable at the id its `Location` names, and the library total of the statistics grows by one |
| `LibrariesApi.AllStatsCounts` | Tema_1/routes/library.js:89-139 | a failure of any of the four statements is a 500; otherwise the totals count the libraries and the `library_books` rows |
| `LibraryBooksApi.GetEntry` | Tema_1/routes/library-books.js:10-22 | 200 exactly when the statement runs and the entry exists, 404 exactly when it runs and the entry is missing |
| `LibraryBooksApi.ListEntries` | Tema_1/routes/library-books.js:24-59 | 500 exactly when its one statement fails, 200 otherwise |
| `LibraryBooksApi.Conflict` | Tema_1/routes/library-books.js:94-100 | the duplicate-pair query; `LibraryBooksApi.AddEntryConflict` and `LibraryBooksApi.ReplaceEntryKeepsOwnPair` state how the handlers use it |
| `LibraryBooksApi.AddEntry` | Tema_1/routes/library-books.js:62-132 | a create writes only on 201, only the entries table, and never a second row for a (library, book) pair |
| `LibraryBooksApi.InsertEntry` | Tema_1/routes/library-books.js:70-124 | the library, then the book, then the author is looked up, each missing one a 404 naming it; 409 exactly when all three exist and the pair is already held; a 201 adds exactly the new row under the counter; entries stay unique and nothing else writes |
| `LibraryBooksApi.ReplaceEntry` | Tema_1/routes/library-books.js:140-211 | an update writes only on 200, only the entries table, and keeps the pairs unique |
| `LibraryBooksApi.MoveEntry` | Tema_1/routes/library-books.js:148-201 | the entry, then the library, book and author are looked up, each missing one a 404 naming it; 409 exactly when all exist and another row holds the pair; a 200 rewrites exactly that entry; entries stay unique and nothing else writes |
| `LibraryBooksApi.DeleteEntry` | Tema_1/routes/library-books.js:219-231 | a delete writes only on 200 and only the entries table |
| `LibraryBooksApi.NewPairKeepsUnique` | Tema_1/routes/library-books.js:94-100 | writing a pair that no other row holds keeps every pair unique |
| `LibraryBooksApi.RequiredIds` | Tema_1/routes/library-books.js:62-146 | create is a 400 exactly when book_id or author_id is falsy, update exactly when one of the three ids is |
| `LibraryBooksApi.AddEntryCheckOrder` | Tema_1/routes/library-books.js:70-92 | on a healthy database a missing library is named whatever the book and author, a missing book whatever the author, and a missing author before the pair check |
| `LibraryBooksApi.AddEntryConflict` | Tema_1/routes/library-books.js:94-121 | a pair the library already holds is a 409 that changes nothing; a new pair is created and readable at its `Location` |
| `LibraryBooksApi.ReplaceEntryCheckOrder` | Tema_1/routes/library-books.js:148-154 | a missing entry is a 404 naming the entry whatever the body references |
| `LibraryBooksApi.ReplaceEntryKeepsOwnPair` | Tema_1/routes/library-books.js:180-190 | rewriting an entry with its own pair is no conflict, because the row itself is excluded |
| `LibraryBooksApi.DeleteEntryTwice` | Tema_1/routes/library-books.js:219-231 | deleting twice answers 200 then 404 |
| `LibraryBooksApi.ListEntriesOutcome` | Tema_1/routes/library-books.js:24-59 | a failing statement is a 500; otherwise 200 with the rows of the filter statement, which with no filter given is the whole table |
| `LibraryBooksApi.EntryFilterAt` | Tema_1/routes/library-books.js:32-49 | the `i`-th condition is `<column> = ` for the `i`-th given filter, bound to its query value unchanged |
| `Server.Run` | Tema_1/routes/router.js:7-15 | only writing handlers change the store, only on success, and every handler keeps the tables valid and the entries unique |
| `Server.Serve` | Tema_1/server.js:9-92 | OPTIONS is the bare preflight with nothing changed; every other answer carries `Access-Control-Allow-Origin: *`; the store changes only on success and stays valid |
| `Server.Invoked` | Tema_1/server.js:38-91 | a dispatched handler's outcome is served with the CORS header added |
| `Server.RunCollectionNotAllowed` | Tema_1/routes/books.js:323-325 | the collection-level write handlers answer 405 and change nothing |
| `Server.RunNotFound` | Tema_1/routes/router.js:12-14 | `default` answers 404 `Endpoint not found` and changes nothing |
| `Server.DeleteBookRoute` | Tema_1/server.js:38-44 | `DELETE /books/<digits>` dispatches to the book delete with the digits |
| `Server.RunDeleteBook` | Tema_1/routes/books.js:396-414 | the delete handler key runs the book delete |
| `Server.IdPathServed` | Tema_1/server.js:38-65 | `/<resource>/<digits>` runs the registered `:id` handler with the digits as id and serves its outcome with CORS |
| `Server.CollectionRefused` | Tema_1/routes/library-books.js:134-136 | a refused method on a whole collection is a 405 with CORS and changes nothing |
| `Server.DeleteBookTwiceServed` | Tema_1/routes/books.js:396-414 | over HTTP, deleting a book twice answers 200 then 404, and the first request removes exactly that row |
| `Server.UnroutedNotFound` | Tema_1/server.js:83-91 | a path with no usable capture and no registered literal key gets the default 404 with CORS and changes nothing |
| `Server.WritingRoutes` | Tema_1/routes/router.js:7-11 | only keys of POST, PUT, PATCH and DELETE name writing handlers |
| `Server.ReadMethodsKeepStore` | Tema_1/server.js:9-92 | a request with any other method never changes the database, whatever its path |
| `Server.MalformedBody` | Tema_1/utils.js:18-22 | every handler that parses a body answers one `JSON.parse` rejects with 400 `Invalid JSON in request body` (e.g. books.js:225-227) before any statement and changes nothing |
| `Server.BodyIgnored` | Tema_1/utils.js:1-29 | every handler that never calls `getRequestBody` gives the same outcome whatever the body |

## Left out

- `decodeURIComponent` on the path is not modelled: the path arrives already decoded, and a malformed escape, which throws in the source, has no counterpart.
- `parseInt` is modelled as an optional sign followed by decimal digits. Leading whitespace, `0x` prefixes and the value range of a double are not modelled.
- `toUpperCase` is modelled on ASCII letters only.
- `isNaN` on a string is modelled as "not a decimal integer text". Strings that `Number()` accepts but the model calls NaN: fractions, exponents, `0x`/`0b`/`0o` literals, `Infinity`, and text with surrounding whitespace. An array is coerced through its comma-joined text, as `Number([...])` does. An object is always NaN, since its members are not kept.
- Numbers are integers. Floating point is left out: `AVG(published_year)`, `toFixed(2)` and the book/genre groupings in the statistics handlers (Tema_1/routes/library.js:89-224). Of those handlers the model keeps the status decisions, the id guard and the two counts.
- A query key repeated in the URL, which Node turns into an array, is not modelled: each query value is a string.
- A request body that is JSON but not an object (an array, a number) is not modelled. A body is either malformed or an object, and an empty body is the empty object, as `getRequestBody` makes it (Tema_1/utils.js:13-16).
- The mysql2 pool, `mysql.escapeId` and MySQL's type coercion and collation are outside the model. An escaped identifier stays an opaque `Ident` token, and a route id selects a row by its decimal value. The same holds for the `book_id`, `author_id` and `library_id` of `library_books` bodies: MySQL would coerce `true`, `[5]`, `"5abc"` or `" 5"` in `WHERE id = ?` to a key, where `Store.KeyOfValue` selects no row.
- Which statement fails, and whether the failure is a duplicate key, is an oracle parameter. So is whether a recommendation statement returns rows. The error text MySQL reports (`details`) is not modelled.
- The rows a `SELECT` returns to the client are denoted by the statement that selects them. A list page is therefore the list statement, not the rows it would yield.
- The `created_at` and `added_at` timestamps are not modelled: the echo of a created row leaves them out.
- Concurrency is not modelled, including the race between a handler's existence check and its write. Every request runs alone against the store.
- `console.log`, `dotenv`, `server.listen` and the port are I/O.
- Tema_2 (the Python proxy and the React front end) is not part of this model.
- `Paging.TotalPages`: with `limit=0`, `Math.ceil(count / 0)` is NaN or Infinity in the source, which JSON prints as `null`. The model returns no page count there.
- `Paging.ListPage`: MySQL's refusal of a NaN or negative `LIMIT` or `OFFSET` is modelled as the statement failing (`Sql.PagingRefused`, and `Sql.Refused` for the recommendations' `LIMIT`). A value past MySQL's unsigned 64-bit range, which it also refuses, is not, since such a number already exceeds what `parseInt` reads exactly.
- `Sql.ListQuery`: mysql2 formats the statement on the client and replaces every `?`, including one inside the backtick-quoted sort column, so `sort=a?` would take the LIMIT's value and shift the rest. The model takes an escaped identifier to hold no `?`.
- The table schema is not part of the source. The model assumes `library_books` has no foreign key that cascades a delete: deleting a book, author or library leaves its `library_books` rows as they were (`BooksApi.DeleteBook`, `AuthorsApi.DeleteAuthor`, `LibrariesApi.DeleteLibrary`). A restricting key would only make the DELETE fail, which the fault oracle already covers.
- `Store.InsertAt`: the counter moves past an explicit id, as InnoDB does. The source relies on MySQL for this and states no rule of its own. An explicit id of 0 auto-increments, as under MySQL's default `sql_mode` (`Store.InsertWithId`); the `NO_AUTO_VALUE_ON_ZERO` mode is not modelled.
- `Server.Serve`: the four preflight headers are one constant response. Of the headers, the contract states only the CORS origin header on non-OPTIONS answers.

=== FILE: authors.dfy ===
/** The `/authors` handlers, in the same shape as the book handlers. Authors
    have no unique column besides `id`, so no failure is reported as 409
    except an explicit id that is already taken. */
module AuthorsApi {
  import opened Js
  import opened Seqs
  import opened Validation
  import opened Sql
  import opened Store
  import opened Http
  import opened Paging

  const AuthorNotFound := "Author not found"
  const AuthorWhitelist := ["name", "biography", "birth_year", "country"]

  function AuthorOf(data: map<string, Value>): (a: Author)
    ensures forall f :: f in AuthorWhitelist ==> AuthorField(a, f) == FieldOrNull(data, f)
  {
    Author(FieldOrNull(data, "name"), FieldOrNull(data, "biography"),
           FieldOrNull(data, "birth_year"), FieldOrNull(data, "country"))
  }

  function AuthorField(a: Author, f: string): Value
  {
    if f == "name" then a.name
    else if f == "biography" then a.biography
    else if f == "birth_year" then a.birth_year
    else if f == "country" then a.country
    else Null
  }

  function PatchedAuthor(a: Author, data: map<string, Value>): (p: Author)
    ensures forall f :: f in AuthorWhitelist ==>
      AuthorField(p, f) == (if f in data then data[f] else AuthorField(a, f))
  {
    Author(if "name" in data then data["name"] else a.name,
           if "biography" in data then data["biography"] else a.biography,
           if "birth_year" in data then data["birth_year"] else a.birth_year,
           if "country" in data then data["country"] else a.country)
  }

  /** The books listed with an author: those whose `author` contains the
      author's name. */
  function BooksByAuthorQuery(name: Value): (q: Query)
    ensures WellFormed(q) && q.params == [Arg(Str("%" + TemplateText(name) + "%"))]
  {
    var tokens := [Text("SELECT * FROM books WHERE author LIKE "), Param];
    assert multiset(tokens)[Param] == 1;
    Query(tokens, [Arg(Str("%" + TemplateText(name) + "%"))])
  }

  /** `GET /authors`. */
  function ListAuthors(s: Store, db: Db, query: map<string, string>): (r: Response)
    ensures r.status == 500 <==> Fails(db, 0) || PagingRefused(query)
    ensures r.status == 200 ==>
      r.payload.Listing? && r.payload.data == ListQuery("authors", AuthorFilters, query)
      && (r.payload.pagination.totals.Some? ==> r.payload.pagination.totals.value.totalItems == |s.authors.rows|)
  {
    ListPage(|s.authors.rows|, "authors", AuthorFilters, db, query)
  }

  /** `GET /authors/:id/`: the author with the books matching its name; if
      that second statement fails the author is sent alone, still with 200. */
  function GetAuthor(s: Store, db: Db, id: Option<string>): (r: Response)
    ensures r.status == 200 <==> !Fails(db, 0) && Lookup(s.authors, RowKey(id)).Some?
    ensures r.status == 404 <==> !Fails(db, 0) && Lookup(s.authors, RowKey(id)).None?
  {
    var key := RowKey(id);
    if Fails(db, 0) then DbFailure
    else if Lookup(s.authors, key).None? then Send(404, Error(AuthorNotFound))
    else
      var a := s.authors.rows[key.value];
      if Fails(db, 1) then Send(200, AuthorRow(key.value, a))
      else Send(200, AuthorWithBooks(key.value, a, BooksByAuthorQuery(a.name)))
  }

  /** `POST /authors`. */
  function CreateAuthor(s: Store, db: Db, body: Body): (o: Outcome)
    ensures Valid(s.authors) ==> Valid(o.store.authors)
    ensures o.response.status != 201 ==> o.store == s
    ensures o.response.status == 201 <==> body.Json? && AuthorAcceptable(body.fields, true) && !Fails(db, 0)
    ensures o.response.status == 201 ==>
      body.Json? && o.store.authors.rows == s.authors.rows[s.authors.next := AuthorOf(body.fields)]
      && "Location" in o.response.headers && o.response.headers["Location"] == "/authors/" + NatText(s.authors.next)
    ensures o.store.books == s.books && o.store.libraries == s.libraries && o.store.entries == s.entries
  {
    match body
    case Malformed => Outcome(s, BadJson)
    case Json(data) =>
      var errors := ValidateAuthor(data, true);
      if errors != [] then Outcome(s, Send(400, Invalid(errors)))
      else if Fails(db, 0) then Outcome(s, DbFailure)
      else
        var k := s.authors.next;
        Outcome(s.(authors := Insert(s.authors, AuthorOf(data))),
                CreatedAt("/authors/" + NatText(k), Echo(Some(Num(k)), data)))
  }

  /** `POST /authors/:id/`. */
  function CreateAuthorWithId(s: Store, db: Db, id: Option<string>, body: Body): (o: Outcome)
    ensures Valid(s.authors) ==> Valid(o.store.authors)
    ensures o.response.status != 201 ==> o.store == s
    ensures body.Json? && !AuthorAcceptable(body.fields, true) ==>
      o == Outcome(s, Send(400, Invalid(ValidateAuthor(body.fields, true))))
    ensures o.response.status == 409 <==>
      body.Json? && AuthorAcceptable(body.fields, true) && !Fails(db, 0) && Lookup(s.authors, RowKey(id)).Some?
    ensures o.response.status == 201 ==>
      body.Json? && Lookup(s.authors, RowKey(id)).None?
      && o.store.authors.rows == s.authors.rows[AssignedId(s.authors, RowKey(id)) := AuthorOf(body.fields)]
      && "Location" in o.response.headers && o.response.headers["Location"] == "/authors/" + IdText(id)
    ensures o.store.books == s.books && o.store.libraries == s.libraries && o.store.entries == s.entries
  {
    match body
    case Malformed => Outcome(s, BadJson)
    case Json(data) =>
      var errors := ValidateAuthor(data, true);
      var key := RowKey(id);
      if errors != [] then Outcome(s, Send(400, Invalid(errors)))
      else if Fails(db, 0) then Outcome(s, DbFailure)
      else if Lookup(s.authors, key).Some? then Outcome(s, Send(409, Error("Author with this ID already exists")))
      else if Fails(db, 1) then Outcome(s, DbFailure)
      else
        var authors := InsertWithId(s.authors, key, AuthorOf(data));
        Outcome(s.(authors := authors),
                CreatedAt("/authors/" + IdText(id), Echo(if id.Some? then Some(Str(id.value)) else None, data)))
  }

  /** `PUT /authors/:id/`: validation comes before the lookup. */
  function ReplaceAuthor(s: Store, db: Db, id: Option<string>, body: Body): (o: Outcome)
    ensures Valid(s.authors) ==> Valid(o.store.authors)
    ensures o.response.status != 204 ==> o.store == s
    ensures o.store.books == s.books && o.store.libraries == s.libraries && o.store.entries == s.entries
  {
    match body
    case Malformed => Outcome(s, BadJson)
    case Json(data) =>
      var errors := ValidateAuthor(data, true);
      var key := RowKey(id);
      if errors != [] then Outcome(s, Send(400, Invalid(errors)))
      else if Fails(db, 0) then Outcome(s, DbFailure)
      else if Lookup(s.authors, key).None? then Outcome(s, Send(404, Error(AuthorNotFound)))
      else if Fails(db, 1) then Outcome(s, DbFailure)
      else Outcome(s.(authors := Put(s.authors, key.value, AuthorOf(data))), NoContent)
  }

  /** `PATCH /authors/:id/`. */
  function PatchAuthor(s: Store, db: Db, id: Option<string>, body: Body): (o: Outcome)
    ensures Valid(s.authors) ==> Valid(o.store.authors)
    ensures o.response.status != 200 ==> o.store == s
    ensures body == Json(map[]) ==> o == Outcome(s, Send(400, Error("Request body cannot be empty")))
    ensures body.Json? && body.fields != map[] && AuthorAcceptable(body.fields, false) && !Fails(db, 0)
            && Lookup(s.authors, RowKey(id)).Some? && Updates(AuthorWhitelist, body.fields) == [] ==>
      o == Outcome(s, Send(400, Error("No valid fields to update")))
    ensures o.response.status == 200 ==>
      body.Json? && RowKey(id).Some? && RowKey(id).value in s.authors.rows
      && o.store.authors.rows
         == s.authors.rows[RowKey(id).value := PatchedAuthor(s.authors.rows[RowKey(id).value], body.fields)]
    ensures o.store.books == s.books && o.store.libraries == s.libraries && o.store.entries == s.entries
  {
    match body
    case Malformed => Outcome(s, BadJson)
    case Json(data) =>
      var errors := ValidateAuthor(data, false);
      var key := RowKey(id);
      if |data| == 0 then Outcome(s, Send(400, Error("Request body cannot be empty")))
      else if errors != [] then Outcome(s, Send(400, Invalid(errors)))
      else if Fails(db, 0) then Outcome(s, DbFailure)
      else if Lookup(s.authors, key).None? then Outcome(s, Send(404, Error(AuthorNotFound)))
      else if Updates(AuthorWhitelist, data) == [] then Outcome(s, Send(400, Error("No valid fields to update")))
      else if Fails(db, 1) then Outcome(s, DbFailure)
      else
        var a := s.authors.rows[key.value];
        Outcome(s.(authors := Put(s.authors, key.value, PatchedAuthor(a, data))),
                Send(200, Message("Author updated successfully")))
  }

  /** `DELETE /authors/:id/`. */
  function DeleteAuthor(s: Store, db: Db, id: Option<string>): (o: Outcome)
    ensures Valid(s.authors) ==> Valid(o.store.authors)
    ensures o.response.status != 200 ==> o.store == s
    ensures o.store.books == s.books && o.store.libraries == s.libraries && o.store.entries == s.entries
  {
    var key := RowKey(id);
    if Fails(db, 0) then Outcome(s, DbFailure)
    else if Lookup(s.authors, key).None? then Outcome(s, Send(404, Error(AuthorNotFound)))
    else if Fails(db, 1) then Outcome(s, DbFailure)
    else Outcome(s.(authors := Remove(s.authors, key.value)), Send(200, Message("Author deleted successfully")))
  }

  // ----- Properties -----

  /** An invalid body is a 400 whatever the database holds, so a missing
      author with a bad body is reported as 400, not 404; a valid body for a
      missing author is a 404. */
  lemma ReplaceValidatesFirst(s: Store, db: Db, id: Option<string>, data: map<string, Value>)
    ensures !AuthorAcceptable(data, true) ==>
      ReplaceAuthor(s, db, id, Json(data)) == Outcome(s, Send(400, Invalid(ValidateAuthor(data, true))))
    ensures AuthorAcceptable(data, true) && !Fails(db, 0) && Lookup(s.authors, RowKey(id)).None? ==>
      ReplaceAuthor(s, db, id, Json(data)) == Outcome(s, Send(404, Error(AuthorNotFound)))
  {
  }

  /** A successful full update answers 204 with no header and no body and
      replaces every column, absent ones by NULL. */
  lemma ReplaceWritesAllColumns(s: Store, id: Option<string>, data: map<string, Value>)
    requires AuthorAcceptable(data, true)
    requires Lookup(s.authors, RowKey(id)).Some?
    ensures var o := ReplaceAuthor(s, Db(Healthy, false), id, Json(data));
      o.response == NoContent
      && forall f :: f in AuthorWhitelist ==> AuthorField(o.store.authors.rows[RowKey(id).value], f) == FieldOrNull(data, f)
  {
  }

  /** The author page degrades instead of failing: a failed books statement
      still answers 200 with the author alone. */
  lemma GetAuthorDegrades(s: Store, id: Option<string>)
    requires Lookup(s.authors, RowKey(id)).Some?
    ensures var a := s.authors.rows[RowKey(id).value];
      GetAuthor(s, Db(FailAt(1, false), false), id) == Send(200, AuthorRow(RowKey(id).value, a))
      && GetAuthor(s, Db(Healthy, false), id) == Send(200, AuthorWithBooks(RowKey(id).value, a, BooksByAuthorQuery(a.name)))
  {
  }

  /** An explicit id that is taken is a 409 that changes nothing; a free one
      is named in `Location` and, unless it is 0, holds the new row.  An id of
      0 stores the row under the auto-increment counter. */
  lemma CreateWithIdConflict(s: Store, d: string, data: map<string, Value>)
    requires IsDigits(d)
    requires AuthorAcceptable(data, true)
    ensures var o := CreateAuthorWithId(s, Db(Healthy, false), Some(d), Json(data));
      (DigitsValue(d) in s.authors.rows ==> o == Outcome(s, Send(409, Error("Author with this ID already exists"))))
      && (DigitsValue(d) !in s.authors.rows ==>
           o.response.status == 201 && o.response.headers["Location"] == "/authors/" + d
           && (DigitsValue(d) > 0 ==> o.store.authors.rows == s.authors.rows[DigitsValue(d) := AuthorOf(data)])
           && (DigitsValue(d) == 0 ==> o.store.authors.rows == s.authors.rows[s.authors.next := AuthorOf(data)]))
  {
  }

  /** A created author can be read back at the `Location` the 201 names,
      with the books statement for its name. */
  lemma CreateThenGet(s: Store, data: map<string, Value>)
    requires Valid(s.authors)
    requires AuthorAcceptable(data, true)
    ensures var db := Db(Healthy, false);
      var created := CreateAuthor(s, db, Json(data));
      var k := s.authors.next;
      created.response.status == 201
      && created.response.headers["Location"] == "/authors/" + NatText(k)
      && GetAuthor(created.store, db, Some(NatText(k)))
         == Send(200, AuthorWithBooks(k, AuthorOf(data), BooksByAuthorQuery(FieldOrNull(data, "name"))))
  {
    var k := s.authors.next;
    NatTextValue(k);
  }

  /** An empty PATCH body is refused before the database is consulted. */
  lemma PatchEmptyBody(s: Store, db: Db, id: Option<string>)
    ensures PatchAuthor(s, db, id, Json(map[])) == Outcome(s, Send(400, Error("Request body cannot be empty")))
  {
  }

  /** Validation runs before the lookup: a non-numeric birth year is a 400
      even for a missing author, and a body with no whitelisted field is a
      400 only once the author is known to exist. */
  lemma PatchCheckOrder(s: Store, id: Option<string>, data: map<string, Value>)
    requires data != map[]
    ensures NotANumberField(data, "birth_year") ==>
      PatchAuthor(s, Db(Healthy, false), id, Json(data)).response.status == 400
    ensures AuthorAcceptable(data, false) && (forall f :: f in AuthorWhitelist ==> f !in data) ==>
      PatchAuthor(s, Db(Healthy, false), id, Json(data)).response.status
        == (if Lookup(s.authors, RowKey(id)).Some? then 400 else 404)
  {
    if AuthorAcceptable(data, false) && (forall f :: f in AuthorWhitelist ==> f !in data) {
      var u := Updates(AuthorWhitelist, data);
      assert u == [] || u[0] in u;
    }
  }

  /** Unlike a book insert, a failing author insert is always a 500, even
      when MySQL reports a duplicate key. */
  lemma CreateFailureIsServerError(s: Store, data: map<string, Value>)
    requires AuthorAcceptable(data, true)
    ensures CreateAuthor(s, Db(FailAt(0, true), false), Json(data)) == Outcome(s, DbFailure)
  {
  }

  /** Deleting an author twice answers 200 and then 404. */
  lemma DeleteAuthorTwice(s: Store, id: Option<string>)
    requires Lookup(s.authors, RowKey(id)).Some?
    ensures var first := DeleteAuthor(s, Db(Healthy, false), id);
      first.response.status == 200
      && first.store.authors.rows == s.authors.rows - {RowKey(id).value}
      && DeleteAuthor(first.store, Db(Healthy, false), id).response == Send(404, Error(AuthorNotFound))
  {
  }

  /** A successful PATCH writes what its UPDATE statement binds, column by
      column, and leaves the fields the body omits. */
  lemma PatchMatchesUpdate(s: Store, db: Db, id: Option<string>, data: map<string, Value>, i: nat)
    requires PatchAuthor(s, db, id, Json(data)).response.status == 200
    requires i < |Updates(AuthorWhitelist, data)|
    ensures var fields := Updates(AuthorWhitelist, data);
      var k := RowKey(id).value;
      var after := PatchAuthor(s, db, id, Json(data)).store.authors.rows;
      var q := UpdateQuery("authors", fields, data, id);
      k in after && i < |q.params| && q.params[i] == Arg(AuthorField(after[k], fields[i]))
      && (forall f :: f in AuthorWhitelist && f !in data ==> AuthorField(after[k], f) == AuthorField(s.authors.rows[k], f))
  {
    var fields := Updates(AuthorWhitelist, data);
    assert fields[i] in fields;
    forall j | 0 <= j < |fields| ensures fields[j] in data {
      assert fields[j] in fields;
    }
    UpdateQueryParams("authors", fields, data, id, i);
  }
}

=== FILE: books.dfy ===
/** The `/books` handlers.  Each takes the database, the route id (the
    captured digits, or `None` when the handler was reached through the
    literal route key), the query string and the body, and checks its error
    cases in the order the source does. */
module BooksApi {
  import opened Js
  import opened Seqs
  import opened Validation
  import opened Sql
  import opened Store
  import opened Http
  import opened Paging

  const BookNotFound := "Book not found"
  const DuplicateIsbn := "Book with this ISBN already exists"
  const BookWhitelist := ["title", "author", "genre", "published_year", "isbn"]

  /** The row an INSERT or a full UPDATE writes: absent fields become NULL. */
  function BookOf(data: map<string, Value>): (b: Book)
    ensures forall f :: f in BookWhitelist ==> BookField(b, f) == FieldOrNull(data, f)
  {
    Book(FieldOrNull(data, "title"), FieldOrNull(data, "author"), FieldOrNull(data, "genre"),
         FieldOrNull(data, "published_year"), FieldOrNull(data, "isbn"))
  }

  /** A column of a book row by name. */
  function BookField(b: Book, f: string): Value
  {
    if f == "title" then b.title
    else if f == "author" then b.author
    else if f == "genre" then b.genre
    else if f == "published_year" then b.published_year
    else if f == "isbn" then b.isbn
    else Null
  }

  /** The row after a partial update: each whitelisted field present in the
      body takes the body's value, the others keep theirs. */
  function PatchedBook(b: Book, data: map<string, Value>): (p: Book)
    ensures forall f :: f in BookWhitelist ==>
      BookField(p, f) == (if f in data then data[f] else BookField(b, f))
  {
    Book(if "title" in data then data["title"] else b.title,
         if "author" in data then data["author"] else b.author,
         if "genre" in data then data["genre"] else b.genre,
         if "published_year" in data then data["published_year"] else b.published_year,
         if "isbn" in data then data["isbn"] else b.isbn)
  }

  /** A failed write: 409 for a duplicate ISBN, 500 otherwise. */
  function WriteFailure(db: Db, step: nat): Response
  {
    if Duplicate(db, step) then Send(409, Error(DuplicateIsbn)) else DbFailure
  }

  /** `GET /books`. */
  function ListBooks(s: Store, db: Db, query: map<string, string>): (r: Response)
    ensures r.status == 500 <==> Fails(db, 0) || PagingRefused(query)
    ensures r.status == 200 ==>
      r.payload.Listing? && r.payload.data == ListQuery("books", BookFilters, query)
      && (r.payload.pagination.totals.Some? ==> r.payload.pagination.totals.value.totalItems == |s.books.rows|)
  {
    ListPage(|s.books.rows|, "books", BookFilters, db, query)
  }

  /** `GET /books/:id/`. */
  function GetBook(s: Store, db: Db, id: Option<string>): (r: Response)
    ensures r.status == 200 <==> !Fails(db, 0) && Lookup(s.books, RowKey(id)).Some?
    ensures r.status == 404 <==> !Fails(db, 0) && Lookup(s.books, RowKey(id)).None?
  {
    if Fails(db, 0) then DbFailure
    else if Lookup(s.books, RowKey(id)).None? then Send(404, Error(BookNotFound))
    else Send(200, BookRow(RowKey(id).value, Lookup(s.books, RowKey(id)).value))
  }

  /** A recommendation flag is enabled only by the exact text "true". */
  predicate Enabled(query: map<string, string>, flag: string)
  {
    flag in query && query[flag] == "true"
  }

  /** `GET /books/:id/recommendations/`. */
  function RecommendForBook(s: Store, db: Db, id: Option<string>, query: map<string, string>): (r: Response)
    ensures r.status == 400 <==> !Enabled(query, "genre") && !Enabled(query, "author")
    ensures r.status == 200 ==>
      db.found && Lookup(s.books, RowKey(id)).Some?
      && r.payload == Recommendations(RecommendByIdQuery(id, Enabled(query, "genre"), Enabled(query, "author"),
                                                         s.books.rows[RowKey(id).value].genre,
                                                         s.books.rows[RowKey(id).value].author, query))
    ensures (Enabled(query, "genre") || Enabled(query, "author")) && !Fails(db, 0) && !Fails(db, 1)
            && !Refused(RecommendLimit(query)) && Lookup(s.books, RowKey(id)).Some? && !db.found ==>
      r == Send(404, Message("No recommendations found"))
  {
    var useGenre, useAuthor := Enabled(query, "genre"), Enabled(query, "author");
    if !useGenre && !useAuthor then
      Send(400, Error("At least one criteria (genre or author) must be enabled"))
    else if Fails(db, 0) then DbFailure
    else if Lookup(s.books, RowKey(id)).None? then Send(404, Error(BookNotFound))
    else
      var b := Lookup(s.books, RowKey(id)).value;
      var q := RecommendByIdQuery(id, useGenre, useAuthor, b.genre, b.author, query);
      if Fails(db, 1) || Refused(RecommendLimit(query)) then DbFailure
      else if !db.found then Send(404, Message("No recommendations found"))
      else Send(200, Recommendations(q))
  }

  /** `GET /books/recommendations`. */
  function RecommendByFilter(db: Db, query: map<string, string>): (r: Response)
    ensures r.status == 400 <==> !Given(query, "genre") && !Given(query, "author")
    ensures r.status == 200 ==> db.found && r.payload == Recommendations(RecommendByFilterQuery(query))
  {
    if !Given(query, "genre") && !Given(query, "author") then
      Send(400, Error("At least one filter (genre or author) must be provided"))
    else if Fails(db, 0) || Refused(RecommendLimit(query)) then DbFailure
    else if !db.found then Send(404, Message("No recommendations found"))
    else Send(200, Recommendations(RecommendByFilterQuery(query)))
  }

  /** `POST /books`: validate, insert under the next auto-increment id. */
  function CreateBook(s: Store, db: Db, body: Body): (o: Outcome)
    ensures Valid(s.books) ==> Valid(o.store.books)
    ensures o.response.status != 201 ==> o.store == s
    ensures body.Json? && !BookAcceptable(body.fields, true) ==>
      o == Outcome(s, Send(400, Invalid(ValidateBook(body.fields, true))))
    ensures o.response.status == 409 <==> body.Json? && BookAcceptable(body.fields, true) && Duplicate(db, 0)
    ensures o.response.status == 201 <==> body.Json? && BookAcceptable(body.fields, true) && !Fails(db, 0)
    ensures o.response.status == 201 ==>
      body.Json? && o.store.books.rows == s.books.rows[s.books.next := BookOf(body.fields)]
    ensures o.store.authors == s.authors && o.store.libraries == s.libraries && o.store.entries == s.entries
  {
    match body
    case Malformed => Outcome(s, BadJson)
    case Json(data) =>
      var errors := ValidateBook(data, true);
      if errors != [] then Outcome(s, Send(400, Invalid(errors)))
      else if Fails(db, 0) then Outcome(s, WriteFailure(db, 0))
      else
        var k := s.books.next;
        Outcome(s.(books := Insert(s.books, BookOf(data))),
                CreatedAt("/books/" + NatText(k), Echo(Some(Num(k)), data)))
  }

  /** `POST /books/:id/`: validate, refuse an existing id, insert under the
      given id (an `undefined` id inserts NULL and an id of 0 inserts 0; both
      auto-increment). */
  function CreateBookWithId(s: Store, db: Db, id: Option<string>, body: Body): (o: Outcome)
    ensures Valid(s.books) ==> Valid(o.store.books)
    ensures o.response.status != 201 ==> o.store == s
    ensures body.Json? && !BookAcceptable(body.fields, true) ==>
      o == Outcome(s, Send(400, Invalid(ValidateBook(body.fields, true))))
    ensures o.response.status == 409 <==>
      body.Json? && BookAcceptable(body.fields, true) && !Fails(db, 0)
      && (Lookup(s.books, RowKey(id)).Some? || Duplicate(db, 1))
    ensures o.response.status == 201 ==>
      body.Json? && Lookup(s.books, RowKey(id)).None?
      && o.store.books.rows == s.books.rows[AssignedId(s.books, RowKey(id)) := BookOf(body.fields)]
      && "Location" in o.response.headers && o.response.headers["Location"] == "/books/" + IdText(id)
    ensures o.store.authors == s.authors && o.store.libraries == s.libraries && o.store.entries == s.entries
  {
    match body
    case Malformed => Outcome(s, BadJson)
    case Json(data) =>
      var errors := ValidateBook(data, true);
      var key := RowKey(id);
      if errors != [] then Outcome(s, Send(400, Invalid(errors)))
      else if Fails(db, 0) then Outcome(s, DbFailure)
      else if Lookup(s.books, key).Some? then Outcome(s, Send(409, Error("Book with this ID already exists")))
      else if Fails(db, 1) then Outcome(s, WriteFailure(db, 1))
      else
        var books := InsertWithId(s.books, key, BookOf(data));
        Outcome(s.(books := books),
                CreatedAt("/books/" + IdText(id), Echo(if id.Some? then Some(Str(id.value)) else None, data)))
  }

  /** `PUT /books/:id/`: validate, require the row, overwrite every column. */
  function ReplaceBook(s: Store, db: Db, id: Option<string>, body: Body): (o: Outcome)
    ensures Valid(s.books) ==> Valid(o.store.books)
    ensures o.response.status != 204 ==> o.store == s
    ensures body.Json? && !BookAcceptable(body.fields, true) ==>
      o == Outcome(s, Send(400, Invalid(ValidateBook(body.fields, true))))
    ensures body.Json? && BookAcceptable(body.fields, true) && !Fails(db, 0) && Lookup(s.books, RowKey(id)).None? ==>
      o == Outcome(s, Send(404, Error(BookNotFound)))
    ensures o.response.status == 409 <==>
      body.Json? && BookAcceptable(body.fields, true) && !Fails(db, 0)
      && Lookup(s.books, RowKey(id)).Some? && Duplicate(db, 1)
    ensures o.response.status == 204 ==>
      body.Json? && RowKey(id).Some? && RowKey(id).value in s.books.rows
      && o.store.books.rows == s.books.rows[RowKey(id).value := BookOf(body.fields)]
    ensures o.store.authors == s.authors && o.store.libraries == s.libraries && o.store.entries == s.entries
  {
    match body
    case Malformed => Outcome(s, BadJson)
    case Json(data) =>
      var errors := ValidateBook(data, true);
      var key := RowKey(id);
      if errors != [] then Outcome(s, Send(400, Invalid(errors)))
      else if Fails(db, 0) then Outcome(s, DbFailure)
      else if Lookup(s.books, key).None? then Outcome(s, Send(404, Error(BookNotFound)))
      else if Fails(db, 1) then Outcome(s, WriteFailure(db, 1))
      else Outcome(s.(books := Put(s.books, key.value, BookOf(data))), NoContent)
  }

  /** `PATCH /books/:id/`: an empty body and an invalid one are refused before
      the lookup; only whitelisted fields present in the body are written. */
  function PatchBook(s: Store, db: Db, id: Option<string>, body: Body): (o: Outcome)
    ensures Valid(s.books) ==> Valid(o.store.books)
    ensures o.response.status != 200 ==> o.store == s
    ensures body.Json? && body.fields != map[] && !BookAcceptable(body.fields, false) ==>
      o == Outcome(s, Send(400, Invalid(ValidateBook(body.fields, false))))
    ensures o.response.status == 409 <==>
      body.Json? && body.fields != map[] && BookAcceptable(body.fields, false) && !Fails(db, 0)
      && Lookup(s.books, RowKey(id)).Some? && Updates(BookWhitelist, body.fields) != [] && Duplicate(db, 1)
    ensures o.response.status == 200 ==>
      body.Json? && RowKey(id).Some? && RowKey(id).value in s.books.rows
      && o.store.books.rows
         == s.books.rows[RowKey(id).value := PatchedBook(s.books.rows[RowKey(id).value], body.fields)]
    ensures o.store.authors == s.authors && o.store.libraries == s.libraries && o.store.entries == s.entries
  {
    match body
    case Malformed => Outcome(s, BadJson)
    case Json(data) =>
      var errors := ValidateBook(data, false);
      var key := RowKey(id);
      if |data| == 0 then Outcome(s, Send(400, Error("Request body cannot be empty")))
      else if errors != [] then Outcome(s, Send(400, Invalid(errors)))
      else if Fails(db, 0) then Outcome(s, DbFailure)
      else if Lookup(s.books, key).None? then Outcome(s, Send(404, Error(BookNotFound)))
      else if Updates(BookWhitelist, data) == [] then Outcome(s, Send(400, Error("No valid fields to update")))
      else if Fails(db, 1) then Outcome(s, WriteFailure(db, 1))
      else
        var b := s.books.rows[key.value];
        Outcome(s.(books := Put(s.books, key.value, PatchedBook(b, data))),
                Send(200, Message("Book updated successfully")))
  }

  /** `DELETE /books/:id/`: look the row up, then delete it. */
  function DeleteBook(s: Store, db: Db, id: Option<string>): (o: Outcome)
    ensures Valid(s.books) ==> Valid(o.store.books)
    ensures o.response.status != 200 ==> o.store == s
    ensures o.store.authors == s.authors && o.store.libraries == s.libraries && o.store.entries == s.entries
  {
    var key := RowKey(id);
    if Fails(db, 0) then Outcome(s, DbFailure)
    else if Lookup(s.books, key).None? then Outcome(s, Send(404, Error(BookNotFound)))
    else if Fails(db, 1) then Outcome(s, DbFailure)
    else Outcome(s.(books := Remove(s.books, key.value)), Send(200, Message("Book deleted successfully")))
  }

  // ----- Properties -----

  /** Deleting a book twice answers 200 and then 404, and the first call
      removes exactly that row. */
  lemma DeleteBookTwice(s: Store, id: Option<string>)
    requires RowKey(id).Some? && RowKey(id).value in s.books.rows
    ensures var first := DeleteBook(s, Db(Healthy, false), id);
      first.response.status == 200
      && first.store.books.rows == s.books.rows - {RowKey(id).value}
      && first.store.authors == s.authors && first.store.libraries == s.libraries && first.store.entries == s.entries
      && DeleteBook(first.store, Db(Healthy, false), id).response == Send(404, Error(BookNotFound))
  {
  }

  /** A created book can be read back at the `Location` the 201 names. */
  lemma CreateThenGet(s: Store, data: map<string, Value>, found: bool)
    requires Valid(s.books)
    requires BookAcceptable(data, true)
    ensures var created := CreateBook(s, Db(Healthy, found), Json(data));
      var k := s.books.next;
      created.response.status == 201
      && created.response.headers["Location"] == "/books/" + NatText(k)
      && GetBook(created.store, Db(Healthy, found), Some(NatText(k))) == Send(200, BookRow(k, BookOf(data)))
  {
    var k := s.books.next;
    NatTextValue(k);
  }

  /** A book created under an explicit non-zero id can be read back under
      it, and a second create under the same id is a 409 that changes nothing.
      An id of 0 asks AUTO_INCREMENT for the counter instead, so the 201 names
      `/books/0`, where no row is, and a repeat creates yet another row. */
  lemma CreateWithIdThenGet(s: Store, d: string, data: map<string, Value>)
    requires IsDigits(d) && DigitsValue(d) !in s.books.rows
    requires BookAcceptable(data, true)
    ensures var db := Db(Healthy, false);
      var created := CreateBookWithId(s, db, Some(d), Json(data));
      created.response.status == 201
      && created.response.headers["Location"] == "/books/" + d
      && (DigitsValue(d) > 0 ==>
            GetBook(created.store, db, Some(d)) == Send(200, BookRow(DigitsValue(d), BookOf(data)))
            && CreateBookWithId(created.store, db, Some(d), Json(data))
               == Outcome(created.store, Send(409, Error("Book with this ID already exists"))))
      && (DigitsValue(d) == 0 ==>
            created.store.books.rows == s.books.rows[s.books.next := BookOf(data)]
            && (Valid(s.books) ==>
                  GetBook(created.store, db, Some(d)) == Send(404, Error(BookNotFound))
                  && CreateBookWithId(created.store, db, Some(d), Json(data)).response.status == 201))
  {
  }

  /** A full update of an existing book answers 204 and the row then reads
      back as the body's columns, absent ones NULL; a duplicate ISBN in the
      UPDATE is a 409 that changes nothing. */
  lemma ReplaceThenGet(s: Store, id: Option<string>, data: map<string, Value>)
    requires BookAcceptable(data, true)
    requires Lookup(s.books, RowKey(id)).Some?
    ensures var db := Db(Healthy, false);
      var o := ReplaceBook(s, db, id, Json(data));
      o.response == NoContent
      && GetBook(o.store, db, id) == Send(200, BookRow(RowKey(id).value, BookOf(data)))
      && ReplaceBook(s, Db(FailAt(1, true), false), id, Json(data)) == Outcome(s, Send(409, Error(DuplicateIsbn)))
  {
  }

  /** An empty PATCH body is refused before the database is consulted, so
      the answer is the same whether or not the book exists. */
  lemma PatchEmptyBody(s: Store, db: Db, id: Option<string>)
    ensures PatchBook(s, db, id, Json(map[])) == Outcome(s, Send(400, Error("Request body cannot be empty")))
  {
  }

  /** Validation runs before the lookup: a non-numeric year is a 400 even for
      a missing book, and a body with no whitelisted field is a 400 only once
      the book is known to exist. */
  lemma PatchCheckOrder(s: Store, id: Option<string>, data: map<string, Value>)
    requires data != map[]
    ensures NotANumberField(data, "published_year") ==>
      PatchBook(s, Db(Healthy, false), id, Json(data)).response.status == 400
    ensures BookAcceptable(data, false) && (forall f :: f in BookWhitelist ==> f !in data) ==>
      PatchBook(s, Db(Healthy, false), id, Json(data)).response.status
        == (if Lookup(s.books, RowKey(id)).Some? then 400 else 404)
  {
    if BookAcceptable(data, false) && (forall f :: f in BookWhitelist ==> f !in data) {
      var u := Updates(BookWhitelist, data);
      assert u == [] || u[0] in u;
    }
  }

  /** A successful PATCH writes exactly what its UPDATE statement binds:
      the `i`-th `SET` column receives the `i`-th parameter, every other
      column and every other row is unchanged. */
  lemma PatchMatchesUpdate(s: Store, db: Db, id: Option<string>, data: map<string, Value>, i: nat)
    requires PatchBook(s, db, id, Json(data)).response.status == 200
    requires i < |Updates(BookWhitelist, data)|
    ensures var fields := Updates(BookWhitelist, data);
      var k := RowKey(id).value;
      var after := PatchBook(s, db, id, Json(data)).store.books.rows;
      var q := UpdateQuery("books", fields, data, id);
      k in after && i < |q.params| && q.params[i] == Arg(BookField(after[k], fields[i]))
      && (forall f :: f in BookWhitelist && f !in data ==> BookField(after[k], f) == BookField(s.books.rows[k], f))
      && (forall j :: j in s.books.rows && j != k ==> j in after && after[j] == s.books.rows[j])
  {
    var fields := Updates(BookWhitelist, data);
    assert fields[i] in fields;
    forall j | 0 <= j < |fields| ensures fields[j] in data {
      assert fields[j] in fields;
    }
    UpdateQueryParams("books", fields, data, id, i);
  }

  /** The by-id recommendation endpoint answers 400 exactly when neither flag
      is the text "true", and otherwise 404 for a missing book before it
      builds any statement. */
  lemma RecommendChecks(s: Store, db: Db, id: Option<string>, query: map<string, string>)
    ensures RecommendForBook(s, db, id, query).status == 400
            <==> !Enabled(query, "genre") && !Enabled(query, "author")
    ensures (Enabled(query, "genre") || Enabled(query, "author")) && !Fails(db, 0)
            && Lookup(s.books, RowKey(id)).None? ==>
      RecommendForBook(s, db, id, query) == Send(404, Error(BookNotFound))
    ensures (Enabled(query, "genre") || Enabled(query, "author")) && Lookup(s.books, RowKey(id)).Some? ==>
      (RecommendForBook(s, Db(Healthy, db.found), id, query).status == 200 <==>
         db.found && !Refused(RecommendLimit(query)))
      && (Refused(RecommendLimit(query)) ==> RecommendForBook(s, Db(Healthy, db.found), id, query) == DbFailure)
  {
  }

  /** The by-filter recommendation is a 400 exactly when neither `genre` nor
      `author` is given; past that check a failing statement is a 500, and a
      healthy one answers 404 or 200 as rows come back.  A 200 carries a
      statement with at least one filter condition. */
  lemma RecommendByFilterChecks(db: Db, query: map<string, string>)
    ensures RecommendByFilter(db, query).status == 400 <==> !Given(query, "genre") && !Given(query, "author")
    ensures (Given(query, "genre") || Given(query, "author")) && (Fails(db, 0) || Refused(RecommendLimit(query))) ==>
      RecommendByFilter(db, query) == DbFailure
    ensures (Given(query, "genre") || Given(query, "author")) && !Fails(db, 0) && !Refused(RecommendLimit(query)) ==>
      (RecommendByFilter(db, query).status == 200 <==> db.found)
      && (!db.found ==> RecommendByFilter(db, query) == Send(404, Message("No recommendations found")))
    ensures RecommendByFilter(db, query).status == 200 ==>
      RecommendByFilter(db, query).payload == Recommendations(RecommendByFilterQuery(query))
      && |ActiveFilters(RecommendationFilters, query)| > 0
  {
    var active := ActiveFilters(RecommendationFilters, query);
    if Given(query, "genre") {
      assert RecommendationFilters[0] in active;
    }
    if Given(query, "author") {
      assert RecommendationFilters[1] in active;
    }
  }
}

=== FILE: dispatcher.dfy ===
/** The request callback's routing decision: normalise the path, answer
    `OPTIONS` as a CORS preflight, try the six id-capturing expressions, then
    the literal `METHOD:path` key, and finally the `default` handler. */
module Dispatcher {
  import opened Js
  import opened Paths
  import opened Router

  /** What the callback does with a request: answer the preflight itself, or
      call one handler with the captured id (`None` is JavaScript `undefined`). */
  datatype Dispatched = Preflight | Invoke(handler: Handler, id: Option<string>)

  /** The key a regex branch looks up, for the upper-cased method `m`.  The
      recommendations and stats branches always use `GET`. */
  function CaptureKey(shape: Shape, m: string): RouteKey
  {
    match shape
    case ResourceId(r) => Route(VerbOf(m), IdTemplate(r))
    case BookRecommendations => Route(GET, RecommendationsTemplate)
    case LibraryStats => Route(GET, StatsTemplate)
  }

  /** An id branch's key is the string the source builds, `${method}:/books/:id/` etc. */
  lemma CaptureKeyText(r: Resource, m: string)
    ensures KeyText(CaptureKey(ResourceId(r), m)) == m + ":" + Prefix(r) + ":id/"
  {
    assert VerbText(VerbOf(m)) == m;
    assert m + ":" + (Prefix(r) + ":id/") == m + ":" + Prefix(r) + ":id/";
  }

  function Dispatch(verb: string, rawPath: string): (d: Dispatched)
    ensures d.Preflight? <==> Upper(verb) == "OPTIONS"
  {
    var m := Upper(verb);
    var path := Normalize(rawPath);
    if m == "OPTIONS" then Preflight
    else
      var c := Classify(path);
      if c.Some? && Routes(CaptureKey(c.value.shape, m)).Some? then
        Invoke(Routes(CaptureKey(c.value.shape, m)).value, Some(c.value.id))
      else if Routes(KeyOf(m, path)).Some? then
        Invoke(Routes(KeyOf(m, path)).value, None)
      else
        Invoke(Routes(Default).value, None)
  }

  /** A path that instantiates a shape with digits (optionally with one
      trailing slash) reaches the handler registered for the branch's key,
      with the digits as id. */
  lemma {:induction false} CapturedPath(verb: string, s: Shape, d: string, slash: bool)
    requires IsDigits(d)
    requires Upper(verb) != "OPTIONS"
    requires Routes(CaptureKey(s, Upper(verb))).Some?
    ensures Dispatch(verb, ShapePath(s, d) + (if slash then "/" else ""))
            == Invoke(Routes(CaptureKey(s, Upper(verb))).value, Some(d))
  {
    var p := ShapePath(s, d);
    ShapePathClean(s, d);
    NormalizeClean(p);
    if !slash {
      assert p + "" == p;
    }
    ClassifyShapePath(s, d);
  }

  /** An id reaches a handler only through a regex branch: the normalised path
      instantiates a shape with exactly those digits and the branch's key is
      registered.  A segment such as `abc` is never passed as an id. */
  lemma DispatchedIdIsCaptured(verb: string, rawPath: string)
    requires Dispatch(verb, rawPath).Invoke? && Dispatch(verb, rawPath).id.Some?
    ensures var id := Dispatch(verb, rawPath).id.value;
      IsDigits(id) &&
      exists s :: Normalize(rawPath) == ShapePath(s, id)
                  && Routes(CaptureKey(s, Upper(verb))) == Some(Dispatch(verb, rawPath).handler)
  {
    var path := Normalize(rawPath);
    var c := Classify(path);
    ClassifySound(path);
    assert path == ShapePath(c.value.shape, c.value.id);
  }

  /** Without a usable capture (no expression matches, or the branch's key is
      not registered) the literal key decides, and `default` answers when it
      is not registered either.  No id is passed. */
  lemma Uncaptured(verb: string, rawPath: string, m: string, path: string)
    requires Upper(verb) == m && m != "OPTIONS" && Normalize(rawPath) == path
    requires Classify(path).None? || Routes(CaptureKey(Classify(path).value.shape, m)).None?
    ensures Dispatch(verb, rawPath) ==
      Invoke(if Routes(KeyOf(m, path)).Some? then Routes(KeyOf(m, path)).value else NotFound, None)
  {
  }

  /** `/books/<digits>` (and likewise for the other three resources) reaches
      the `:id` handler the resource's own table registers for the method. */
  lemma IdPathDispatch(verb: string, r: Resource, d: string)
    requires IsDigits(d)
    requires Upper(verb) != "OPTIONS"
    requires ResourceRoutes(r)(Route(VerbOf(Upper(verb)), IdTemplate(r))).Some?
    ensures Dispatch(verb, Prefix(r) + d)
            == Invoke(ResourceRoutes(r)(Route(VerbOf(Upper(verb)), IdTemplate(r))).value, Some(d))
  {
    RoutesIsUnion(Route(VerbOf(Upper(verb)), IdTemplate(r)));
    CapturedPath(verb, ResourceId(r), d, false);
    assert Prefix(r) + d + "" == Prefix(r) + d;
  }

  /** The table a resource's routes come from. */
  function ResourceRoutes(r: Resource): RouteKey -> Option<Handler>
  {
    match r
    case Books => BooksRoutes
    case Authors => AuthorsRoutes
    case Libraries => LibrariesRoutes
    case LibraryBooks => LibraryBooksRoutes
  }

  /** The recommendations branch hard-codes `GET`, so every method other than
      `OPTIONS` reaches the recommendation handler. */
  lemma RecommendationsAnyMethod(verb: string, d: string)
    requires IsDigits(d)
    requires Upper(verb) != "OPTIONS"
    ensures Dispatch(verb, "/books/" + d + "/recommendations") == Invoke(RecommendForBook, Some(d))
  {
    CapturedPath(verb, BookRecommendations, d, false);
    assert ShapePath(BookRecommendations, d) + "" == "/books/" + d + "/recommendations";
  }

  /** Likewise the stats branch reaches the per-library stats handler under any method. */
  lemma StatsAnyMethod(verb: string, d: string)
    requires IsDigits(d)
    requires Upper(verb) != "OPTIONS"
    ensures Dispatch(verb, "/libraries/" + d + "/stats") == Invoke(LibraryStatsById, Some(d))
  {
    CapturedPath(verb, LibraryStats, d, false);
    assert ShapePath(LibraryStats, d) + "" == "/libraries/" + d + "/stats";
  }

  lemma UpperMethods()
    ensures Upper("GET") == "GET" && Upper("PATCH") == "PATCH"
    ensures Upper("POST") == "POST" && Upper("DELETE") == "DELETE"
  {
  }

  /** A non-digit segment matches no expression and no literal key. */
  lemma NonDigitFallsThrough()
    ensures Dispatch("GET", "/books/abc") == Invoke(NotFound, None)
  {
    UpperMethods();
    NormalizeClean("/books/abc");
    NonDigitFacts();
    Uncaptured("GET", "/books/abc", "GET", "/books/abc");
  }

  lemma NonDigitFacts()
    ensures Classify("/books/abc") == None
    ensures Routes(KeyOf("GET", "/books/abc")) == None
  {
    NonDigitAfterPrefix("/books/abc", Books);
  }

  /** `/libraries/5` matches, but there is no `PATCH:/libraries/:id/` handler,
      so the request falls through the literal key to `default`. */
  lemma UnregisteredMethodFallsThrough()
    ensures Dispatch("PATCH", "/libraries/5") == Invoke(NotFound, None)
  {
    UpperMethods();
    NormalizeClean("/libraries/5");
    UnregisteredMethodFacts();
    Uncaptured("PATCH", "/libraries/5", "PATCH", "/libraries/5");
  }

  lemma UnregisteredMethodFacts()
    ensures Classify("/libraries/5") == Some(Capture(ResourceId(Libraries), "5"))
    ensures Routes(CaptureKey(ResourceId(Libraries), "PATCH")) == None
    ensures Routes(KeyOf("PATCH", "/libraries/5")) == None
  {
    ClassifyShapePath(ResourceId(Libraries), "5");
    assert ShapePath(ResourceId(Libraries), "5") == "/libraries/5";
  }

  /** `/books/recommendations` matches no expression and is reached through
      its literal key. */
  lemma RecommendationsLiteralPath()
    ensures Dispatch("GET", "/books/recommendations") == Invoke(RecommendByFilter, None)
  {
    UpperMethods();
    NormalizeClean("/books/recommendations");
    LiteralUncaptured("/books/recommendations", Books);
    RecommendationsLiteralKey();
    Uncaptured("GET", "/books/recommendations", "GET", "/books/recommendations");
  }

  /** The four literal paths with a handler of their own continue their
      resource prefix with a letter or `:`, so no expression captures them. */
  lemma LiteralUncaptured(p: string, r: Resource)
    requires (r == Books && (p == "/books/recommendations" || p == "/books/:id/"))
             || (r == Libraries && (p == "/libraries/stats" || p == "/libraries/:library_id/stats"))
    ensures Classify(p) == None
  {
    NonDigitAfterPrefix(p, r);
  }

  lemma RecommendationsLiteralKey()
    ensures Routes(KeyOf("GET", "/books/recommendations")) == Some(RecommendByFilter)
  {
  }

  /** Likewise `/libraries/stats`. */
  lemma StatsLiteralPath()
    ensures Dispatch("GET", "/libraries/stats") == Invoke(AllLibraryStats, None)
  {
    UpperMethods();
    NormalizeClean("/libraries/stats");
    LiteralUncaptured("/libraries/stats", Libraries);
    StatsLiteralKey();
    Uncaptured("GET", "/libraries/stats", "GET", "/libraries/stats");
  }


  lemma StatsLiteralKey()
    ensures Routes(KeyOf("GET", "/libraries/stats")) == Some(AllLibraryStats)
  {
  }

  /** The literal fallback passes no id: `/books/:id//` normalises to the
      template path itself and reaches the `:id` handler with `undefined`. */
  lemma IdTemplatePathWithoutId()
    ensures Dispatch("GET", "/books/:id//") == Invoke(GetBook, None)
  {
    UpperMethods();
    IdTemplateNormal();
    LiteralUncaptured("/books/:id/", Books);
    IdTemplateKey();
    Uncaptured("GET", "/books/:id//", "GET", "/books/:id/");
  }


  lemma IdTemplateNormal()
    ensures Normalize("/books/:id//") == "/books/:id/"
  {
    NormalizeStripsOne("/books/:id/");
    assert "/books/:id/" + "/" == "/books/:id//";
  }

  lemma IdTemplateKey()
    ensures Routes(KeyOf("GET", "/books/:id/")) == Some(GetBook)
  {
  }

  /** The stats template path reaches the per-library stats handler with no
      id, which that handler answers with 400. */
  lemma StatsTemplatePathWithoutId()
    ensures Dispatch("GET", "/libraries/:library_id/stats") == Invoke(LibraryStatsById, None)
  {
    UpperMethods();
    NormalizeClean("/libraries/:library_id/stats");
    LiteralUncaptured("/libraries/:library_id/stats", Libraries);
    StatsTemplateKey();
    Uncaptured("GET", "/libraries/:library_id/stats", "GET", "/libraries/:library_id/stats");
  }


  lemma StatsTemplateKey()
    ensures Routes(KeyOf("GET", "/libraries/:library_id/stats")) == Some(LibraryStatsById)
  {
  }
}

=== FILE: http.dfy ===
/** Responses as the handlers write them: a status, the headers, and the JSON
    payload (or none).  `sendResponse` always sets the JSON content type; a
    201 adds `Location`; a 204 is written with no header and no body. */
module Http {
  import opened Js
  import opened Store
  import opened Sql

  /** `{ page, limit }`, and `totalItems` / `totalPages` when the count
      statement succeeded; `None` is a number JSON prints as `null`.  Page
      and limit are numbers whenever a 200 is sent (MySQL refuses `NaN`
      paging); `totalPages` is `null` for a limit of 0. */
  datatype Pagination = Pagination(page: Option<int>, limit: Option<int>, totals: Option<Totals>)
  datatype Totals = Totals(totalItems: nat, totalPages: Option<int>)

  /** The JSON bodies the server sends.  Rows that a SELECT returns are
      denoted by the statement that selects them. */
  datatype Payload =
    | NoBody
    | Error(error: string)
    | DatabaseError
    | Invalid(errors: seq<string>)
    | Message(message: string)
    | Created(fields: map<string, Value>)
    | BookRow(bookId: nat, book: Book)
    | AuthorRow(authorId: nat, author: Author)
    | AuthorWithBooks(authorId: nat, writer: Author, books: Query)
    | LibraryRow(libraryId: nat, library: Library)
    | EntryRow(entryId: nat, entry: Entry)
    | Listing(data: Query, pagination: Pagination)
    | Rows(rows: Query)
    | Recommendations(found: Query)
    | AllStats(totalLibraries: nat, totalBooks: nat)
    | StatsOf(statsLibrary: nat, libraryName: Value, booksInLibrary: nat)

  datatype Response = Response(status: nat, headers: map<string, string>, payload: Payload)

  /** A request body after `getRequestBody`: a decoded JSON object (an empty
      body reads as `{}`), or text that `JSON.parse` rejects. */
  datatype Body = Json(fields: map<string, Value>) | Malformed

  /** What a handler leaves behind: the database and the response written. */
  datatype Outcome = Outcome(store: Store, response: Response)

  const JsonType := map["Content-Type" := "application/json"]

  /** `sendResponse(res, status, data)`. */
  function Send(status: nat, payload: Payload): (r: Response)
    ensures r.headers.Keys == {"Content-Type"} && r.headers["Content-Type"] == "application/json"
  {
    Response(status, JsonType, payload)
  }

  /** `res.writeHead(201, {..., Location})` followed by the created record. */
  function CreatedAt(location: string, fields: map<string, Value>): (r: Response)
    ensures r.status == 201 && "Location" in r.headers && r.headers["Location"] == location
  {
    Response(201, JsonType["Location" := location], Created(fields))
  }

  /** `res.writeHead(204); res.end()`. */
  const NoContent := Response(204, map[], NoBody)

  const DbFailure := Send(500, DatabaseError)
  const BadJson := Send(400, Error("Invalid JSON in request body"))
  const CollectionNotAllowed := Send(405, Error("Method Not Allowed on entire collection"))
  const EndpointNotFound := Send(404, Error("Endpoint not found"))

  /** The echo `{ id, ...body, created_at }` without its timestamp: the body's
      own `id`, when it has one, overrides; an `undefined` id is omitted. */
  function Echo(id: Option<Value>, body: map<string, Value>): (fields: map<string, Value>)
    ensures "created_at" !in fields
    ensures forall k :: k in body && k != "created_at" ==> k in fields && fields[k] == body[k]
    ensures "id" in fields <==> "id" in body || id.Some?
    ensures "id" !in body && id.Some? ==> fields["id"] == id.value
  {
    var withId := if id.Some? then map["id" := id.value] + body else body;
    withId - {"created_at"}
  }

  /** The text a route id gives a template literal such as `/books/${id}`. */
  function IdText(id: Option<string>): string
  {
    if id.Some? then id.value else "undefined"
  }

  /** The answer to every `OPTIONS` request. */
  const PreflightHeaders := map[
    "Access-Control-Allow-Origin" := "*",
    "Access-Control-Allow-Methods" := "GET, POST, PUT, PATCH, DELETE, OPTIONS",
    "Access-Control-Allow-Headers" := "Content-Type, Authorization",
    "Access-Control-Max-Age" := "86400"]

  const Preflight := Response(204, PreflightHeaders, NoBody)

  /** `res.setHeader('Access-Control-Allow-Origin', '*')` before the handler
      writes its own headers, which cannot remove it. */
  function WithCors(r: Response): (c: Response)
    ensures c.status == r.status && c.payload == r.payload
    ensures c.headers.Keys == r.headers.Keys + {"Access-Control-Allow-Origin"}
    ensures c.headers["Access-Control-Allow-Origin"] == "*"
    ensures forall h :: h in r.headers && h != "Access-Control-Allow-Origin" ==> c.headers[h] == r.headers[h]
  {
    Response(r.status, r.headers["Access-Control-Allow-Origin" := "*"], r.payload)
  }
}

=== FILE: js.dfy ===
/** The handful of JavaScript value semantics the server's decisions depend
    on: truthiness, `isNaN` coercion, `parseInt`, ASCII `toUpperCase` and
    number-to-string conversion.  Decoded JSON bodies and query strings are
    values of these types; `undefined` is modelled as a missing map key. */
module Js {

  datatype Option<+T> = None | Some(value: T)

  /** A decoded JSON value.  Numbers are integers; an object's members are not
      kept because no handler looks inside a nested object. */
  datatype Value = Null | Bool(b: bool) | Num(n: int) | Str(s: string) | Arr(items: seq<Value>) | Obj

  /** JavaScript truthiness: `null`, `false`, `0` and `""` are falsy. */
  predicate Truthy(v: Value)
  {
    match v
    case Null => false
    case Bool(b) => b
    case Num(n) => n != 0
    case Str(s) => s != ""
    case Arr(_) => true
    case Obj => true
  }

  /** `data[k]` is truthy; an absent key reads as `undefined`, which is falsy. */
  predicate TruthyField(data: map<string, Value>, k: string)
  {
    k in data && Truthy(data[k])
  }

  /** The value bound for `data[k]` in a SQL statement: `undefined` becomes NULL. */
  function FieldOrNull(data: map<string, Value>, k: string): (v: Value)
    ensures k !in data ==> v == Null
    ensures k in data ==> v == data[k]
  {
    if k in data then data[k] else Null
  }

  /** A query-string parameter is given and non-empty (truthy as a string). */
  predicate Given(query: map<string, string>, k: string)
  {
    k in query && query[k] != ""
  }

  predicate IsDigit(c: char)
  {
    '0' <= c <= '9'
  }

  predicate AllDigits(s: string)
  {
    forall i :: 0 <= i < |s| ==> IsDigit(s[i])
  }

  /** What the regular expression `\d+` matches: one or more ASCII digits. */
  predicate IsDigits(s: string)
  {
    |s| > 0 && AllDigits(s)
  }

  function DigitValue(c: char): (d: nat)
    requires IsDigit(c)
    ensures d < 10
  {
    (c as int - '0' as int) as nat
  }

  function DigitChar(d: nat): (c: char)
    requires d < 10
    ensures IsDigit(c) && DigitValue(c) == d
  {
    ('0' as int + d) as char
  }

  /** The decimal value of a digit string (leading zeros allowed, "" is 0). */
  function DigitsValue(s: string): nat
    requires AllDigits(s)
  {
    if s == [] then 0 else DigitsValue(s[..|s| - 1]) * 10 + DigitValue(s[|s| - 1])
  }

  /** `String(n)` for a non-negative integer: its canonical decimal digits. */
  function NatText(n: nat): (s: string)
    ensures IsDigits(s)
  {
    if n < 10 then [DigitChar(n)] else NatText(n / 10) + [DigitChar(n % 10)]
  }

  /** `String(n)` for any integer. */
  function IntText(n: int): string
  {
    if n < 0 then "-" + NatText(-n) else NatText(n)
  }

  /** Reading back the decimal text of `n` yields `n`. */
  lemma {:induction false} NatTextValue(n: nat)
    ensures DigitsValue(NatText(n)) == n
  {
    if n >= 10 {
      var s := NatText(n);
      assert s[..|s| - 1] == NatText(n / 10);
      NatTextValue(n / 10);
    }
  }

  /** The longest prefix of `s` made of digits. */
  function DigitPrefix(s: string): (p: string)
    ensures |p| <= |s| && p == s[..|p|]
    ensures AllDigits(p)
    ensures |p| < |s| ==> !IsDigit(s[|p|])
  {
    if s != [] && IsDigit(s[0]) then [s[0]] + DigitPrefix(s[1..]) else []
  }

  /** `s` without a leading `+` or `-`. */
  function Unsigned(s: string): string
  {
    if |s| > 0 && (s[0] == '-' || s[0] == '+') then s[1..] else s
  }

  /** `parseInt(s)` in base 10: an optional sign followed by the longest run of
      digits; `None` stands for `NaN` (no digit after the sign). */
  function ParseInt(s: string): (r: Option<int>)
    ensures r.Some? <==> |Unsigned(s)| > 0 && IsDigit(Unsigned(s)[0])
  {
    var digits := DigitPrefix(Unsigned(s));
    if digits == [] then None
    else if |s| > 0 && s[0] == '-' then Some(-(DigitsValue(digits) as int))
    else Some(DigitsValue(digits))
  }

  lemma DigitPrefixOfDigits(s: string)
    requires AllDigits(s)
    ensures DigitPrefix(s) == s
  {
    var p := DigitPrefix(s);
    if |p| < |s| {
      assert false;
    }
  }

  /** Parsing the decimal text of an integer gives the integer back. */
  lemma ParseIntText(n: int)
    ensures ParseInt(IntText(n)) == Some(n)
  {
    var m: nat := if n < 0 then -n else n;
    var t := NatText(m);
    DigitPrefixOfDigits(t);
    NatTextValue(m);
    if n < 0 {
      assert ("-" + t)[1..] == t;
    }
  }

  /** Text that `Number()` turns into a number (decimal integers, optionally
      signed; the empty string is 0). */
  predicate NumericText(s: string)
  {
    s == "" || IsDigits(Unsigned(s))
  }

  /** `isNaN(v)`: coercing `v` to a number fails.  `null` and booleans coerce to
      0 and 1; an array coerces through its joined text, so `[]` is 0 and
      `[1999]` is 1999; an object's text "[object Object]" is never numeric. */
  predicate IsNaN(v: Value)
    ensures v.Null? || v.Bool? || v.Num? ==> !IsNaN(v)
    ensures v.Obj? ==> IsNaN(v)
    ensures v.Str? && IsDigits(v.s) ==> !IsNaN(v)
  {
    match v
    case Str(s) => !NumericText(s)
    case Arr(_) => !NumericText(TemplateText(v))
    case Obj => true
    case _ => false
  }

  function UpperChar(c: char): char
  {
    if 'a' <= c <= 'z' then (c as int - 32) as char else c
  }

  /** `s.toUpperCase()` on ASCII letters. */
  function Upper(s: string): (u: string)
    ensures |u| == |s|
    ensures forall i :: 0 <= i < |s| ==> u[i] == UpperChar(s[i])
  {
    seq(|s|, i requires 0 <= i < |s| => UpperChar(s[i]))
  }

  /** `order.toUpperCase() === "DESC"` holds exactly for the sixteen spellings
      of "desc" in any mix of cases. */
  lemma UpperIsDesc(s: string)
    ensures Upper(s) == "DESC" <==>
      |s| == 4 && s[0] in "dD" && s[1] in "eE" && s[2] in "sS" && s[3] in "cC"
  {
    if |s| == 4 && s[0] in "dD" && s[1] in "eE" && s[2] in "sS" && s[3] in "cC" {
      assert Upper(s) == "DESC";
    }
    if Upper(s) == "DESC" {
      assert UpperChar(s[0]) == 'D' && UpperChar(s[1]) == 'E';
      assert UpperChar(s[2]) == 'S' && UpperChar(s[3]) == 'C';
    }
  }

  /** `String(v)`, the text a value contributes to a template literal such as
      `%${v}%`.  An array is `join(",")` of its elements, where `null` becomes
      the empty text. */
  function TemplateText(v: Value): string
    decreases v
  {
    match v
    case Null => "null"
    case Bool(b) => if b then "true" else "false"
    case Num(n) => IntText(n)
    case Str(s) => s
    case Arr(items) =>
      Join(seq(|items|, i requires 0 <= i < |items| => if items[i].Null? then "" else TemplateText(items[i])))
    case Obj => "[object Object]"
  }

  /** The element text of an array, as `join` writes it. */
  function ElementText(v: Value): string
  {
    if v.Null? then "" else TemplateText(v)
  }

  /** `parts.join(",")`. */
  function Join(parts: seq<string>): (t: string)
    ensures |parts| >= 2 ==> ',' in t
  {
    if parts == [] then ""
    else if |parts| == 1 then parts[0]
    else
      var rest := Join(parts[1..]);
      assert (parts[0] + "," + rest)[|parts[0]|] == ',';
      parts[0] + "," + rest
  }

  /** A text holding a comma is not numeric. */
  lemma CommaNotNumeric(s: string)
    requires ',' in s
    ensures !NumericText(s)
  {
    var i :| 0 <= i < |s| && s[i] == ',';
    if |s| > 0 && (s[0] == '-' || s[0] == '+') {
      assert Unsigned(s)[i - 1] == ',';
    } else {
      assert Unsigned(s)[i] == ',';
    }
  }

  /** The decimal text of an integer is numeric. */
  lemma IntTextNumeric(n: int)
    ensures NumericText(IntText(n))
  {
    if n < 0 {
      assert ("-" + NatText(-n))[1..] == NatText(-n);
    }
  }

  /** How `Number()` treats an array: the empty array is 0, a single element
      array is its element's text, and a longer array has a comma and is NaN. */
  lemma {:induction false} ArrayNumber(items: seq<Value>)
    ensures |items| == 0 ==> !IsNaN(Arr(items))
    ensures |items| == 1 ==> (IsNaN(Arr(items)) <==> !NumericText(ElementText(items[0])))
    ensures |items| >= 2 ==> IsNaN(Arr(items))
    ensures forall n :: !IsNaN(Arr([Num(n)]))
    ensures !IsNaN(Arr([Null])) && IsNaN(Arr([Bool(true)])) && IsNaN(Arr([Obj]))
  {
    if |items| >= 2 {
      CommaNotNumeric(TemplateText(Arr(items)));
    }
    forall n ensures !IsNaN(Arr([Num(n)])) {
      IntTextNumeric(n);
      assert TemplateText(Arr([Num(n)])) == IntText(n);
    }
    assert TemplateText(Arr([Null])) == "";
    assert TemplateText(Arr([Bool(true)])) == "true";
    assert "true"[0] == 't';
    assert TemplateText(Arr([Obj])) == "[object Object]";
    assert "[object Object]"[0] == '[';
  }
}

=== FILE: libraries.dfy ===
/** The `/libraries` handlers: list, read, the two statistics endpoints,
    create (two variants), full update and delete.  Library bodies are not
    run through a validator: create only demands a truthy `name` and
    `location`, and the full update demands nothing. */
module LibrariesApi {
  import opened Js
  import opened Sql
  import opened Store
  import opened Http
  import opened Paging

  const LibraryNotFound := "Library not found"
  const MissingNameLocation := "Missing required fields: name, location"

  /** The row an INSERT or UPDATE writes from the body's two fields. */
  function LibraryOf(data: map<string, Value>): (l: Library)
    ensures l.name == FieldOrNull(data, "name") && l.location == FieldOrNull(data, "location")
  {
    Library(FieldOrNull(data, "name"), FieldOrNull(data, "location"))
  }

  /** The echo `{ id, name, location }` of a created library (its timestamp
      aside); an `undefined` id is omitted. */
  function LibraryEcho(id: Option<Value>, data: map<string, Value>): (fields: map<string, Value>)
    requires "name" in data && "location" in data
    ensures fields.Keys == {"name", "location"} + (if id.Some? then {"id"} else {})
    ensures fields["name"] == data["name"] && fields["location"] == data["location"]
    ensures id.Some? ==> fields["id"] == id.value
  {
    var named := map["name" := data["name"], "location" := data["location"]];
    if id.Some? then named["id" := id.value] else named
  }

  /** `GET /libraries`. */
  function ListLibraries(s: Store, db: Db, query: map<string, string>): (r: Response)
    ensures r.status == 500 <==> Fails(db, 0) || PagingRefused(query)
    ensures r.status == 200 ==>
      r.payload.Listing? && r.payload.data == ListQuery("libraries", LibraryFilters, query)
      && (r.payload.pagination.totals.Some? ==> r.payload.pagination.totals.value.totalItems == |s.libraries.rows|)
  {
    ListPage(|s.libraries.rows|, "libraries", LibraryFilters, db, query)
  }

  /** `GET /libraries/:id/`. */
  function GetLibrary(s: Store, db: Db, id: Option<string>): (r: Response)
    ensures r.status == 200 <==> !Fails(db, 0) && Lookup(s.libraries, RowKey(id)).Some?
    ensures r.status == 404 <==> !Fails(db, 0) && Lookup(s.libraries, RowKey(id)).None?
  {
    var key := RowKey(id);
    if Fails(db, 0) then DbFailure
    else if Lookup(s.libraries, key).None? then Send(404, Error(LibraryNotFound))
    else Send(200, LibraryRow(key.value, s.libraries.rows[key.value]))
  }

  /** `GET /libraries/stats`: four statements, any failure is a 500; the
      totals count the libraries and the `library_books` rows. */
  function AllLibraryStats(s: Store, db: Db): (r: Response)
    ensures r.status == 200 <==> !(Fails(db, 0) || Fails(db, 1) || Fails(db, 2) || Fails(db, 3))
    ensures r.status != 200 ==> r == DbFailure
  {
    if Fails(db, 0) || Fails(db, 1) || Fails(db, 2) || Fails(db, 3) then DbFailure
    else Send(200, AllStats(|s.libraries.rows|, |s.entries.rows|))
  }

  /** `!library_id || isNaN(library_id)` on the route id. */
  predicate InvalidLibraryId(id: Option<string>)
    ensures id.None? ==> InvalidLibraryId(id)
    ensures id.Some? && IsDigits(id.value) ==> !InvalidLibraryId(id)
  {
    id.None? || id.value == "" || IsNaN(Str(id.value))
  }

  /** `GET /libraries/:library_id/stats`: the id guard, the lookup, then four
      more statements. */
  function LibraryStatsById(s: Store, db: Db, id: Option<string>): (r: Response)
    ensures r.status == 400 <==> InvalidLibraryId(id)
    ensures r.status == 200 ==> Lookup(s.libraries, RowKey(id)).Some?
  {
    var key := RowKey(id);
    if InvalidLibraryId(id) then Send(400, Error("Invalid library ID"))
    else if Fails(db, 0) then DbFailure
    else if Lookup(s.libraries, key).None? then Send(404, Error(LibraryNotFound))
    else if Fails(db, 1) || Fails(db, 2) || Fails(db, 3) || Fails(db, 4) then DbFailure
    else Send(200, StatsOf(key.value, s.libraries.rows[key.value].name, BooksIn(s.entries, key.value)))
  }

  /** `POST /libraries`. */
  function CreateLibrary(s: Store, db: Db, body: Body): (o: Outcome)
    ensures Valid(s.libraries) ==> Valid(o.store.libraries)
    ensures o.response.status != 201 ==> o.store == s
    ensures o.store.books == s.books && o.store.authors == s.authors && o.store.entries == s.entries
  {
    match body
    case Malformed => Outcome(s, BadJson)
    case Json(data) =>
      if !TruthyField(data, "name") || !TruthyField(data, "location") then
        Outcome(s, Send(400, Error(MissingNameLocation)))
      else if Fails(db, 0) then Outcome(s, DbFailure)
      else
        var k := s.libraries.next;
        Outcome(s.(libraries := Insert(s.libraries, LibraryOf(data))),
                CreatedAt("/libraries/" + NatText(k), LibraryEcho(Some(Num(k)), data)))
  }

  /** `POST /libraries/:id/`. */
  function CreateLibraryWithId(s: Store, db: Db, id: Option<string>, body: Body): (o: Outcome)
    ensures Valid(s.libraries) ==> Valid(o.store.libraries)
    ensures o.response.status != 201 ==> o.store == s
    ensures o.response.status == 409 <==>
      body.Json? && TruthyField(body.fields, "name") && TruthyField(body.fields, "location")
      && !Fails(db, 0) && Lookup(s.libraries, RowKey(id)).Some?
    ensures o.response.status == 201 ==>
      body.Json? && Lookup(s.libraries, RowKey(id)).None?
      && o.store.libraries.rows == s.libraries.rows[AssignedId(s.libraries, RowKey(id)) := LibraryOf(body.fields)]
      && "Location" in o.response.headers && o.response.headers["Location"] == "/libraries/" + IdText(id)
    ensures o.store.books == s.books && o.store.authors == s.authors && o.store.entries == s.entries
  {
    match body
    case Malformed => Outcome(s, BadJson)
    case Json(data) =>
      var key := RowKey(id);
      if !TruthyField(data, "name") || !TruthyField(data, "location") then
        Outcome(s, Send(400, Error(MissingNameLocation)))
      else if Fails(db, 0) then Outcome(s, DbFailure)
      else if Lookup(s.libraries, key).Some? then Outcome(s, Send(409, Error("Library with this ID already exists")))
      else if Fails(db, 1) then Outcome(s, DbFailure)
      else
        var libraries := InsertWithId(s.libraries, key, LibraryOf(data));
        Outcome(s.(libraries := libraries),
                CreatedAt("/libraries/" + IdText(id), LibraryEcho(if id.Some? then Some(Str(id.value)) else None, data)))
  }

  /** `PUT /libraries/:id/`: no check of the body; absent fields become NULL;
      success is a 200 with a message. */
  function ReplaceLibrary(s: Store, db: Db, id: Option<string>, body: Body): (o: Outcome)
    ensures Valid(s.libraries) ==> Valid(o.store.libraries)
    ensures o.response.status != 200 ==> o.store == s
    ensures body.Json? && !Fails(db, 0) && Lookup(s.libraries, RowKey(id)).None? ==>
      o == Outcome(s, Send(404, Error(LibraryNotFound)))
    ensures o.response.status == 200 ==>
      body.Json? && RowKey(id).Some? && RowKey(id).value in s.libraries.rows
      && o.store.libraries.rows == s.libraries.rows[RowKey(id).value := LibraryOf(body.fields)]
    ensures o.store.books == s.books && o.store.authors == s.authors && o.store.entries == s.entries
  {
    match body
    case Malformed => Outcome(s, BadJson)
    case Json(data) =>
      var key := RowKey(id);
      if Fails(db, 0) then Outcome(s, DbFailure)
      else if Lookup(s.libraries, key).None? then Outcome(s, Send(404, Error(LibraryNotFound)))
      else if Fails(db, 1) then Outcome(s, DbFailure)
      else Outcome(s.(libraries := Put(s.libraries, key.value, LibraryOf(data))),
                   Send(200, Message("Library updated successfully")))
  }

  /** `DELETE /libraries/:id/`: a single DELETE; no affected row is a 404. */
  function DeleteLibrary(s: Store, db: Db, id: Option<string>): (o: Outcome)
    ensures Valid(s.libraries) ==> Valid(o.store.libraries)
    ensures o.response.status != 200 ==> o.store == s
    ensures o.store.books == s.books && o.store.authors == s.authors && o.store.entries == s.entries
  {
    var key := RowKey(id);
    if Fails(db, 0) then Outcome(s, DbFailure)
    else if Lookup(s.libraries, key).None? then Outcome(s, Send(404, Error(LibraryNotFound)))
    else Outcome(s.(libraries := Remove(s.libraries, key.value)), Send(200, Message("Library deleted successfully")))
  }

  // ----- Properties -----

  /** Without an id (the literal route key) the per-library statistics are a
      400 whatever the database; a captured digit id passes the guard. */
  lemma StatsIdGuard(s: Store, db: Db, d: string)
    requires IsDigits(d)
    ensures LibraryStatsById(s, db, None) == Send(400, Error("Invalid library ID"))
    ensures !InvalidLibraryId(Some(d))
  {
  }

  /** With a healthy database the per-library statistics name the library and
      count its `library_books` rows; a missing library is a 404. */
  lemma StatsOfLibrary(s: Store, d: string)
    requires IsDigits(d)
    ensures var r := LibraryStatsById(s, Db(Healthy, false), Some(d));
      (DigitsValue(d) in s.libraries.rows ==>
         r == Send(200, StatsOf(DigitsValue(d), s.libraries.rows[DigitsValue(d)].name, BooksIn(s.entries, DigitsValue(d)))))
      && (DigitsValue(d) !in s.libraries.rows ==> r == Send(404, Error(LibraryNotFound)))
  {
    StatsIdGuard(s, Db(Healthy, false), d);
  }

  /** Both create variants answer 400 exactly when `name` or `location` is
      falsy, before the database is consulted. */
  lemma CreateRequiresNameAndLocation(s: Store, db: Db, id: Option<string>, data: map<string, Value>)
    ensures (CreateLibrary(s, db, Json(data)).response == Send(400, Error(MissingNameLocation)))
            <==> !TruthyField(data, "name") || !TruthyField(data, "location")
    ensures (CreateLibraryWithId(s, db, id, Json(data)).response == Send(400, Error(MissingNameLocation)))
            <==> !TruthyField(data, "name") || !TruthyField(data, "location")
  {
  }

  /** The full update accepts any object body: for an existing library and a
      healthy database it always answers 200 and writes both columns. */
  lemma ReplaceAcceptsAnyBody(s: Store, id: Option<string>, data: map<string, Value>)
    requires Lookup(s.libraries, RowKey(id)).Some?
    ensures var o := ReplaceLibrary(s, Db(Healthy, false), id, Json(data));
      o.response == Send(200, Message("Library updated successfully"))
      && o.store.libraries.rows[RowKey(id).value] == Library(FieldOrNull(data, "name"), FieldOrNull(data, "location"))
  {
  }

  /** A full update of an absent library is a 404 that changes nothing,
      whatever the body holds. */
  lemma ReplaceMissingLibrary(s: Store, id: Option<string>, data: map<string, Value>)
    requires Lookup(s.libraries, RowKey(id)).None?
    ensures ReplaceLibrary(s, Db(Healthy, false), id, Json(data)) == Outcome(s, Send(404, Error(LibraryNotFound)))
  {
  }

  /** An explicit id that is taken is a 409 that changes nothing; a free one
      is named in `Location` and, unless it is 0, holds the new row.  An id of
      0 stores the row under the auto-increment counter. */
  lemma CreateWithIdConflict(s: Store, d: string, data: map<string, Value>)
    requires IsDigits(d)
    requires TruthyField(data, "name") && TruthyField(data, "location")
    ensures var o := CreateLibraryWithId(s, Db(Healthy, false), Some(d), Json(data));
      (DigitsValue(d) in s.libraries.rows ==>
         o == Outcome(s, Send(409, Error("Library with this ID already exists"))))
      && (DigitsValue(d) !in s.libraries.rows ==>
           o.response.status == 201 && o.response.headers["Location"] == "/libraries/" + d
           && (DigitsValue(d) > 0 ==> o.store.libraries.rows == s.libraries.rows[DigitsValue(d) := LibraryOf(data)])
           && (DigitsValue(d) == 0 ==> o.store.libraries.rows == s.libraries.rows[s.libraries.next := LibraryOf(data)]))
  {
  }

  /** Deleting a library twice answers 200 and then 404. */
  lemma DeleteLibraryTwice(s: Store, id: Option<string>)
    requires Lookup(s.libraries, RowKey(id)).Some?
    ensures var first := DeleteLibrary(s, Db(Healthy, false), id);
      first.response.status == 200
      && first.store.libraries.rows == s.libraries.rows - {RowKey(id).value}
      && DeleteLibrary(first.store, Db(Healthy, false), id).response == Send(404, Error(LibraryNotFound))
  {
  }

  /** A created library can be read back at the `Location` the 201 names,
      and the totals of `GET /libraries/stats` count it. */
  lemma CreateThenGet(s: Store, data: map<string, Value>)
    requires Valid(s.libraries)
    requires TruthyField(data, "name") && TruthyField(data, "location")
    ensures var db := Db(Healthy, false);
      var created := CreateLibrary(s, db, Json(data));
      var k := s.libraries.next;
      created.response.status == 201
      && created.response.headers["Location"] == "/libraries/" + NatText(k)
      && GetLibrary(created.store, db, Some(NatText(k))) == Send(200, LibraryRow(k, LibraryOf(data)))
      && AllLibraryStats(created.store, db) == Send(200, AllStats(|s.libraries.rows| + 1, |s.entries.rows|))
  {
    var k := s.libraries.next;
    NatTextValue(k);
  }

  /** The library totals issue four statements: a failure of any of them is
      a 500, and otherwise the totals count the libraries and the
      `library_books` rows. */
  lemma AllStatsCounts(s: Store, db: Db)
    ensures db.fault.FailAt? && db.fault.step < 4 ==> AllLibraryStats(s, db) == DbFailure
    ensures db.fault.Healthy? || db.fault.step >= 4 ==>
      AllLibraryStats(s, db) == Send(200, AllStats(|s.libraries.rows|, |s.entries.rows|))
  {
  }
}

=== FILE: library_books.dfy ===
/** The `/library-books` handlers: the rows that place a book (with its
    author) in a library.  Creating and moving a row checks the referenced
    library, book and author in turn, then refuses a second row for the same
    (library, book) pair. */
module LibraryBooksApi {
  import opened Js
  import opened Sql
  import opened Store
  import opened Http

  const EntryNotFound := "Library-book entry not found"
  const AlreadyInLibrary := "Book already exists in this library"

  /** `SELECT id FROM library_books WHERE library_id = ? AND book_id = ?`,
      with `AND id != ?` when `except` is given. */
  predicate Conflict(entries: Table<Entry>, library: nat, book: nat, except: Option<nat>)
  {
    exists j :: j in entries.rows && entries.rows[j].libraryId == library
                && entries.rows[j].bookId == book && except != Some(j)
  }

  /** `GET /library-books/:id/`. */
  function GetEntry(s: Store, db: Db, id: Option<string>): (r: Response)
    ensures r.status == 200 <==> !Fails(db, 0) && Lookup(s.entries, RowKey(id)).Some?
    ensures r.status == 404 <==> !Fails(db, 0) && Lookup(s.entries, RowKey(id)).None?
  {
    var key := RowKey(id);
    if Fails(db, 0) then DbFailure
    else if Lookup(s.entries, key).None? then Send(404, Error(EntryNotFound))
    else Send(200, EntryRow(key.value, s.entries.rows[key.value]))
  }

  /** `GET /library-books`: exact filters, no order, no pagination. */
  function ListEntries(db: Db, query: map<string, string>): (r: Response)
    ensures r.status == 500 <==> Fails(db, 0)
    ensures r.status != 500 ==> r.status == 200
  {
    if Fails(db, 0) then DbFailure
    else Send(200, Rows(FilterQuery("library_books", EntryFilters, query)))
  }

  /** `POST /library-books/:id/`: the route id is the library.  Checks run
      as: required fields, then the statements of `InsertEntry`. */
  function AddEntry(s: Store, db: Db, id: Option<string>, body: Body): (o: Outcome)
    ensures Valid(s.entries) ==> Valid(o.store.entries)
    ensures EntriesUnique(s.entries) ==> EntriesUnique(o.store.entries)
    ensures o.response.status != 201 ==> o.store == s
    ensures o.store.books == s.books && o.store.authors == s.authors && o.store.libraries == s.libraries
  {
    match body
    case Malformed => Outcome(s, BadJson)
    case Json(data) =>
      if !TruthyField(data, "book_id") || !TruthyField(data, "author_id") then
        Outcome(s, Send(400, Error("Missing required fields: book_id, author_id")))
      else
        InsertEntry(s, db, id, data)
  }

  /** The statements of an entry creation: the library, book and author it
      references, the pair among the existing rows, then the INSERT. */
  function InsertEntry(s: Store, db: Db, id: Option<string>, data: map<string, Value>): (o: Outcome)
    requires "book_id" in data && "author_id" in data
    ensures Valid(s.entries) ==> Valid(o.store.entries)
    ensures EntriesUnique(s.entries) ==> EntriesUnique(o.store.entries)
    ensures o.response.status != 201 ==> o.store == s
    ensures !Fails(db, 0) && Lookup(s.libraries, RowKey(id)).None? ==>
      o == Outcome(s, Send(404, Error("Library not found")))
    ensures !Fails(db, 0) && !Fails(db, 1) && Lookup(s.libraries, RowKey(id)).Some?
            && Lookup(s.books, KeyOfValue(data["book_id"])).None? ==>
      o == Outcome(s, Send(404, Error("Book not found")))
    ensures !Fails(db, 0) && !Fails(db, 1) && !Fails(db, 2) && Lookup(s.libraries, RowKey(id)).Some?
            && Lookup(s.books, KeyOfValue(data["book_id"])).Some?
            && Lookup(s.authors, KeyOfValue(data["author_id"])).None? ==>
      o == Outcome(s, Send(404, Error("Author not found")))
    ensures o.response.status == 409 <==>
      !Fails(db, 0) && !Fails(db, 1) && !Fails(db, 2) && !Fails(db, 3)
      && Lookup(s.libraries, RowKey(id)).Some? && Lookup(s.books, KeyOfValue(data["book_id"])).Some?
      && Lookup(s.authors, KeyOfValue(data["author_id"])).Some?
      && Conflict(s.entries, RowKey(id).value, KeyOfValue(data["book_id"]).value, None)
    ensures o.response.status == 201 ==>
      Lookup(s.libraries, RowKey(id)).Some? && Lookup(s.books, KeyOfValue(data["book_id"])).Some?
      && Lookup(s.authors, KeyOfValue(data["author_id"])).Some?
      && !Conflict(s.entries, RowKey(id).value, KeyOfValue(data["book_id"]).value, None)
      && o.store.entries.rows
         == s.entries.rows[s.entries.next := Entry(RowKey(id).value, KeyOfValue(data["book_id"]).value,
                                                   KeyOfValue(data["author_id"]).value)]
    ensures o.store.books == s.books && o.store.authors == s.authors && o.store.libraries == s.libraries
  {
    var library := RowKey(id);
    var book, author := KeyOfValue(data["book_id"]), KeyOfValue(data["author_id"]);
    if Fails(db, 0) then Outcome(s, DbFailure)
    else if Lookup(s.libraries, library).None? then Outcome(s, Send(404, Error("Library not found")))
    else if Fails(db, 1) then Outcome(s, DbFailure)
    else if Lookup(s.books, book).None? then Outcome(s, Send(404, Error("Book not found")))
    else if Fails(db, 2) then Outcome(s, DbFailure)
    else if Lookup(s.authors, author).None? then Outcome(s, Send(404, Error("Author not found")))
    else if Fails(db, 3) then Outcome(s, DbFailure)
    else if Conflict(s.entries, library.value, book.value, None) then Outcome(s, Send(409, Error(AlreadyInLibrary)))
    else if Fails(db, 4) then Outcome(s, DbFailure)
    else
      var k := s.entries.next;
      var entries := Insert(s.entries, Entry(library.value, book.value, author.value));
      NewPairKeepsUnique(s.entries, entries, k, library.value, book.value);
      Outcome(s.(entries := entries),
              CreatedAt("/library-books/" + NatText(k),
                        map["id" := Num(k), "library_id" := Str(id.value),
                            "book_id" := data["book_id"], "author_id" := data["author_id"]]))
  }

  /** `PUT /library-books/:id/`: required fields, then the statements of
      `MoveEntry`. */
  function ReplaceEntry(s: Store, db: Db, id: Option<string>, body: Body): (o: Outcome)
    ensures Valid(s.entries) ==> Valid(o.store.entries)
    ensures EntriesUnique(s.entries) ==> EntriesUnique(o.store.entries)
    ensures o.response.status != 200 ==> o.store == s
    ensures o.store.books == s.books && o.store.authors == s.authors && o.store.libraries == s.libraries
  {
    match body
    case Malformed => Outcome(s, BadJson)
    case Json(data) =>
      if !TruthyField(data, "library_id") || !TruthyField(data, "book_id") || !TruthyField(data, "author_id") then
        Outcome(s, Send(400, Error("Missing required fields: library_id, book_id, author_id")))
      else
        MoveEntry(s, db, RowKey(id), KeyOfValue(data["library_id"]), KeyOfValue(data["book_id"]),
                  KeyOfValue(data["author_id"]))
  }

  /** The statements of an entry update: the entry itself, then the library,
      book and author it will reference, then the pair among the other rows. */
  function MoveEntry(s: Store, db: Db, key: Option<nat>, library: Option<nat>, book: Option<nat>,
                     author: Option<nat>): (o: Outcome)
    ensures Valid(s.entries) ==> Valid(o.store.entries)
    ensures EntriesUnique(s.entries) ==> EntriesUnique(o.store.entries)
    ensures o.response.status != 200 ==> o.store == s
    ensures !Fails(db, 0) && Lookup(s.entries, key).None? ==>
      o == Outcome(s, Send(404, Error(EntryNotFound)))
    ensures !Fails(db, 0) && !Fails(db, 1) && Lookup(s.entries, key).Some? && Lookup(s.libraries, library).None? ==>
      o == Outcome(s, Send(404, Error("Library not found")))
    ensures !Fails(db, 0) && !Fails(db, 1) && !Fails(db, 2) && Lookup(s.entries, key).Some?
            && Lookup(s.libraries, library).Some? && Lookup(s.books, book).None? ==>
      o == Outcome(s, Send(404, Error("Book not found")))
    ensures !Fails(db, 0) && !Fails(db, 1) && !Fails(db, 2) && !Fails(db, 3) && Lookup(s.entries, key).Some?
            && Lookup(s.libraries, library).Some? && Lookup(s.books, book).Some? && Lookup(s.authors, author).None? ==>
      o == Outcome(s, Send(404, Error("Author not found")))
    ensures o.response.status == 409 <==>
      !Fails(db, 0) && !Fails(db, 1) && !Fails(db, 2) && !Fails(db, 3) && !Fails(db, 4)
      && Lookup(s.entries, key).Some? && Lookup(s.libraries, library).Some?
      && Lookup(s.books, book).Some? && Lookup(s.authors, author).Some?
      && Conflict(s.entries, library.value, book.value, key)
    ensures o.response.status == 200 ==>
      Lookup(s.entries, key).Some? && Lookup(s.libraries, library).Some?
      && Lookup(s.books, book).Some? && Lookup(s.authors, author).Some?
      && !Conflict(s.entries, library.value, book.value, key)
      && o.store.entries.rows == s.entries.rows[key.value := Entry(library.value, book.value, author.value)]
    ensures o.store.books == s.books && o.store.authors == s.authors && o.store.libraries == s.libraries
  {
    if Fails(db, 0) then Outcome(s, DbFailure)
    else if Lookup(s.entries, key).None? then Outcome(s, Send(404, Error(EntryNotFound)))
    else if Fails(db, 1) then Outcome(s, DbFailure)
    else if Lookup(s.libraries, library).None? then Outcome(s, Send(404, Error("Library not found")))
    else if Fails(db, 2) then Outcome(s, DbFailure)
    else if Lookup(s.books, book).None? then Outcome(s, Send(404, Error("Book not found")))
    else if Fails(db, 3) then Outcome(s, DbFailure)
    else if Lookup(s.authors, author).None? then Outcome(s, Send(404, Error("Author not found")))
    else if Fails(db, 4) then Outcome(s, DbFailure)
    else if Conflict(s.entries, library.value, book.value, key) then Outcome(s, Send(409, Error(AlreadyInLibrary)))
    else if Fails(db, 5) then Outcome(s, DbFailure)
    else
      var entries := Put(s.entries, key.value, Entry(library.value, book.value, author.value));
      NewPairKeepsUnique(s.entries, entries, key.value, library.value, book.value);
      Outcome(s.(entries := entries), Send(200, Message("Library-book entry updated successfully")))
  }

  /** `DELETE /library-books/:id/`: a single DELETE; no affected row is a 404. */
  function DeleteEntry(s: Store, db: Db, id: Option<string>): (o: Outcome)
    ensures Valid(s.entries) ==> Valid(o.store.entries)
    ensures EntriesUnique(s.entries) ==> EntriesUnique(o.store.entries)
    ensures o.response.status != 200 ==> o.store == s
    ensures o.store.books == s.books && o.store.authors == s.authors && o.store.libraries == s.libraries
  {
    var key := RowKey(id);
    if Fails(db, 0) then Outcome(s, DbFailure)
    else if Lookup(s.entries, key).None? then Outcome(s, Send(404, Error(EntryNotFound)))
    else Outcome(s.(entries := Remove(s.entries, key.value)), Send(200, Message("Library-book entry deleted successfully")))
  }

  /** Writing row `k` with a pair no other row holds keeps pairs unique. */
  lemma NewPairKeepsUnique(before: Table<Entry>, after: Table<Entry>, k: nat, library: nat, book: nat)
    requires k in after.rows && after.rows[k].libraryId == library && after.rows[k].bookId == book
    requires after.rows.Keys <= before.rows.Keys + {k}
    requires forall j :: j in after.rows && j != k ==> after.rows[j] == before.rows[j]
    requires !Conflict(before, library, book, Some(k))
    ensures EntriesUnique(before) ==> EntriesUnique(after)
  {
    if EntriesUnique(before) {
      forall i, j | i in after.rows && j in after.rows && i != j
        ensures (after.rows[i].libraryId, after.rows[i].bookId) != (after.rows[j].libraryId, after.rows[j].bookId)
      {
        if i == k {
          assert after.rows[j] == before.rows[j];
        } else if j == k {
          assert after.rows[i] == before.rows[i];
        }
      }
    }
  }

  // ----- Properties -----

  /** The referenced rows are checked in a fixed order on a healthy
      database: a missing library is named whatever the book and author, a
      missing book whatever the author, and a missing author before any
      question of the pair. */
  lemma AddEntryCheckOrder(s: Store, d: string, data: map<string, Value>)
    requires TruthyField(data, "book_id") && TruthyField(data, "author_id")
    ensures var library, book := RowKey(Some(d)), KeyOfValue(data["book_id"]);
      var o := AddEntry(s, Db(Healthy, false), Some(d), Json(data));
      (Lookup(s.libraries, library).None? ==> o == Outcome(s, Send(404, Error("Library not found"))))
      && (Lookup(s.libraries, library).Some? && Lookup(s.books, book).None? ==>
            o == Outcome(s, Send(404, Error("Book not found"))))
      && (Lookup(s.libraries, library).Some? && Lookup(s.books, book).Some?
          && Lookup(s.authors, KeyOfValue(data["author_id"])).None? ==>
            o == Outcome(s, Send(404, Error("Author not found"))))
  {
  }

  /** Both writes answer their 400 exactly when one of the ids they need is
      falsy, before any statement runs. */
  lemma RequiredIds(s: Store, db: Db, id: Option<string>, data: map<string, Value>)
    ensures AddEntry(s, db, id, Json(data)).response == Send(400, Error("Missing required fields: book_id, author_id"))
            <==> !TruthyField(data, "book_id") || !TruthyField(data, "author_id")
    ensures ReplaceEntry(s, db, id, Json(data)).response
              == Send(400, Error("Missing required fields: library_id, book_id, author_id"))
            <==> !TruthyField(data, "library_id") || !TruthyField(data, "book_id") || !TruthyField(data, "author_id")
  {
  }

  /** An update looks the entry up before anything it references: a missing
      entry is a 404 naming the entry whatever the body points to. */
  lemma ReplaceEntryCheckOrder(s: Store, id: Option<string>, data: map<string, Value>)
    requires TruthyField(data, "library_id") && TruthyField(data, "book_id") && TruthyField(data, "author_id")
    requires Lookup(s.entries, RowKey(id)).None?
    ensures ReplaceEntry(s, Db(Healthy, false), id, Json(data)) == Outcome(s, Send(404, Error(EntryNotFound)))
  {
  }

  /** Adding a book that the library already holds is a 409 that changes
      nothing; adding a new pair creates a row whose `Location` names it. */
  lemma AddEntryConflict(s: Store, d: string, data: map<string, Value>)
    requires Valid(s.entries)
    requires IsDigits(d) && DigitsValue(d) in s.libraries.rows
    requires TruthyField(data, "book_id") && TruthyField(data, "author_id")
    requires Lookup(s.books, KeyOfValue(data["book_id"])).Some?
    requires Lookup(s.authors, KeyOfValue(data["author_id"])).Some?
    ensures var o := AddEntry(s, Db(Healthy, false), Some(d), Json(data));
      var book := KeyOfValue(data["book_id"]).value;
      (Conflict(s.entries, DigitsValue(d), book, None) ==> o == Outcome(s, Send(409, Error(AlreadyInLibrary))))
      && (!Conflict(s.entries, DigitsValue(d), book, None) ==>
            o.response.status == 201
            && o.response.headers["Location"] == "/library-books/" + NatText(s.entries.next)
            && GetEntry(o.store, Db(Healthy, false), Some(NatText(s.entries.next)))
               == Send(200, EntryRow(s.entries.next, Entry(DigitsValue(d), book, KeyOfValue(data["author_id"]).value))))
  {
    NatTextValue(s.entries.next);
  }

  /** Rewriting an entry with the pair it already holds is not a conflict,
      because the row itself is excluded from the duplicate check: with the
      referenced rows present and a healthy database the update succeeds. */
  lemma ReplaceEntryKeepsOwnPair(s: Store, id: Option<string>, data: map<string, Value>)
    requires EntriesUnique(s.entries)
    requires Lookup(s.entries, RowKey(id)).Some?
    requires TruthyField(data, "library_id") && TruthyField(data, "book_id") && TruthyField(data, "author_id")
    requires KeyOfValue(data["library_id"]) == Some(s.entries.rows[RowKey(id).value].libraryId)
    requires KeyOfValue(data["book_id"]) == Some(s.entries.rows[RowKey(id).value].bookId)
    requires Lookup(s.libraries, KeyOfValue(data["library_id"])).Some?
    requires Lookup(s.books, KeyOfValue(data["book_id"])).Some?
    requires Lookup(s.authors, KeyOfValue(data["author_id"])).Some?
    ensures ReplaceEntry(s, Db(Healthy, false), id, Json(data)).response
            == Send(200, Message("Library-book entry updated successfully"))
  {
    var e := s.entries.rows[RowKey(id).value];
    assert !Conflict(s.entries, e.libraryId, e.bookId, RowKey(id));
  }

  /** Deleting an entry twice answers 200 and then 404. */
  lemma DeleteEntryTwice(s: Store, id: Option<string>)
    requires Lookup(s.entries, RowKey(id)).Some?
    ensures var first := DeleteEntry(s, Db(Healthy, false), id);
      first.response.status == 200
      && first.store.entries.rows == s.entries.rows - {RowKey(id).value}
      && DeleteEntry(first.store, Db(Healthy, false), id).response == Send(404, Error(EntryNotFound))
  {
  }

  /** The list answers 500 only when its one statement fails; otherwise it
      answers the rows of its filter statement, which reads the whole table
      when no filter is given. */
  lemma ListEntriesOutcome(db: Db, query: map<string, string>)
    ensures Fails(db, 0) ==> ListEntries(db, query) == DbFailure
    ensures !Fails(db, 0) ==>
      ListEntries(db, query).status == 200
      && ListEntries(db, query).payload == Rows(FilterQuery("library_books", EntryFilters, query))
    ensures !Given(query, "library_id") && !Given(query, "book_id") && !Given(query, "author_id") ==>
      FilterQuery("library_books", EntryFilters, query) == Query([Text("SELECT * FROM library_books")], [])
  {
    var active := ActiveFilters(EntryFilters, query);
    if active != [] {
      assert active[0] in active;
      EntryFilterKeys(active[0]);
    } else {
      FilterQueryUnfiltered("library_books", EntryFilters, query);
      assert "SELECT * FROM " + "library_books" == "SELECT * FROM library_books";
    }
  }

  /** The list filters are exact matches on the column the query key names. */
  lemma EntryFilterKeys(f: Filter)
    requires f in EntryFilters
    ensures f.mode == Exact && f.column == f.key
    ensures f.key == "library_id" || f.key == "book_id" || f.key == "author_id"
  {
  }

  /** Condition `i` of the list statement is an equality on the `i`-th given
      filter's column, bound to that filter's query value unchanged. */
  lemma EntryFilterAt(query: map<string, string>, i: nat)
    requires i < |ActiveFilters(EntryFilters, query)|
    ensures var q := FilterQuery("library_books", EntryFilters, query);
      var f := ActiveFilters(EntryFilters, query)[i];
      f in EntryFilters && Given(query, f.key)
      && 2 + 3 * i < |q.tokens| && i < |q.params|
      && q.tokens[2 + 3 * i] == Text(f.column + " = ")
      && q.params[i] == Arg(Str(query[f.key]))
  {
    var active := ActiveFilters(EntryFilters, query);
    FilterQueryAt("library_books", EntryFilters, query, i);
    assert active[i] in active;
    EntryFilterKeys(active[i]);
  }
}

=== FILE: paging.dfy ===
/** The paginated list endpoints (`GET /books`, `/authors`, `/libraries`):
    one SELECT with filters, order and `LIMIT ? OFFSET ?`, then an unfiltered
    `COUNT(*)` for the metadata. */
module Paging {
  import opened Js
  import opened Store
  import opened Sql
  import opened Http

  /** `Math.ceil(totalItems / limit)`; `None` stands for `NaN` and the
      infinities, which `count / 0` produces.  Only a limit that MySQL took
      gets here (`ListPageOutcome`), so the limit is a number and at least 0;
      the `NaN` and negative branches keep the function total. */
  function TotalPages(count: nat, limit: Option<int>): (pages: Option<int>)
    ensures pages.Some? <==> limit.Some? && limit.value != 0
    ensures pages.Some? && limit.value > 0 ==>
      (pages.value - 1) * limit.value < count <= pages.value * limit.value
    ensures pages.Some? && limit.value < 0 ==>
      pages.value * limit.value <= count < (pages.value - 1) * limit.value
  {
    if limit.None? || limit.value == 0 then None
    else if limit.value > 0 then
      var l := limit.value;
      var p := (count + l - 1) / l;
      CeilingBounds(count, l);
      Some(p)
    else
      var l := -limit.value;
      var p := count / l;
      FloorBounds(count, l);
      Some(-p)
  }

  lemma CeilingBounds(c: nat, l: int)
    requires l > 0
    ensures ((c + l - 1) / l - 1) * l < c <= ((c + l - 1) / l) * l
  {
    var q, r := (c + l - 1) / l, (c + l - 1) % l;
    assert c + l - 1 == q * l + r && 0 <= r < l;
    assert (q - 1) * l == q * l - l;
  }

  lemma FloorBounds(c: nat, l: int)
    requires l > 0
    ensures (c / l) * l <= c < (c / l + 1) * l
  {
    var q, r := c / l, c % l;
    assert c == q * l + r && 0 <= r < l;
    assert (q + 1) * l == q * l + l;
  }

  /** The shared list handler: a failed SELECT is a 500, and so is one whose
      `LIMIT` or `OFFSET` MySQL refuses; a failed count still answers 200,
      with only `page` and `limit`; otherwise the metadata counts every row
      of the table, whatever the filters. */
  function ListPage(count: nat, table: string, filters: seq<Filter>, db: Db,
                    query: map<string, string>): Response
  {
    var q := ListQuery(table, filters, query);
    if Fails(db, 0) || PagingRefused(query) then DbFailure
    else if Fails(db, 1) then Send(200, Listing(q, Pagination(Page(query), Limit(query), None)))
    else Send(200, Listing(q, Pagination(Page(query), Limit(query), Some(Totals(count, TotalPages(count, Limit(query)))))))
  }

  /** Only the first statement's failure is an error, whether the database
      or the paging causes it; the count's failure only drops `totalItems` and
      `totalPages`, and the metadata echoes the parsed page and limit (10 and
      1 when absent).  A page count is only ever computed for a limit of at
      least 0, and it is `null` exactly for a limit of 0. */
  lemma ListPageOutcome(count: nat, table: string, filters: seq<Filter>, db: Db, query: map<string, string>)
    ensures ListPage(count, table, filters, db, query).status
            == (if Fails(db, 0) || PagingRefused(query) then 500 else 200)
    ensures !Fails(db, 0) && !PagingRefused(query) ==>
      var p := ListPage(count, table, filters, db, query).payload;
      p.Listing? && p.data == ListQuery(table, filters, query)
      && p.pagination.page == Page(query) && p.pagination.limit == Limit(query)
      && (p.pagination.totals.Some? <==> !Fails(db, 1))
      && (p.pagination.totals.Some? ==> p.pagination.totals.value.totalItems == count)
      && (p.pagination.totals.Some? ==>
            Limit(query).Some? && Limit(query).value >= 0
            && (p.pagination.totals.value.totalPages.None? <==> Limit(query) == Some(0)))
    ensures !Fails(db, 0) && !Given(query, "limit") && !Given(query, "page") ==>
      var r := ListPage(count, table, filters, db, query);
      r.status == 200 && r.payload.pagination.page == Some(1) && r.payload.pagination.limit == Some(10)
  {
  }

  /** Which paging MySQL refuses: a `NaN` limit or page, a negative limit,
      and with a positive limit any page below 1, since the offset
      `(page - 1) * limit` is then negative.  A non-negative limit with a page
      of at least 1 is taken, and so are the defaults. */
  lemma PagingRefusedCases(query: map<string, string>)
    ensures Limit(query).None? || Page(query).None? ==> PagingRefused(query)
    ensures Limit(query).Some? && Limit(query).value < 0 ==> PagingRefused(query)
    ensures Limit(query).Some? && Limit(query).value > 0 && Page(query).Some? && Page(query).value < 1 ==>
      PagingRefused(query)
    ensures Limit(query).Some? && Limit(query).value >= 0 && Page(query).Some? && Page(query).value >= 1 ==>
      !PagingRefused(query)
    ensures !Given(query, "limit") && !Given(query, "page") ==> !PagingRefused(query)
  {
    if Limit(query).Some? && Page(query).Some? {
      var l, p := Limit(query).value, Page(query).value;
      if l > 0 && p < 1 {
        assert (p - 1) * l < 0 by { MulNegPos(p - 1, l); }
      }
      if l >= 0 && p >= 1 {
        assert (p - 1) * l >= 0;
      }
    }
  }

  lemma MulNegPos(a: int, b: int)
    requires a < 0 && b > 0
    ensures a * b < 0
  {
  }

  /** Twelve rows at five per page make three pages; with no limit given,
      ten per page make two; a zero limit prints `null`. */
  lemma TotalPagesExamples()
    ensures TotalPages(12, Some(5)) == Some(3)
    ensures TotalPages(12, Some(10)) == Some(2)
    ensures TotalPages(10, Some(10)) == Some(1)
    ensures TotalPages(0, Some(10)) == Some(0)
    ensures TotalPages(12, Some(0)) == None
  {
  }
}

=== FILE: paths.dfy ===
/** Request-path normalisation and the six anchored regular expressions the
    dispatcher tries: `/books/\d+`, `/authors/\d+`, `/libraries/\d+`,
    `/library-books/\d+`, `/books/\d+/recommendations` and
    `/libraries/\d+/stats`.  Paths are taken after percent-decoding. */
module Paths {
  import opened Js

  datatype Resource = Books | Authors | Libraries | LibraryBooks

  /** The literal part before the captured id, e.g. "/books/". */
  function Prefix(r: Resource): string
  {
    match r
    case Books => "/books/"
    case Authors => "/authors/"
    case Libraries => "/libraries/"
    case LibraryBooks => "/library-books/"
  }

  predicate IsBreak(c: char)
  {
    c == '\n' || c == '\r'
  }

  predicate NoBreaks(s: string)
  {
    forall i :: 0 <= i < |s| ==> !IsBreak(s[i])
  }

  /** `s.replace(/[\n\r]/g, '')`. */
  function RemoveBreaks(s: string): (r: string)
    ensures NoBreaks(r)
    ensures |r| <= |s|
    ensures NoBreaks(s) ==> r == s
  {
    if s == [] then []
    else if IsBreak(s[0]) then RemoveBreaks(s[1..])
    else [s[0]] + RemoveBreaks(s[1..])
  }

  /** Removing line breaks commutes with concatenation, so every break is
      removed wherever it occurs. */
  lemma {:induction false} RemoveBreaksAppend(a: string, b: string)
    ensures RemoveBreaks(a + b) == RemoveBreaks(a) + RemoveBreaks(b)
  {
    if a == [] {
      assert a + b == b;
    } else {
      assert (a + b)[0] == a[0];
      assert (a + b)[1..] == a[1..] + b;
      RemoveBreaksAppend(a[1..], b);
    }
  }

  /** The path the dispatcher matches: breaks removed everywhere, then one
      trailing `/` removed (`.replace(/\/$/, '')`), so "/" becomes "". */
  function Normalize(raw: string): (p: string)
    ensures NoBreaks(p)
    ensures var c := RemoveBreaks(raw);
      if |c| > 0 && c[|c| - 1] == '/' then c == p + "/" else c == p
  {
    var c := RemoveBreaks(raw);
    if |c| > 0 && c[|c| - 1] == '/' then c[..|c| - 1] else c
  }

  /** Exactly one trailing slash is stripped, even when more precede it. */
  lemma NormalizeStripsOne(p: string)
    requires NoBreaks(p)
    ensures Normalize(p + "/") == p
  {
    assert NoBreaks(p + "/");
  }

  /** A clean path is its own normal form, and adding one trailing slash to it
      does not change what the dispatcher sees. */
  lemma NormalizeClean(p: string)
    requires NoBreaks(p)
    requires p == [] || p[|p| - 1] != '/'
    ensures Normalize(p) == p
    ensures Normalize(p + "/") == p
  {
    assert NoBreaks(p + "/");
  }

  predicate StartsWith(s: string, prefix: string)
  {
    |prefix| <= |s| && s[..|prefix|] == prefix
  }

  predicate EndsWith(s: string, suffix: string)
  {
    |suffix| <= |s| && s[|s| - |suffix|..] == suffix
  }

  /** `^<prefix>(\d+)$`: the capture when the path is the prefix followed by digits. */
  function MatchId(prefix: string, path: string): (r: Option<string>)
    ensures r.Some? ==> path == prefix + r.value && IsDigits(r.value)
  {
    if |path| > |prefix| && StartsWith(path, prefix) && AllDigits(path[|prefix|..])
    then Some(path[|prefix|..]) else None
  }

  /** `^<prefix>(\d+)<suffix>$`. */
  function MatchSub(prefix: string, suffix: string, path: string): (r: Option<string>)
    ensures r.Some? ==> path == prefix + r.value + suffix && IsDigits(r.value)
  {
    if |path| > |prefix| + |suffix| && StartsWith(path, prefix) && EndsWith(path, suffix)
       && AllDigits(path[|prefix|..|path| - |suffix|])
    then Some(path[|prefix|..|path| - |suffix|]) else None
  }

  lemma MatchIdInstance(prefix: string, d: string)
    requires IsDigits(d)
    ensures MatchId(prefix, prefix + d) == Some(d)
  {
    assert (prefix + d)[..|prefix|] == prefix;
    assert (prefix + d)[|prefix|..] == d;
  }

  lemma MatchSubInstance(prefix: string, suffix: string, d: string)
    requires IsDigits(d)
    ensures MatchSub(prefix, suffix, prefix + d + suffix) == Some(d)
  {
    var p := prefix + d + suffix;
    assert p[..|prefix|] == prefix;
    assert p[|p| - |suffix|..] == suffix;
    assert p[|prefix|..|p| - |suffix|] == d;
  }

  const RecommendationsSuffix := "/recommendations"
  const StatsSuffix := "/stats"

  /** The path shapes with a captured numeric id. */
  datatype Shape = ResourceId(r: Resource) | BookRecommendations | LibraryStats

  datatype Capture = Capture(shape: Shape, id: string)

  /** The concrete path of a shape instantiated with id `d`. */
  function ShapePath(s: Shape, d: string): string
  {
    match s
    case ResourceId(r) => Prefix(r) + d
    case BookRecommendations => Prefix(Books) + d + RecommendationsSuffix
    case LibraryStats => Prefix(Libraries) + d + StatsSuffix
  }

  function BookIdMatch(p: string): Option<string> { MatchId(Prefix(Books), p) }
  function AuthorIdMatch(p: string): Option<string> { MatchId(Prefix(Authors), p) }
  function LibraryIdMatch(p: string): Option<string> { MatchId(Prefix(Libraries), p) }
  function EntryIdMatch(p: string): Option<string> { MatchId(Prefix(LibraryBooks), p) }
  function RecommendationsMatch(p: string): Option<string> { MatchSub(Prefix(Books), RecommendationsSuffix, p) }
  function StatsMatch(p: string): Option<string> { MatchSub(Prefix(Libraries), StatsSuffix, p) }

  /** The `if / else if` chain over the six regular expressions, in source order. */
  function Classify(p: string): Option<Capture>
  {
    if BookIdMatch(p).Some? then Some(Capture(ResourceId(Books), BookIdMatch(p).value))
    else if AuthorIdMatch(p).Some? then Some(Capture(ResourceId(Authors), AuthorIdMatch(p).value))
    else if LibraryIdMatch(p).Some? then Some(Capture(ResourceId(Libraries), LibraryIdMatch(p).value))
    else if EntryIdMatch(p).Some? then Some(Capture(ResourceId(LibraryBooks), EntryIdMatch(p).value))
    else if RecommendationsMatch(p).Some? then Some(Capture(BookRecommendations, RecommendationsMatch(p).value))
    else if StatsMatch(p).Some? then Some(Capture(LibraryStats, StatsMatch(p).value))
    else None
  }

  /** How many of the six expressions match `p`. */
  function MatchCount(p: string): nat
  {
    (if BookIdMatch(p).Some? then 1 else 0) + (if AuthorIdMatch(p).Some? then 1 else 0)
    + (if LibraryIdMatch(p).Some? then 1 else 0) + (if EntryIdMatch(p).Some? then 1 else 0)
    + (if RecommendationsMatch(p).Some? then 1 else 0) + (if StatsMatch(p).Some? then 1 else 0)
  }

  /** Two prefixes that differ at position `i` cannot both start a string. */
  lemma PrefixClash(p: string, a: string, b: string, i: nat)
    requires i < |a| && i < |b| && a[i] != b[i]
    requires StartsWith(p, a)
    ensures !StartsWith(p, b)
  {
    assert p[i] == p[..|a|][i];
  }

  /** An id match ends in a digit; a sub-path match ends in its suffix's last letter. */
  lemma LastChars(p: string)
    ensures BookIdMatch(p).Some? || LibraryIdMatch(p).Some? ==> IsDigit(p[|p| - 1])
    ensures RecommendationsMatch(p).Some? || StatsMatch(p).Some? ==> p[|p| - 1] == 's'
  {
    if BookIdMatch(p).Some? {
      var d := BookIdMatch(p).value;
      assert p[|p| - 1] == d[|d| - 1];
    }
    if LibraryIdMatch(p).Some? {
      var d := LibraryIdMatch(p).value;
      assert p[|p| - 1] == d[|d| - 1];
    }
    if RecommendationsMatch(p).Some? {
      var d := RecommendationsMatch(p).value;
      assert p == Prefix(Books) + d + RecommendationsSuffix;
      assert p[|p| - 1] == RecommendationsSuffix[|RecommendationsSuffix| - 1];
    }
    if StatsMatch(p).Some? {
      var d := StatsMatch(p).value;
      assert p == Prefix(Libraries) + d + StatsSuffix;
      assert p[|p| - 1] == StatsSuffix[|StatsSuffix| - 1];
    }
  }

  /** The six anchored expressions are pairwise disjoint, so the order of the
      `else if` chain never decides between two of them. */
  lemma {:induction false} MatchesDisjoint(p: string)
    ensures MatchCount(p) <= 1
  {
    var books, authors, libraries, entries := Prefix(Books), Prefix(Authors), Prefix(Libraries), Prefix(LibraryBooks);
    // second character: 'b', 'a', 'l', 'l'
    if StartsWith(p, books) {
      PrefixClash(p, books, authors, 1);
      PrefixClash(p, books, libraries, 1);
      PrefixClash(p, books, entries, 1);
    }
    if StartsWith(p, authors) {
      PrefixClash(p, authors, libraries, 1);
      PrefixClash(p, authors, entries, 1);
    }
    // "/librari" against "/library"
    if StartsWith(p, libraries) {
      PrefixClash(p, libraries, entries, 7);
    }
    LastChars(p);
  }

  /** Classification inverts `ShapePath` on digit strings: a path is captured
      exactly when it instantiates a shape, and the capture is that instance. */
  lemma ClassifyShapePath(s: Shape, d: string)
    requires IsDigits(d)
    ensures Classify(ShapePath(s, d)) == Some(Capture(s, d))
  {
    var p := ShapePath(s, d);
    MatchesDisjoint(p);
    match s
    case ResourceId(r) => MatchIdInstance(Prefix(r), d);
    case BookRecommendations => MatchSubInstance(Prefix(Books), RecommendationsSuffix, d);
    case LibraryStats => MatchSubInstance(Prefix(Libraries), StatsSuffix, d);
  }

  lemma ClassifySound(p: string)
    requires Classify(p).Some?
    ensures IsDigits(Classify(p).value.id)
    ensures p == ShapePath(Classify(p).value.shape, Classify(p).value.id)
  {
  }

  /** Two resource prefixes that both start one path are the same prefix. */
  lemma PrefixesExclusive(p: string, q: Resource, r: Resource)
    requires StartsWith(p, Prefix(q)) && StartsWith(p, Prefix(r))
    ensures q == r
  {
    if q != r {
      // "/librari" against "/library"; every other pair differs at index 1
      var i := if {q, r} == {Libraries, LibraryBooks} then 7 else 1;
      PrefixClash(p, Prefix(q), Prefix(r), i);
    }
  }

  /** Every expression wants a digit right after its resource prefix, so a
      path that continues a prefix with anything else matches none of them. */
  lemma NonDigitAfterPrefix(p: string, r: Resource)
    requires |Prefix(r)| < |p| && StartsWith(p, Prefix(r)) && !IsDigit(p[|Prefix(r)|])
    ensures Classify(p) == None
  {
    NoMatchUnder(p, r, Books);
    NoMatchUnder(p, r, Authors);
    NoMatchUnder(p, r, Libraries);
    NoMatchUnder(p, r, LibraryBooks);
  }

  lemma NoMatchUnder(p: string, r: Resource, q: Resource)
    requires |Prefix(r)| < |p| && StartsWith(p, Prefix(r)) && !IsDigit(p[|Prefix(r)|])
    ensures MatchId(Prefix(q), p).None?
    ensures MatchSub(Prefix(q), RecommendationsSuffix, p).None? && MatchSub(Prefix(q), StatsSuffix, p).None?
  {
    if StartsWith(p, Prefix(q)) {
      PrefixesExclusive(p, q, r);
      NeedsDigit(Prefix(r), RecommendationsSuffix, p);
      NeedsDigit(Prefix(r), StatsSuffix, p);
    }
  }

  /** An id or sub-path expression wants a digit right after its prefix. */
  lemma NeedsDigit(prefix: string, suffix: string, p: string)
    requires |prefix| < |p| && !IsDigit(p[|prefix|])
    ensures MatchId(prefix, p).None? && MatchSub(prefix, suffix, p).None?
  {
    var n := |prefix|;
    assert p[n..][0] == p[n];
    if |p| > n + |suffix| {
      assert p[n..|p| - |suffix|][0] == p[n];
    }
  }

  /** Shape paths contain no line breaks and do not end in `/`. */
  lemma ShapePathClean(s: Shape, d: string)
    requires IsDigits(d)
    ensures NoBreaks(ShapePath(s, d))
    ensures ShapePath(s, d)[|ShapePath(s, d)| - 1] != '/'
  {
    assert NoBreaks(d) by {
      forall i | 0 <= i < |d| ensures !IsBreak(d[i]) { assert IsDigit(d[i]); }
    }
    match s
    case ResourceId(r) =>
      PrefixNoBreaks(r);
      NoBreaksAppend(Prefix(r), d);
      assert ShapePath(s, d)[|ShapePath(s, d)| - 1] == d[|d| - 1];
    case BookRecommendations =>
      PrefixNoBreaks(Books);
      NoBreaksAppend(Prefix(Books), d);
      NoBreaksAppend(Prefix(Books) + d, RecommendationsSuffix);
    case LibraryStats =>
      PrefixNoBreaks(Libraries);
      NoBreaksAppend(Prefix(Libraries), d);
      NoBreaksAppend(Prefix(Libraries) + d, StatsSuffix);
  }

  lemma NoBreaksAppend(a: string, b: string)
    requires NoBreaks(a) && NoBreaks(b)
    ensures NoBreaks(a + b)
  {
    forall i | 0 <= i < |a + b| ensures !IsBreak((a + b)[i]) {
      if i >= |a| { assert (a + b)[i] == b[i - |a|]; }
    }
  }

  lemma PrefixNoBreaks(r: Resource)
    ensures NoBreaks(Prefix(r))
  {
  }

  /** A resource's collection path, its prefix without the final `/`. */
  function CollectionPath(r: Resource): (p: string)
    ensures p + "/" == Prefix(r)
  {
    match r
    case Books => "/books"
    case Authors => "/authors"
    case Libraries => "/libraries"
    case LibraryBooks => "/library-books"
  }

  /** A path whose only `/` is the leading one starts with no prefix, since
      every prefix ends in a second `/`. */
  lemma SingleSlashUncaptured(p: string)
    requires forall i :: 0 < i < |p| ==> p[i] != '/'
    ensures Classify(p).None?
  {
    forall r: Resource | StartsWith(p, Prefix(r)) ensures p[|Prefix(r)| - 1] == '/' {
      var n := |Prefix(r)|;
      assert p[..n][n - 1] == '/';
    }
  }

  /** Collection paths are already normalised and match no expression. */
  lemma CollectionPathFacts(r: Resource)
    ensures Normalize(CollectionPath(r)) == CollectionPath(r)
    ensures Classify(CollectionPath(r)).None?
  {
    var p := CollectionPath(r);
    forall i | 0 < i < |p| ensures p[i] != '/' && !IsBreak(p[i]) {
      assert p[i] == Prefix(r)[i];
    }
    assert !IsBreak(p[0]) by { assert p[0] == Prefix(r)[0]; }
    assert p[|p| - 1] != '/';
    NormalizeClean(p);
    SingleSlashUncaptured(p);
  }
}

=== FILE: router.dfy ===
/** The route table: four per-resource tables merged by object spread, plus
    the `default` not-found handler.  The source keys its object by strings
    `"METHOD:/path"`; here a key is interned as `Route(verb, target)`, where
    the known methods and the registered paths are constructors and any other
    text is kept verbatim.  `KeyText` gives back the source's string, and the
    round-trip lemmas show interning neither merges nor splits keys. */
module Router {
  import opened Js
  import opened Paths

  /** Every handler registered in the merged table. */
  datatype Handler =
    | ListBooks | GetBook | RecommendForBook | RecommendByFilter
    | CreateBook | CreateBookWithId | ReplaceBook | PatchBook | DeleteBook
    | ListAuthors | GetAuthor | CreateAuthor | CreateAuthorWithId
    | ReplaceAuthor | PatchAuthor | DeleteAuthor
    | ListLibraries | GetLibrary | AllLibraryStats | LibraryStatsById
    | CreateLibrary | CreateLibraryWithId | ReplaceLibrary | DeleteLibrary
    | GetEntry | ListEntries | AddEntry | ReplaceEntry | DeleteEntry
    | CollectionNotAllowed
    | NotFound

  /** An upper-cased request method. */
  datatype Verb = GET | POST | PUT | PATCH | DELETE | OtherVerb(name: string)

  function VerbText(v: Verb): string
  {
    match v
    case GET => "GET"
    case POST => "POST"
    case PUT => "PUT"
    case PATCH => "PATCH"
    case DELETE => "DELETE"
    case OtherVerb(s) => s
  }

  function VerbOf(s: string): (v: Verb)
    ensures VerbText(v) == s
  {
    if s == "GET" then GET
    else if s == "POST" then POST
    else if s == "PUT" then PUT
    else if s == "PATCH" then PATCH
    else if s == "DELETE" then DELETE
    else OtherVerb(s)
  }

  /** A verb in interned form: `OtherVerb` never holds a known method's text. */
  predicate CanonicalVerb(v: Verb)
  {
    v.OtherVerb? ==> VerbOf(v.name).OtherVerb?
  }

  /** Interning a method and printing it back are inverse. */
  lemma VerbRoundTrip(v: Verb)
    requires CanonicalVerb(v)
    ensures VerbOf(VerbText(v)) == v
  {
  }

  /** A request path as a route key sees it. */
  datatype Target =
    | Collection(r: Resource)
    | IdTemplate(r: Resource)
    | RecommendationsTemplate
    | RecommendationsLiteral
    | StatsTemplate
    | StatsLiteral
    | Unregistered(path: string)

  function TargetText(t: Target): string
  {
    match t
    case Collection(r) => CollectionPath(r)
    case IdTemplate(r) => Prefix(r) + ":id/"
    case RecommendationsTemplate => "/books/:id/recommendations/"
    case RecommendationsLiteral => "/books/recommendations"
    case StatsTemplate => "/libraries/:library_id/stats"
    case StatsLiteral => "/libraries/stats"
    case Unregistered(p) => p
  }

  function TargetOf(p: string): (t: Target)
    ensures TargetText(t) == p
  {
    if p == "/books" then Collection(Books)
    else if p == "/authors" then Collection(Authors)
    else if p == "/libraries" then Collection(Libraries)
    else if p == "/library-books" then Collection(LibraryBooks)
    else if p == "/books/:id/" then IdTemplate(Books)
    else if p == "/authors/:id/" then IdTemplate(Authors)
    else if p == "/libraries/:id/" then IdTemplate(Libraries)
    else if p == "/library-books/:id/" then IdTemplate(LibraryBooks)
    else if p == "/books/:id/recommendations/" then RecommendationsTemplate
    else if p == "/books/recommendations" then RecommendationsLiteral
    else if p == "/libraries/:library_id/stats" then StatsTemplate
    else if p == "/libraries/stats" then StatsLiteral
    else Unregistered(p)
  }

  /** A target in interned form: `Unregistered` never holds a registered path. */
  predicate CanonicalTarget(t: Target)
  {
    t.Unregistered? ==> TargetOf(t.path).Unregistered?
  }

  /** Interning a path and printing it back are inverse. */
  lemma TargetRoundTrip(t: Target)
    requires CanonicalTarget(t)
    ensures TargetOf(TargetText(t)) == t
  {
    match t {
      case Collection(r) =>
        match r {
          case Books => assert TargetText(t) == "/books";
          case Authors => assert TargetText(t) == "/authors";
          case Libraries => assert TargetText(t) == "/libraries";
          case LibraryBooks => assert TargetText(t) == "/library-books";
        }
      case IdTemplate(r) =>
        match r {
          case Books => assert TargetText(t) == "/books/:id/";
          case Authors => assert TargetText(t) == "/authors/:id/";
          case Libraries => assert TargetText(t) == "/libraries/:id/";
          case LibraryBooks => assert TargetText(t) == "/library-books/:id/";
        }
      case _ =>
    }
  }

  datatype RouteKey = Route(verb: Verb, target: Target) | Default

  /** The property name used in the source's routes object. */
  function KeyText(k: RouteKey): string
  {
    match k
    case Route(v, t) => VerbText(v) + ":" + TargetText(t)
    case Default => "default"
  }

  /** The key the source builds as `${method}:${path}`. */
  function KeyOf(verb: string, path: string): (k: RouteKey)
    ensures k.Route? && KeyText(k) == verb + ":" + path
  {
    Route(VerbOf(verb), TargetOf(path))
  }

  /** `routes[key]` in the books module's exported object; `None` is `undefined`. */
  function BooksRoutes(k: RouteKey): Option<Handler>
  {
    match k
    case Route(GET, Collection(Books)) => Some(ListBooks)
    case Route(GET, IdTemplate(Books)) => Some(GetBook)
    case Route(GET, RecommendationsTemplate) => Some(RecommendForBook)
    case Route(GET, RecommendationsLiteral) => Some(RecommendByFilter)
    case Route(POST, Collection(Books)) => Some(CreateBook)
    case Route(POST, IdTemplate(Books)) => Some(CreateBookWithId)
    case Route(PUT, IdTemplate(Books)) => Some(ReplaceBook)
    case Route(PUT, Collection(Books)) => Some(CollectionNotAllowed)
    case Route(PATCH, IdTemplate(Books)) => Some(PatchBook)
    case Route(PATCH, Collection(Books)) => Some(CollectionNotAllowed)
    case Route(DELETE, IdTemplate(Books)) => Some(DeleteBook)
    case Route(DELETE, Collection(Books)) => Some(CollectionNotAllowed)
    case _ => None
  }

  function AuthorsRoutes(k: RouteKey): Option<Handler>
  {
    match k
    case Route(GET, Collection(Authors)) => Some(ListAuthors)
    case Route(GET, IdTemplate(Authors)) => Some(GetAuthor)
    case Route(POST, Collection(Authors)) => Some(CreateAuthor)
    case Route(POST, IdTemplate(Authors)) => Some(CreateAuthorWithId)
    case Route(PUT, IdTemplate(Authors)) => Some(ReplaceAuthor)
    case Route(PUT, Collection(Authors)) => Some(CollectionNotAllowed)
    case Route(PATCH, IdTemplate(Authors)) => Some(PatchAuthor)
    case Route(PATCH, Collection(Authors)) => Some(CollectionNotAllowed)
    case Route(DELETE, IdTemplate(Authors)) => Some(DeleteAuthor)
    case Route(DELETE, Collection(Authors)) => Some(CollectionNotAllowed)
    case _ => None
  }

  function LibrariesRoutes(k: RouteKey): Option<Handler>
  {
    match k
    case Route(GET, Collection(Libraries)) => Some(ListLibraries)
    case Route(GET, IdTemplate(Libraries)) => Some(GetLibrary)
    case Route(GET, StatsLiteral) => Some(AllLibraryStats)
    case Route(GET, StatsTemplate) => Some(LibraryStatsById)
    case Route(POST, Collection(Libraries)) => Some(CreateLibrary)
    case Route(POST, IdTemplate(Libraries)) => Some(CreateLibraryWithId)
    case Route(PUT, IdTemplate(Libraries)) => Some(ReplaceLibrary)
    case Route(PUT, Collection(Libraries)) => Some(CollectionNotAllowed)
    case Route(DELETE, IdTemplate(Libraries)) => Some(DeleteLibrary)
    case Route(DELETE, Collection(Libraries)) => Some(CollectionNotAllowed)
    case _ => None
  }

  function LibraryBooksRoutes(k: RouteKey): Option<Handler>
  {
    match k
    case Route(GET, IdTemplate(LibraryBooks)) => Some(GetEntry)
    case Route(GET, Collection(LibraryBooks)) => Some(ListEntries)
    case Route(POST, IdTemplate(LibraryBooks)) => Some(AddEntry)
    case Route(POST, Collection(LibraryBooks)) => Some(CollectionNotAllowed)
    case Route(PUT, IdTemplate(LibraryBooks)) => Some(ReplaceEntry)
    case Route(PUT, Collection(LibraryBooks)) => Some(CollectionNotAllowed)
    case Route(DELETE, IdTemplate(LibraryBooks)) => Some(DeleteEntry)
    case Route(DELETE, Collection(LibraryBooks)) => Some(CollectionNotAllowed)
    case _ => None
  }

  /** The object literal's own `default` property. */
  function DefaultRoute(k: RouteKey): Option<Handler>
  {
    if k == Default then Some(NotFound) else None
  }

  /** One property of `{...left, ...right}`: the later spread wins. */
  function Spread(left: Option<Handler>, right: Option<Handler>): (h: Option<Handler>)
    ensures right.Some? ==> h == right
    ensures right.None? ==> h == left
  {
    if right.Some? then right else left
  }

  /** `routes[key]` in `{...books, ...authors, ...libraries, ...libraryBooks, default}`. */
  function Routes(k: RouteKey): Option<Handler>
  {
    Spread(Spread(Spread(Spread(BooksRoutes(k), AuthorsRoutes(k)), LibrariesRoutes(k)),
                  LibraryBooksRoutes(k)), DefaultRoute(k))
  }

  /** The four resource tables and `default` define disjoint sets of keys, so
      the later-spread-wins rule never overrides a handler. */
  lemma TablesDisjoint(k: RouteKey)
    ensures (if BooksRoutes(k).Some? then 1 else 0) + (if AuthorsRoutes(k).Some? then 1 else 0)
          + (if LibrariesRoutes(k).Some? then 1 else 0) + (if LibraryBooksRoutes(k).Some? then 1 else 0)
          + (if DefaultRoute(k).Some? then 1 else 0) <= 1
  {
  }

  /** The merged table is the union of the four tables plus `default`: a key
      is present iff one of them defines it, and it maps to that handler. */
  lemma RoutesIsUnion(k: RouteKey)
    ensures Routes(k).Some? <==>
      BooksRoutes(k).Some? || AuthorsRoutes(k).Some? || LibrariesRoutes(k).Some?
      || LibraryBooksRoutes(k).Some? || k == Default
    ensures BooksRoutes(k).Some? ==> Routes(k) == BooksRoutes(k)
    ensures AuthorsRoutes(k).Some? ==> Routes(k) == AuthorsRoutes(k)
    ensures LibrariesRoutes(k).Some? ==> Routes(k) == LibrariesRoutes(k)
    ensures LibraryBooksRoutes(k).Some? ==> Routes(k) == LibraryBooksRoutes(k)
    ensures Routes(Default) == Some(NotFound)
  {
    TablesDisjoint(k);
  }

  /** `default` is the only property name without a colon, so a lookup with a
      `METHOD:path` key can never select it. */
  lemma OnlyDefaultLacksColon(k: RouteKey)
    ensures ':' in KeyText(k) <==> k.Route?
  {
    if k.Route? {
      assert KeyText(k)[|VerbText(k.verb)|] == ':';
    }
  }

  /** Only the `default` entry holds the not-found handler. */
  lemma NotFoundOnlyAtDefault(k: RouteKey)
    ensures Routes(k) == Some(NotFound) <==> k == Default
  {
  }

  /** In `verb + ":" + path` with a colon-free verb, the first colon follows the verb. */
  lemma ColonAfterVerb(verb: string, path: string)
    requires ':' !in verb
    ensures (verb + ":" + path)[|verb|] == ':'
    ensures forall i :: 0 <= i < |verb| ==> (verb + ":" + path)[i] != ':'
  {
    forall i | 0 <= i < |verb| ensures (verb + ":" + path)[i] != ':' {
      assert (verb + ":" + path)[i] == verb[i];
    }
  }

  /** Two keys built from colon-free methods (HTTP method tokens) have the same
      text only if they are built from the same method and path, so the
      interned table answers exactly the lookups the string-keyed object does. */
  lemma {:induction false} KeyOfInjective(m1: string, p1: string, m2: string, p2: string)
    requires ':' !in m1 && ':' !in m2
    requires KeyOf(m1, p1) == KeyOf(m2, p2)
    ensures m1 == m2 && p1 == p2
  {
    var t := m1 + ":" + p1;
    assert t == KeyText(KeyOf(m2, p2)) == m2 + ":" + p2;
    ColonAfterVerb(m1, p1);
    ColonAfterVerb(m2, p2);
    assert |m1| == |m2|;
    assert m1 == t[..|m1|] == m2;
    assert p1 == t[|m1| + 1..] == p2;
  }
}

=== FILE: seqs.dfy ===
/** Order-preserving selection on sequences: the shape shared by the
    validators' error lists, the active query filters and the PATCH updates. */
module Seqs {

  /** `a` is obtained from `b` by deleting elements, keeping the order of the rest. */
  predicate Subsequence<T(==)>(a: seq<T>, b: seq<T>)
    decreases |b|
  {
    if a == [] then true
    else if b == [] then false
    else if a[0] == b[0] then Subsequence(a[1..], b[1..])
    else Subsequence(a, b[1..])
  }

  /** Dropping the head of `b` keeps every subsequence of the tail a subsequence of `b`. */
  lemma {:induction false} SubsequenceOfTail<T>(a: seq<T>, b: seq<T>)
    requires |b| > 0
    requires Subsequence(a, b[1..])
    ensures Subsequence(a, b)
    decreases |b|, 0
  {
    if a != [] && a[0] == b[0] {
      SubsequenceDropHead(a, b[1..]);
    }
  }

  /** Removing the first element of a subsequence leaves a subsequence. */
  lemma {:induction false} SubsequenceDropHead<T>(a: seq<T>, c: seq<T>)
    requires a != []
    requires Subsequence(a, c)
    ensures Subsequence(a[1..], c)
    decreases |c|, 1
  {
    if a[0] == c[0] {
      if a[1..] != [] {
        SubsequenceOfTail(a[1..], c);
      }
    } else {
      SubsequenceDropHead(a, c[1..]);
      if a[1..] != [] {
        SubsequenceOfTail(a[1..], c);
      }
    }
  }

  /** Every element of a subsequence occurs in the original. */
  lemma {:induction false} SubsequenceMembers<T>(a: seq<T>, b: seq<T>, x: T)
    requires Subsequence(a, b)
    requires x in a
    ensures x in b
    decreases |b|
  {
    if a[0] == b[0] {
      if x != a[0] {
        SubsequenceMembers(a[1..], b[1..], x);
      }
    } else {
      SubsequenceMembers(a, b[1..], x);
    }
  }

  /** Position `k` of the middle part of a three-part concatenation. */
  lemma MiddleAt<T>(a: seq<T>, b: seq<T>, c: seq<T>, k: nat)
    requires k < |b|
    ensures |a| + k < |a + b + c| && (a + b + c)[|a| + k] == b[k]
  {
  }

  /** Position `k` of the second part of a four-part concatenation. */
  lemma SecondOfFourAt<T>(a: seq<T>, b: seq<T>, c: seq<T>, d: seq<T>, k: nat)
    requires k < |b|
    ensures |a| + k < |a + b + c + d| && (a + b + c + d)[|a| + k] == b[k]
  {
    assert (a + b + c + d)[|a| + k] == (a + b + c)[|a| + k] == (a + b)[|a| + k];
  }
}

=== FILE: server.dfy ===
/** The HTTP request callback end to end: route the request, run the handler
    the route table names against the database, and add the CORS header to
    every answer except the preflight, which carries its own. */
module Server {
  import opened Js
  import opened Paths
  import opened Store
  import opened Http
  import Router
  import Dispatcher
  import BooksApi
  import AuthorsApi
  import LibrariesApi
  import LibraryBooksApi

  /** The handlers that issue INSERT, UPDATE or DELETE statements. */
  predicate Writes(h: Router.Handler)
  {
    h.CreateBook? || h.CreateBookWithId? || h.ReplaceBook? || h.PatchBook? || h.DeleteBook?
    || h.CreateAuthor? || h.CreateAuthorWithId? || h.ReplaceAuthor? || h.PatchAuthor? || h.DeleteAuthor?
    || h.CreateLibrary? || h.CreateLibraryWithId? || h.ReplaceLibrary? || h.DeleteLibrary?
    || h.AddEntry? || h.ReplaceEntry? || h.DeleteEntry?
  }

  /** The handlers that parse a JSON request body. */
  predicate ReadsBody(h: Router.Handler)
  {
    h.CreateBook? || h.CreateBookWithId? || h.ReplaceBook? || h.PatchBook?
    || h.CreateAuthor? || h.CreateAuthorWithId? || h.ReplaceAuthor? || h.PatchAuthor?
    || h.CreateLibrary? || h.CreateLibraryWithId? || h.ReplaceLibrary?
    || h.AddEntry? || h.ReplaceEntry?
  }

  /** A status a handler answers with only after its write went through. */
  predicate Success(status: nat)
  {
    status == 200 || status == 201 || status == 204
  }

  /** Calling the handler a route names with the captured id, the parsed
      query string and the parsed body.  Read handlers leave the database as
      it was; a write reaches the database only on a success status, and
      keeps every table's ids below its counter and every (library, book)
      pair unique. */
  function Run(h: Router.Handler, s: Store, db: Db, id: Option<string>,
               query: map<string, string>, body: Body): (o: Outcome)
    ensures !Writes(h) ==> o.store == s
    ensures o.store != s ==> Success(o.response.status)
    ensures ValidStore(s) ==> ValidStore(o.store)
    ensures EntriesUnique(s.entries) ==> EntriesUnique(o.store.entries)
  {
    match h
    case ListBooks => Outcome(s, BooksApi.ListBooks(s, db, query))
    case GetBook => Outcome(s, BooksApi.GetBook(s, db, id))
    case RecommendForBook => Outcome(s, BooksApi.RecommendForBook(s, db, id, query))
    case RecommendByFilter => Outcome(s, BooksApi.RecommendByFilter(db, query))
    case CreateBook => BooksApi.CreateBook(s, db, body)
    case CreateBookWithId => BooksApi.CreateBookWithId(s, db, id, body)
    case ReplaceBook => BooksApi.ReplaceBook(s, db, id, body)
    case PatchBook => BooksApi.PatchBook(s, db, id, body)
    case DeleteBook => BooksApi.DeleteBook(s, db, id)
    case ListAuthors => Outcome(s, AuthorsApi.ListAuthors(s, db, query))
    case GetAuthor => Outcome(s, AuthorsApi.GetAuthor(s, db, id))
    case CreateAuthor => AuthorsApi.CreateAuthor(s, db, body)
    case CreateAuthorWithId => AuthorsApi.CreateAuthorWithId(s, db, id, body)
    case ReplaceAuthor => AuthorsApi.ReplaceAuthor(s, db, id, body)
    case PatchAuthor => AuthorsApi.PatchAuthor(s, db, id, body)
    case DeleteAuthor => AuthorsApi.DeleteAuthor(s, db, id)
    case ListLibraries => Outcome(s, LibrariesApi.ListLibraries(s, db, query))
    case GetLibrary => Outcome(s, LibrariesApi.GetLibrary(s, db, id))
    case AllLibraryStats => Outcome(s, LibrariesApi.AllLibraryStats(s, db))
    case LibraryStatsById => Outcome(s, LibrariesApi.LibraryStatsById(s, db, id))
    case CreateLibrary => LibrariesApi.CreateLibrary(s, db, body)
    case CreateLibraryWithId => LibrariesApi.CreateLibraryWithId(s, db, id, body)
    case ReplaceLibrary => LibrariesApi.ReplaceLibrary(s, db, id, body)
    case DeleteLibrary => LibrariesApi.DeleteLibrary(s, db, id)
    case GetEntry => Outcome(s, LibraryBooksApi.GetEntry(s, db, id))
    case ListEntries => Outcome(s, LibraryBooksApi.ListEntries(db, query))
    case AddEntry => LibraryBooksApi.AddEntry(s, db, id, body)
    case ReplaceEntry => LibraryBooksApi.ReplaceEntry(s, db, id, body)
    case DeleteEntry => LibraryBooksApi.DeleteEntry(s, db, id)
    case CollectionNotAllowed => Outcome(s, Http.CollectionNotAllowed)
    case NotFound => Outcome(s, EndpointNotFound)
  }

  /** One request: `OPTIONS` is answered with the preflight and touches
      nothing; any other method gets the routed handler's outcome with
      `Access-Control-Allow-Origin: *` added to its headers. */
  function Serve(s: Store, db: Db, verb: string, rawPath: string,
                 query: map<string, string>, body: Body): (o: Outcome)
    ensures Upper(verb) == "OPTIONS" ==> o == Outcome(s, Preflight)
    ensures Upper(verb) != "OPTIONS" ==>
      "Access-Control-Allow-Origin" in o.response.headers && o.response.headers["Access-Control-Allow-Origin"] == "*"
    ensures o.store != s ==> Success(o.response.status)
    ensures ValidStore(s) ==> ValidStore(o.store)
    ensures EntriesUnique(s.entries) ==> EntriesUnique(o.store.entries)
  {
    match Dispatcher.Dispatch(verb, rawPath)
    case Preflight => Outcome(s, Preflight)
    case Invoke(h, id) =>
      var o := Run(h, s, db, id, query, body);
      Outcome(o.store, WithCors(o.response))
  }

  // ----- Properties -----

  /** A non-preflight request is answered by the routed handler's outcome,
      with the CORS header added. */
  lemma Invoked(s: Store, db: Db, verb: string, rawPath: string, query: map<string, string>, body: Body)
    requires Dispatcher.Dispatch(verb, rawPath).Invoke?
    ensures var d := Dispatcher.Dispatch(verb, rawPath);
      var o := Run(d.handler, s, db, d.id, query, body);
      Serve(s, db, verb, rawPath, query, body) == Outcome(o.store, WithCors(o.response))
  {
  }

  /** The answer to a collection-wide PUT, PATCH or DELETE ignores the store. */
  lemma RunCollectionNotAllowed(s: Store, db: Db, id: Option<string>, query: map<string, string>, body: Body)
    ensures Run(Router.CollectionNotAllowed, s, db, id, query, body) == Outcome(s, Http.CollectionNotAllowed)
  {
  }

  /** `default` answers 404 and ignores the store. */
  lemma RunNotFound(s: Store, db: Db, id: Option<string>, query: map<string, string>, body: Body)
    ensures Run(Router.NotFound, s, db, id, query, body) == Outcome(s, EndpointNotFound)
  {
  }

  lemma DeleteBookRoute(verb: string, d: string)
    requires Upper(verb) == "DELETE" && IsDigits(d)
    ensures Dispatcher.Dispatch(verb, Prefix(Books) + d) == Dispatcher.Invoke(Router.DeleteBook, Some(d))
  {
    assert Router.VerbOf(Upper(verb)) == Router.DELETE;
    Dispatcher.IdPathDispatch(verb, Books, d);
  }

  lemma RunDeleteBook(s: Store, db: Db, id: Option<string>, query: map<string, string>, body: Body)
    ensures Run(Router.DeleteBook, s, db, id, query, body) == BooksApi.DeleteBook(s, db, id)
  {
  }


  /** `<method> /books/<digits>` (and likewise for the other resources) runs
      the `:id` handler the resource registers for the method, with the
      digits as its id, and adds the CORS header to its answer. */
  lemma IdPathServed(s: Store, db: Db, verb: string, r: Resource, d: string,
                     query: map<string, string>, body: Body)
    requires IsDigits(d)
    requires Upper(verb) != "OPTIONS"
    requires Dispatcher.ResourceRoutes(r)(Router.Route(Router.VerbOf(Upper(verb)), Router.IdTemplate(r))).Some?
    ensures var h := Dispatcher.ResourceRoutes(r)(Router.Route(Router.VerbOf(Upper(verb)), Router.IdTemplate(r))).value;
      var o := Run(h, s, db, Some(d), query, body);
      Serve(s, db, verb, Prefix(r) + d, query, body) == Outcome(o.store, WithCors(o.response))
  {
    Dispatcher.IdPathDispatch(verb, r, d);
  }

  /** A PUT, PATCH, DELETE (or, for `/library-books`, POST) on a whole
      collection is refused with 405 whatever the body, and changes nothing. */
  lemma CollectionRefused(s: Store, db: Db, verb: string, v: Router.Verb, r: Resource,
                          query: map<string, string>, body: Body)
    requires Upper(verb) == Router.VerbText(v) && !v.OtherVerb?
    requires Dispatcher.ResourceRoutes(r)(Router.Route(v, Router.Collection(r))) == Some(Router.CollectionNotAllowed)
    ensures Serve(s, db, verb, CollectionPath(r), query, body) == Outcome(s, WithCors(Http.CollectionNotAllowed))
  {
    var path := CollectionPath(r);
    Router.TargetRoundTrip(Router.Collection(r));
    Router.VerbRoundTrip(v);
    Router.RoutesIsUnion(Router.Route(v, Router.Collection(r)));
    CollectionPathFacts(r);
    Dispatcher.Uncaptured(verb, path, Upper(verb), path);
    Invoked(s, db, verb, path, query, body);
    RunCollectionNotAllowed(s, db, None, query, body);
  }

  /** Deleting a book twice over HTTP answers 200 and then 404, and the first
      request removes exactly that row. */
  lemma DeleteBookTwiceServed(s: Store, verb: string, d: string, query: map<string, string>, body: Body)
    requires Upper(verb) == "DELETE"
    requires IsDigits(d) && DigitsValue(d) in s.books.rows
    ensures var db := Db(Healthy, false);
      var first := Serve(s, db, verb, Prefix(Books) + d, query, body);
      first.response.status == 200
      && first.store.books.rows == s.books.rows - {DigitsValue(d)}
      && Serve(first.store, db, verb, Prefix(Books) + d, query, body).response
         == WithCors(Send(404, Error(BooksApi.BookNotFound)))
  {
    var db := Db(Healthy, false);
    DeleteBookRoute(verb, d);
    Invoked(s, db, verb, Prefix(Books) + d, query, body);
    RunDeleteBook(s, db, Some(d), query, body);
    BooksApi.DeleteBookTwice(s, Some(d));
    var first := BooksApi.DeleteBook(s, db, Some(d));
    Invoked(first.store, db, verb, Prefix(Books) + d, query, body);
    RunDeleteBook(first.store, db, Some(d), query, body);
  }

  /** A request whose path no expression captures for a registered key, and
      whose literal key is not registered, is answered by `default`: 404
      `Endpoint not found`, nothing changed. */
  lemma UnroutedNotFound(s: Store, db: Db, verb: string, rawPath: string,
                         query: map<string, string>, body: Body)
    requires Upper(verb) != "OPTIONS"
    requires var c := Classify(Normalize(rawPath));
      c.None? || Router.Routes(Dispatcher.CaptureKey(c.value.shape, Upper(verb))).None?
    requires Router.Routes(Router.KeyOf(Upper(verb), Normalize(rawPath))).None?
    ensures Serve(s, db, verb, rawPath, query, body) == Outcome(s, WithCors(EndpointNotFound))
  {
    Dispatcher.Uncaptured(verb, rawPath, Upper(verb), Normalize(rawPath));
    Invoked(s, db, verb, rawPath, query, body);
    RunNotFound(s, db, None, query, body);
  }

  /** Only the registered keys of POST, PUT, PATCH and DELETE name writing
      handlers. */
  lemma WritingRoutes(k: Router.RouteKey)
    ensures Router.Routes(k).Some? && Writes(Router.Routes(k).value) ==>
      k.Route? && k.verb in {Router.POST, Router.PUT, Router.PATCH, Router.DELETE}
  {
    Router.RoutesIsUnion(k);
  }

  /** A request with any other method (GET, HEAD, OPTIONS, ...) never changes
      the database, whatever its path. */
  lemma ReadMethodsKeepStore(s: Store, db: Db, verb: string, rawPath: string,
                             query: map<string, string>, body: Body)
    requires Upper(verb) !in {"POST", "PUT", "PATCH", "DELETE"}
    ensures Serve(s, db, verb, rawPath, query, body).store == s
  {
    var m := Upper(verb);
    if m != "OPTIONS" {
      var path := Normalize(rawPath);
      var c := Classify(path);
      var v := Router.VerbOf(m);
      assert v !in {Router.POST, Router.PUT, Router.PATCH, Router.DELETE} by {
        assert Router.VerbText(v) == m;
      }
      if c.Some? {
        WritingRoutes(Dispatcher.CaptureKey(c.value.shape, m));
      }
      WritingRoutes(Router.KeyOf(m, path));
      WritingRoutes(Router.Default);
    }
  }

  /** Every handler that parses a body answers a malformed one with 400
      `Invalid JSON in request body` before any statement, and changes
      nothing. */
  lemma MalformedBody(h: Router.Handler, s: Store, db: Db, id: Option<string>, query: map<string, string>)
    requires ReadsBody(h)
    ensures Run(h, s, db, id, query, Malformed) == Outcome(s, BadJson)
  {
    if h.CreateBook? || h.CreateBookWithId? || h.ReplaceBook? || h.PatchBook? {
      MalformedBookBody(h, s, db, id, query);
    } else if h.CreateAuthor? || h.CreateAuthorWithId? || h.ReplaceAuthor? || h.PatchAuthor? {
      MalformedAuthorBody(h, s, db, id, query);
    } else if h.CreateLibrary? || h.CreateLibraryWithId? || h.ReplaceLibrary? {
      MalformedLibraryBody(h, s, db, id, query);
    } else {
      MalformedEntryBody(h, s, db, id, query);
    }
  }

  lemma MalformedBookBody(h: Router.Handler, s: Store, db: Db, id: Option<string>, query: map<string, string>)
    requires h.CreateBook? || h.CreateBookWithId? || h.ReplaceBook? || h.PatchBook?
    ensures Run(h, s, db, id, query, Malformed) == Outcome(s, BadJson)
  {
  }

  lemma MalformedAuthorBody(h: Router.Handler, s: Store, db: Db, id: Option<string>, query: map<string, string>)
    requires h.CreateAuthor? || h.CreateAuthorWithId? || h.ReplaceAuthor? || h.PatchAuthor?
    ensures Run(h, s, db, id, query, Malformed) == Outcome(s, BadJson)
  {
  }

  lemma MalformedLibraryBody(h: Router.Handler, s: Store, db: Db, id: Option<string>, query: map<string, string>)
    requires h.CreateLibrary? || h.CreateLibraryWithId? || h.ReplaceLibrary?
    ensures Run(h, s, db, id, query, Malformed) == Outcome(s, BadJson)
  {
  }

  lemma MalformedEntryBody(h: Router.Handler, s: Store, db: Db, id: Option<string>, query: map<string, string>)
    requires h.AddEntry? || h.ReplaceEntry?
    ensures Run(h, s, db, id, query, Malformed) == Outcome(s, BadJson)
  {
  }

  /** Every other handler ignores the body. */
  lemma BodyIgnored(h: Router.Handler, s: Store, db: Db, id: Option<string>, query: map<string, string>,
                    body: Body)
    requires !ReadsBody(h)
    ensures Run(h, s, db, id, query, body) == Run(h, s, db, id, query, Malformed)
  {
  }
}

=== FILE: sql.dfy ===
/** The SQL statements the handlers build, as token sequences.  Constant SQL
    text is `Text`, a `?` placeholder is `Param`, a `mysql.escapeId` result is
    `Ident`, and a number interpolated into the text is `Number` (`None` is
    `NaN`).  Client values reach a statement only as bound parameters, as an
    escaped identifier, or as a parsed integer. */
module Sql {
  import opened Js
  import opened Seqs

  datatype Token = Text(s: string) | Param | Ident(name: string) | Number(n: Option<int>)

  /** A bound parameter: a JavaScript value, or `NaN` from a failed `parseInt`. */
  datatype Arg = Arg(v: Value) | NotANumber

  datatype Query = Query(tokens: seq<Token>, params: seq<Arg>)

  /** The number of `?` placeholders. */
  function Placeholders(ts: seq<Token>): nat
  {
    multiset(ts)[Param]
  }

  /** Every placeholder has exactly one bound parameter. */
  predicate WellFormed(q: Query)
  {
    Placeholders(q.tokens) == |q.params|
  }

  /** `column = ?` or `column LIKE ?`; `f = ?` in a SET clause. */
  function Clause(text: string): seq<Token>
  {
    [Text(text), Param]
  }

  /** `parts.join(separator)` for clauses. */
  function Join(texts: seq<string>, separator: string): seq<Token>
  {
    if texts == [] then []
    else if |texts| == 1 then Clause(texts[0])
    else Clause(texts[0]) + [Text(separator)] + Join(texts[1..], separator)
  }

  /** A joined list of clauses has one placeholder per clause. */
  lemma {:induction false} JoinPlaceholders(texts: seq<string>, separator: string)
    ensures Placeholders(Join(texts, separator)) == |texts|
  {
    if |texts| > 1 {
      JoinPlaceholders(texts[1..], separator);
    }
  }

  datatype MatchMode = Exact | Substring

  /** A query-string filter: when `key` is given, the condition on `column`. */
  datatype Filter = Filter(key: string, column: string, mode: MatchMode)

  const BookFilters := [Filter("genre", "genre", Exact), Filter("author", "author", Substring),
                        Filter("year", "published_year", Exact)]
  const AuthorFilters := [Filter("country", "country", Exact), Filter("name", "name", Substring)]
  const LibraryFilters := [Filter("name", "name", Substring), Filter("location", "location", Substring)]
  const EntryFilters := [Filter("library_id", "library_id", Exact), Filter("book_id", "book_id", Exact),
                         Filter("author_id", "author_id", Exact)]
  /** The by-filter recommendation endpoint's two optional filters. */
  const RecommendationFilters := [Filter("genre", "genre", Exact), Filter("author", "author", Substring)]

  /** The filters whose query value is truthy, in declaration order. */
  function ActiveFilters(fs: seq<Filter>, query: map<string, string>): (r: seq<Filter>)
    ensures Subsequence(r, fs)
    ensures forall f :: f in r <==> f in fs && Given(query, f.key)
  {
    if fs == [] then []
    else
      var rest := ActiveFilters(fs[1..], query);
      if Given(query, fs[0].key) then
        assert fs[1..] == fs[1..];
        [fs[0]] + rest
      else
        SubsequenceOfTail(rest, fs);
        rest
  }

  function ConditionText(f: Filter): string
  {
    f.column + (if f.mode == Exact then " = " else " LIKE ")
  }

  /** The value bound for a filter: `%v%` for a substring match. */
  function Binding(f: Filter, value: string): Arg
  {
    Arg(Str(if f.mode == Substring then "%" + value + "%" else value))
  }

  function ConditionTexts(active: seq<Filter>): (r: seq<string>)
    ensures |r| == |active|
    ensures forall i :: 0 <= i < |active| ==> r[i] == ConditionText(active[i])
  {
    if active == [] then [] else [ConditionText(active[0])] + ConditionTexts(active[1..])
  }

  function Bindings(active: seq<Filter>, query: map<string, string>): (r: seq<Arg>)
    requires forall i :: 0 <= i < |active| ==> active[i].key in query
    ensures |r| == |active|
    ensures forall i :: 0 <= i < |active| ==> r[i] == Binding(active[i], query[active[i].key])
  {
    if active == [] then []
    else [Binding(active[0], query[active[0].key])] + Bindings(active[1..], query)
  }

  /** `' WHERE ' + conditions.join(' AND ')`, only when some condition exists. */
  function Where(active: seq<Filter>): (r: seq<Token>)
    ensures r == [] <==> active == []
    ensures r != [] ==> r[0] == Text(" WHERE ")
  {
    if active == [] then [] else [Text(" WHERE ")] + Join(ConditionTexts(active), " AND ")
  }

  lemma WherePlaceholders(active: seq<Filter>)
    ensures Placeholders(Where(active)) == |active|
  {
    if active != [] {
      JoinPlaceholders(ConditionTexts(active), " AND ");
    }
  }

  /** `query.order?.toUpperCase() === 'DESC'`. */
  predicate Descending(query: map<string, string>)
  {
    "order" in query && Upper(query["order"]) == "DESC"
  }

  function OrderBy(query: map<string, string>): (r: seq<Token>)
    ensures Placeholders(r) == 0
  {
    if Given(query, "sort") then
      [Text(" ORDER BY "), Ident(query["sort"]), Text(if Descending(query) then " DESC" else " ASC")]
    else
      [Text(" ORDER BY id ASC")]
  }

  /** `query[key] ? parseInt(query[key]) : fallback`; `None` is `NaN`. */
  function NumberParam(query: map<string, string>, key: string, fallback: int): (n: Option<int>)
    ensures !Given(query, key) ==> n == Some(fallback)
    ensures Given(query, key) ==> n == ParseInt(query[key])
  {
    if Given(query, key) then ParseInt(query[key]) else Some(fallback)
  }

  function Limit(query: map<string, string>): Option<int> { NumberParam(query, "limit", 10) }
  function Page(query: map<string, string>): Option<int> { NumberParam(query, "page", 1) }

  /** `(page - 1) * limit`, with `NaN` propagating and no clamping. */
  function Offset(page: Option<int>, limit: Option<int>): (r: Option<int>)
    ensures r.Some? <==> page.Some? && limit.Some?
    ensures r.Some? ==> r.value == (page.value - 1) * limit.value
  {
    if page.Some? && limit.Some? then Some((page.value - 1) * limit.value) else None
  }

  /** The `LIMIT ${limit}` of both recommendation statements: 5 unless a
      `limit` is given. */
  function RecommendLimit(query: map<string, string>): Option<int> { NumberParam(query, "limit", 5) }

  /** MySQL takes only a non-negative integer after `LIMIT` or `OFFSET`: a
      `NaN` or a negative value makes the statement fail to parse. */
  predicate Refused(n: Option<int>)
  {
    n.None? || n.value < 0
  }

  /** The paging of a list statement is one MySQL refuses. */
  predicate PagingRefused(query: map<string, string>)
  {
    Refused(Limit(query)) || Refused(Offset(Page(query), Limit(query)))
  }

  function NumberArg(n: Option<int>): Arg
  {
    if n.Some? then Arg(Num(n.value)) else NotANumber
  }

  const LimitOffset := [Text(" LIMIT "), Param, Text(" OFFSET "), Param]

  /** The paginated list statement of `GET /books`, `/authors` and `/libraries`. */
  function ListQuery(table: string, filters: seq<Filter>, query: map<string, string>): Query
  {
    var active := ActiveFilters(filters, query);
    Query(ListTokens(table, active, query),
          Bindings(active, query) + [NumberArg(Limit(query)), NumberArg(Offset(Page(query), Limit(query)))])
  }

  /** The text of a list statement: selection, conditions, order, paging. */
  function ListTokens(table: string, active: seq<Filter>, query: map<string, string>): seq<Token>
  {
    [Text("SELECT * FROM " + table)] + Where(active) + OrderBy(query) + LimitOffset
  }

  /** The list statement has exactly as many placeholders as parameters. */
  lemma ListQueryWellFormed(table: string, filters: seq<Filter>, query: map<string, string>)
    ensures WellFormed(ListQuery(table, filters, query))
  {
    var active := ActiveFilters(filters, query);
    var select := [Text("SELECT * FROM " + table)];
    WherePlaceholders(active);
    assert Placeholders(select) == 0;
    assert Placeholders(LimitOffset) == 2;
    assert multiset(select + Where(active) + OrderBy(query) + LimitOffset)
        == multiset(select) + multiset(Where(active)) + multiset(OrderBy(query)) + multiset(LimitOffset);
  }

  /** The unpaginated filter statement of `GET /library-books`. */
  function FilterQuery(table: string, filters: seq<Filter>, query: map<string, string>): (q: Query)
    ensures WellFormed(q)
  {
    var active := ActiveFilters(filters, query);
    WherePlaceholders(active);
    Query([Text("SELECT * FROM " + table)] + Where(active), Bindings(active, query))
  }

  lemma {:induction false} JoinLength(texts: seq<string>, separator: string)
    requires texts != []
    ensures |Join(texts, separator)| == 3 * |texts| - 1
  {
    if |texts| > 1 {
      JoinLength(texts[1..], separator);
    }
  }

  /** In `parts.join(separator)`, clause `i` occupies positions `3i` (its
      text) and `3i + 1` (its placeholder). */
  lemma {:induction false} JoinAt(texts: seq<string>, separator: string, i: nat)
    requires i < |texts|
    ensures 3 * i + 1 < |Join(texts, separator)|
    ensures Join(texts, separator)[3 * i] == Text(texts[i])
    ensures Join(texts, separator)[3 * i + 1] == Param
  {
    JoinLength(texts, separator);
    if i > 0 {
      var rest := Join(texts[1..], separator);
      JoinAt(texts[1..], separator, i - 1);
      var head := Clause(texts[0]) + [Text(separator)];
      assert Join(texts, separator) == head + rest;
      assert |head| == 3;
      assert (head + rest)[3 * i] == rest[3 * (i - 1)];
      assert (head + rest)[3 * i + 1] == rest[3 * (i - 1) + 1];
    }
  }

  /** In a list statement, condition `i` of the WHERE clause is the `i`-th
      active filter's, followed by its placeholder. */
  lemma {:induction false} ListConditionsAlign(table: string, filters: seq<Filter>, query: map<string, string>, i: nat)
    requires i < |ActiveFilters(filters, query)|
    ensures var active := ActiveFilters(filters, query);
      var q := ListQuery(table, filters, query);
      3 + 3 * i < |q.tokens|
      && q.tokens[2 + 3 * i] == Text(ConditionText(active[i]))
      && q.tokens[3 + 3 * i] == Param
  {
    ListTokensAt(table, ActiveFilters(filters, query), query, i);
  }

  /** With no filter given the unpaginated filter statement selects the
      whole table and binds nothing. */
  lemma FilterQueryUnfiltered(table: string, filters: seq<Filter>, query: map<string, string>)
    requires ActiveFilters(filters, query) == []
    ensures FilterQuery(table, filters, query) == Query([Text("SELECT * FROM " + table)], [])
  {
    var select := [Text("SELECT * FROM " + table)];
    assert select + Where([]) == select;
  }

  /** Condition `i` of the unpaginated filter statement follows the `i`-th
      given filter, and so does its parameter. */
  lemma FilterQueryAt(table: string, filters: seq<Filter>, query: map<string, string>, i: nat)
    requires i < |ActiveFilters(filters, query)|
    ensures var active := ActiveFilters(filters, query);
      var q := FilterQuery(table, filters, query);
      3 + 3 * i < |q.tokens| && i < |q.params| && active[i].key in query
      && q.tokens[2 + 3 * i] == Text(ConditionText(active[i]))
      && q.tokens[3 + 3 * i] == Param
      && q.params[i] == Binding(active[i], query[active[i].key])
  {
    var active := ActiveFilters(filters, query);
    assert active[i] in active;
    FilterTokensAt(table, active, i);
  }

  lemma FilterTokensAt(table: string, active: seq<Filter>, i: nat)
    requires i < |active|
    ensures var tokens := [Text("SELECT * FROM " + table)] + Where(active);
      3 + 3 * i < |tokens| && tokens[2 + 3 * i] == Text(ConditionText(active[i])) && tokens[3 + 3 * i] == Param
  {
    WhereAt(active, i);
  }

  lemma ListTokensAt(table: string, active: seq<Filter>, query: map<string, string>, i: nat)
    requires i < |active|
    ensures 3 + 3 * i < |ListTokens(table, active, query)|
    ensures ListTokens(table, active, query)[2 + 3 * i] == Text(ConditionText(active[i]))
    ensures ListTokens(table, active, query)[3 + 3 * i] == Param
  {
    var select := [Text("SELECT * FROM " + table)];
    WhereAt(active, i);
    SecondOfFourAt(select, Where(active), OrderBy(query), LimitOffset, 1 + 3 * i);
    SecondOfFourAt(select, Where(active), OrderBy(query), LimitOffset, 2 + 3 * i);
  }

  /** The `i`-th parameter of a list statement is the `i`-th active filter's
      value, so conditions and parameters are pushed in the same order. */
  lemma ListParamsAlign(table: string, filters: seq<Filter>, query: map<string, string>, i: nat)
    requires i < |ActiveFilters(filters, query)|
    ensures var active := ActiveFilters(filters, query);
      var q := ListQuery(table, filters, query);
      i < |q.params| && active[i].key in query
      && q.params[i] == Binding(active[i], query[active[i].key])
  {
    var active := ActiveFilters(filters, query);
    assert active[i] in active;
  }

  /** Condition `i` of the WHERE clause sits at positions `1 + 3i` and `2 + 3i`. */
  lemma WhereAt(active: seq<Filter>, i: nat)
    requires i < |active|
    ensures 2 + 3 * i < |Where(active)|
    ensures Where(active)[1 + 3 * i] == Text(ConditionText(active[i]))
    ensures Where(active)[2 + 3 * i] == Param
  {
    var texts := ConditionTexts(active);
    JoinAt(texts, " AND ", i);
    var j := Join(texts, " AND ");
    assert Where(active) == [Text(" WHERE ")] + j;
    assert ([Text(" WHERE ")] + j)[1 + 3 * i] == j[3 * i];
    assert ([Text(" WHERE ")] + j)[2 + 3 * i] == j[3 * i + 1];
  }

  /** The statement's text depends on which filters are given and on the sort
      parameters, never on the filter values themselves. */
  lemma ListTokensIgnoreFilterValues(table: string, filters: seq<Filter>,
                                     q1: map<string, string>, q2: map<string, string>)
    requires forall f :: f in filters ==> (Given(q1, f.key) <==> Given(q2, f.key))
    requires Given(q1, "sort") <==> Given(q2, "sort")
    requires Given(q1, "sort") ==> q1["sort"] == q2["sort"] && (Descending(q1) <==> Descending(q2))
    ensures ListQuery(table, filters, q1).tokens == ListQuery(table, filters, q2).tokens
  {
    SameActiveFilters(filters, q1, q2);
  }

  lemma {:induction false} SameActiveFilters(fs: seq<Filter>, q1: map<string, string>, q2: map<string, string>)
    requires forall f :: f in fs ==> (Given(q1, f.key) <==> Given(q2, f.key))
    ensures ActiveFilters(fs, q1) == ActiveFilters(fs, q2)
  {
    if fs != [] {
      assert fs[0] in fs;
      SameActiveFilters(fs[1..], q1, q2);
    }
  }

  /** `WHERE` appears iff at least one filter value is given. */
  lemma WhereIffFilterGiven(table: string, filters: seq<Filter>, query: map<string, string>)
    ensures ListQuery(table, filters, query).tokens[1] == Text(" WHERE ")
            <==> exists f :: f in filters && Given(query, f.key)
  {
    var active := ActiveFilters(filters, query);
    if active != [] {
      assert active[0] in active;
    }
  }

  /** Without `sort` the statement orders by id ascending; with it, by the
      escaped identifier, descending exactly when `order` is some letter-case
      spelling of "desc" (there is no whitelist of columns). */
  lemma SortDirection(query: map<string, string>)
    ensures !Given(query, "sort") ==> OrderBy(query) == [Text(" ORDER BY id ASC")]
    ensures Given(query, "sort") ==> OrderBy(query)[1] == Ident(query["sort"])
    ensures Given(query, "sort") ==>
      (OrderBy(query)[2] == Text(" DESC") <==>
        "order" in query && |query["order"]| == 4 && query["order"][0] in "dD" && query["order"][1] in "eE"
        && query["order"][2] in "sS" && query["order"][3] in "cC")
  {
    if "order" in query {
      UpperIsDesc(query["order"]);
    }
  }

  /** Absent or empty `limit` and `page` mean 10 and 1, so the first page
      starts at offset 0; a given page is not clamped, so page 0 starts one
      page before the first row. */
  lemma PagingDefaults(query: map<string, string>)
    ensures !Given(query, "limit") && !Given(query, "page") ==>
      Limit(query) == Some(10) && Offset(Page(query), Limit(query)) == Some(0)
    ensures !Given(query, "limit") && Given(query, "page") && Page(query).Some? ==>
      Offset(Page(query), Limit(query)) == Some(10 * Page(query).value - 10)
  {
  }

  /** A route id as a bound parameter: the captured digits, or NULL when the
      handler was reached without an id (`undefined` binds as NULL). */
  function IdArg(id: Option<string>): (a: Arg)
    ensures id.None? <==> a == Arg(Null)
  {
    if id.Some? then Arg(Str(id.value)) else Arg(Null)
  }

  /** The same-genre / same-author statement of `GET /books/:id/recommendations`,
      built once the source book's `genre` and `author` are known; the limit
      (default 5) is interpolated as a number. */
  function RecommendByIdQuery(id: Option<string>, useGenre: bool, useAuthor: bool,
                              genre: Value, author: Value, query: map<string, string>): Query
  {
    var extra :=
      if useGenre && useAuthor then
        ([Text(" AND genre = "), Param, Text(" AND author = "), Param], [Arg(genre), Arg(author)])
      else if useGenre then ([Text(" AND genre = "), Param], [Arg(genre)])
      else if useAuthor then ([Text(" AND author = "), Param], [Arg(author)])
      else ([], []);
    Query([Text("SELECT * FROM books WHERE id != "), Param] + extra.0
            + [Text(" LIMIT "), Number(RecommendLimit(query))],
          [IdArg(id)] + extra.1)
  }

  /** The statement excludes the source book itself, compares exactly the
      enabled attributes with the source book's values, and ends with the
      limit. */
  lemma RecommendByIdShape(id: Option<string>, useGenre: bool, useAuthor: bool,
                           genre: Value, author: Value, query: map<string, string>)
    ensures var q := RecommendByIdQuery(id, useGenre, useAuthor, genre, author, query);
      |q.params| == 1 + (if useGenre then 1 else 0) + (if useAuthor then 1 else 0)
      && q.params[0] == IdArg(id)
      && (Text(" AND genre = ") in q.tokens <==> useGenre)
      && (Text(" AND author = ") in q.tokens <==> useAuthor)
      && (useGenre ==> Arg(genre) in q.params)
      && (useAuthor ==> Arg(author) in q.params)
      && q.tokens[|q.tokens| - 1] == Number(RecommendLimit(query))
  {
    var q := RecommendByIdQuery(id, useGenre, useAuthor, genre, author, query);
    var select, limit := Text("SELECT * FROM books WHERE id != "), Text(" LIMIT ");
    var byGenre, byAuthor := Text(" AND genre = "), Text(" AND author = ");
    var n := Number(RecommendLimit(query));
    if useGenre && useAuthor {
      assert q.tokens == [select, Param, byGenre, Param, byAuthor, Param, limit, n];
    } else if useGenre {
      assert q.tokens == [select, Param, byGenre, Param, limit, n];
    } else if useAuthor {
      assert q.tokens == [select, Param, byAuthor, Param, limit, n];
    } else {
      assert q.tokens == [select, Param, limit, n];
    }
  }

  /** Every placeholder of the statement has its argument. */
  lemma RecommendByIdWellFormed(id: Option<string>, useGenre: bool, useAuthor: bool,
                                genre: Value, author: Value, query: map<string, string>)
    ensures WellFormed(RecommendByIdQuery(id, useGenre, useAuthor, genre, author, query))
  {
    var q := RecommendByIdQuery(id, useGenre, useAuthor, genre, author, query);
    var head := [Text("SELECT * FROM books WHERE id != "), Param];
    var tail := [Text(" LIMIT "), Number(RecommendLimit(query))];
    var mid := q.tokens[2..|q.tokens| - 2];
    assert q.tokens == head + mid + tail;
    assert multiset(q.tokens) == multiset(head) + multiset(mid) + multiset(tail);
  }

  /** The conditions of the by-filter recommendation statement, each
      ` AND <clause> ?`. */
  function AndClauses(active: seq<Filter>): (r: seq<Token>)
    ensures |r| == 2 * |active|
  {
    if active == [] then [] else [Text(" AND " + ConditionText(active[0])), Param] + AndClauses(active[1..])
  }

  lemma {:induction false} AndClausesPlaceholders(active: seq<Filter>)
    ensures Placeholders(AndClauses(active)) == |active|
  {
    if active != [] {
      var head := [Text(" AND " + ConditionText(active[0])), Param];
      var rest := AndClauses(active[1..]);
      AndClausesPlaceholders(active[1..]);
      assert AndClauses(active) == head + rest;
      assert multiset(head + rest) == multiset(head) + multiset(rest);
    }
  }

  /** Condition `i` sits at positions `2i` (its text) and `2i + 1` (its placeholder). */
  lemma {:induction false} AndClausesAt(active: seq<Filter>, i: nat)
    requires i < |active|
    ensures AndClauses(active)[2 * i] == Text(" AND " + ConditionText(active[i]))
    ensures AndClauses(active)[2 * i + 1] == Param
  {
    if i > 0 {
      AndClausesAt(active[1..], i - 1);
      var head := [Text(" AND " + ConditionText(active[0])), Param];
      var rest := AndClauses(active[1..]);
      assert AndClauses(active) == head + rest;
      assert (head + rest)[2 * i] == rest[2 * (i - 1)];
      assert (head + rest)[2 * i + 1] == rest[2 * (i - 1) + 1];
    }
  }

  /** `GET /books/recommendations`: `WHERE 1=1` followed by one ` AND` condition
      per given filter, genre exact and author as a substring, limit default 5. */
  function RecommendByFilterQuery(query: map<string, string>): Query
  {
    var active := ActiveFilters(RecommendationFilters, query);
    Query([Text("SELECT * FROM books WHERE 1=1")] + AndClauses(active)
            + [Text(" LIMIT "), Number(RecommendLimit(query))],
          Bindings(active, query))
  }

  lemma RecommendByFilterWellFormed(query: map<string, string>)
    ensures WellFormed(RecommendByFilterQuery(query))
  {
    var active := ActiveFilters(RecommendationFilters, query);
    var head := [Text("SELECT * FROM books WHERE 1=1")];
    var conds := AndClauses(active);
    var tail := [Text(" LIMIT "), Number(RecommendLimit(query))];
    AndClausesPlaceholders(active);
    assert RecommendByFilterQuery(query).tokens == head + conds + tail;
    assert multiset(head + conds + tail) == multiset(head) + multiset(conds) + multiset(tail);
  }

  /** Condition `i` of the by-filter statement follows the `i`-th given filter. */
  lemma RecommendByFilterConditions(query: map<string, string>, i: nat)
    requires i < |ActiveFilters(RecommendationFilters, query)|
    ensures var active := ActiveFilters(RecommendationFilters, query);
      var q := RecommendByFilterQuery(query);
      2 + 2 * i < |q.tokens|
      && q.tokens[1 + 2 * i] == Text(" AND " + ConditionText(active[i]))
      && q.tokens[2 + 2 * i] == Param
  {
    var active := ActiveFilters(RecommendationFilters, query);
    AndClausesAt(active, i);
    var head := [Text("SELECT * FROM books WHERE 1=1")];
    var conds := AndClauses(active);
    var tail := [Text(" LIMIT "), Number(RecommendLimit(query))];
    MiddleAt(head, conds, tail, 2 * i);
    MiddleAt(head, conds, tail, 2 * i + 1);
  }

  /** Parameter `i` of the by-filter statement is the `i`-th given filter's
      value, wrapped in `%` for the author substring match. */
  lemma RecommendByFilterParams(query: map<string, string>, i: nat)
    requires i < |ActiveFilters(RecommendationFilters, query)|
    ensures var active := ActiveFilters(RecommendationFilters, query);
      var q := RecommendByFilterQuery(query);
      i < |q.params| && active[i].key in query
      && q.params[i] == Binding(active[i], query[active[i].key])
  {
    var active := ActiveFilters(RecommendationFilters, query);
    assert active[i] in active;
  }

  /** The whitelisted fields present in a PATCH body (`body[field] !== undefined`;
      a JSON `null` is present), in whitelist order. */
  function Updates(whitelist: seq<string>, body: map<string, Value>): (r: seq<string>)
    ensures Subsequence(r, whitelist)
    ensures forall f :: f in r <==> f in whitelist && f in body
  {
    if whitelist == [] then []
    else
      var rest := Updates(whitelist[1..], body);
      if whitelist[0] in body then
        assert whitelist[1..] == whitelist[1..];
        [whitelist[0]] + rest
      else
        SubsequenceOfTail(rest, whitelist);
        rest
  }

  function SetTexts(fields: seq<string>): (r: seq<string>)
    ensures |r| == |fields|
    ensures forall i :: 0 <= i < |fields| ==> r[i] == fields[i] + " = "
  {
    if fields == [] then [] else [fields[0] + " = "] + SetTexts(fields[1..])
  }

  function Values(fields: seq<string>, body: map<string, Value>): (r: seq<Arg>)
    requires forall i :: 0 <= i < |fields| ==> fields[i] in body
    ensures |r| == |fields|
    ensures forall i :: 0 <= i < |fields| ==> r[i] == Arg(body[fields[i]])
  {
    if fields == [] then [] else [Arg(body[fields[0]])] + Values(fields[1..], body)
  }

  /** `UPDATE <table> SET f1 = ?, f2 = ? WHERE id = ?` with the field values
      followed by the id. */
  function UpdateQuery(table: string, fields: seq<string>, body: map<string, Value>, id: Option<string>): Query
    requires forall i :: 0 <= i < |fields| ==> fields[i] in body
  {
    Query([Text("UPDATE " + table + " SET ")] + Join(SetTexts(fields), ", ") + [Text(" WHERE id = "), Param],
          Values(fields, body) + [IdArg(id)])
  }

  lemma UpdateQueryWellFormed(table: string, fields: seq<string>, body: map<string, Value>, id: Option<string>)
    requires forall i :: 0 <= i < |fields| ==> fields[i] in body
    ensures WellFormed(UpdateQuery(table, fields, body, id))
  {
    var texts := SetTexts(fields);
    var head := [Text("UPDATE " + table + " SET ")];
    var j := Join(texts, ", ");
    var tail := [Text(" WHERE id = "), Param];
    JoinPlaceholders(texts, ", ");
    assert UpdateQuery(table, fields, body, id).tokens == head + j + tail;
    assert multiset(head + j + tail) == multiset(head) + multiset(j) + multiset(tail);
  }

  /** The update statement assigns field `i` through the `i`-th `SET` clause. */
  lemma UpdateQueryClauses(table: string, fields: seq<string>, body: map<string, Value>, id: Option<string>, i: nat)
    requires forall j :: 0 <= j < |fields| ==> fields[j] in body
    requires i < |fields|
    ensures var q := UpdateQuery(table, fields, body, id);
      2 + 3 * i < |q.tokens|
      && q.tokens[1 + 3 * i] == Text(fields[i] + " = ")
      && q.tokens[2 + 3 * i] == Param
  {
    var q := UpdateQuery(table, fields, body, id);
    var texts := SetTexts(fields);
    var head := [Text("UPDATE " + table + " SET ")];
    var j := Join(texts, ", ");
    var tail := [Text(" WHERE id = "), Param];
    JoinAt(texts, ", ", i);
    assert q.tokens == head + j + tail;
    assert (head + j + tail)[1 + 3 * i] == j[3 * i];
    assert (head + j + tail)[2 + 3 * i] == j[3 * i + 1];
  }

  /** The `i`-th parameter of the update is the body's value for field `i`, and
      the id is bound last, for the trailing `WHERE id = ?`. */
  lemma UpdateQueryParams(table: string, fields: seq<string>, body: map<string, Value>, id: Option<string>, i: nat)
    requires forall j :: 0 <= j < |fields| ==> fields[j] in body
    requires i < |fields|
    ensures var q := UpdateQuery(table, fields, body, id);
      i < |q.params| && q.params[i] == Arg(body[fields[i]])
      && q.params[|q.params| - 1] == IdArg(id)
  {
  }

  /** The text of an update statement names only whitelisted fields: the body's
      values never reach it, only which whitelisted keys are present. */
  lemma UpdateTokensIgnoreValues(table: string, whitelist: seq<string>, b1: map<string, Value>,
                                 b2: map<string, Value>, id1: Option<string>, id2: Option<string>)
    requires forall f :: f in whitelist ==> (f in b1 <==> f in b2)
    ensures UpdateQuery(table, Updates(whitelist, b1), b1, id1).tokens
         == UpdateQuery(table, Updates(whitelist, b2), b2, id2).tokens
  {
    SameUpdates(whitelist, b1, b2);
  }

  lemma {:induction false} SameUpdates(whitelist: seq<string>, b1: map<string, Value>, b2: map<string, Value>)
    requires forall f :: f in whitelist ==> (f in b1 <==> f in b2)
    ensures Updates(whitelist, b1) == Updates(whitelist, b2)
  {
    if whitelist != [] {
      assert whitelist[0] in whitelist;
      SameUpdates(whitelist[1..], b1, b2);
    }
  }
}

=== FILE: store.dfy ===
/** The MySQL database as the handlers see it: four tables keyed by their
    integer `id` column, each with its AUTO_INCREMENT counter, and an oracle
    that decides which statement of a request fails. */
module Store {
  import opened Js

  /** Rows by id, and the id the next INSERT without an id receives. */
  datatype Table<R> = Table(rows: map<nat, R>, next: nat)

  /** Every row's id lies strictly between 0 and the auto-increment counter:
      AUTO_INCREMENT starts at 1 and never stores a row under 0. */
  predicate Valid<R>(t: Table<R>)
    ensures Valid(t) ==> 0 !in t.rows && t.next !in t.rows
  {
    0 < t.next && forall k :: k in t.rows ==> 0 < k < t.next
  }

  /** An INSERT without an id stores the row under the counter and bumps it;
      in a valid table that id is fresh and no other row changes. */
  function Insert<R>(t: Table<R>, r: R): (u: Table<R>)
    ensures u.next == t.next + 1 && t.next in u.rows && u.rows[t.next] == r
    ensures Valid(t) ==> t.next !in t.rows && Valid(u) && u.rows.Keys == t.rows.Keys + {t.next}
    ensures forall j :: j in t.rows && j != t.next ==> j in u.rows && u.rows[j] == t.rows[j]
  {
    Table(t.rows[t.next := r], t.next + 1)
  }

  /** An INSERT with an explicit non-zero id; the counter moves past it, as
      InnoDB does. */
  function InsertAt<R>(t: Table<R>, k: nat, r: R): (u: Table<R>)
    requires k !in t.rows && k > 0
    ensures Valid(t) ==> Valid(u)
    ensures u.rows.Keys == t.rows.Keys + {k} && u.rows[k] == r && u.next >= t.next
    ensures forall j :: j in t.rows ==> u.rows[j] == t.rows[j]
  {
    Table(t.rows[k := r], if k < t.next then t.next else k + 1)
  }

  /** The id MySQL stores a row under when the INSERT names its `id` column:
      NULL (an `undefined` id) and 0 both ask AUTO_INCREMENT for the counter,
      any other value is taken as given. */
  function AssignedId<R>(t: Table<R>, key: Option<nat>): (k: nat)
  {
    if key.Some? && key.value > 0 then key.value else t.next
  }

  /** `INSERT INTO t (id, ...) VALUES (?, ...)` once the handler has checked
      that no row has the id: the row lands under `AssignedId`, which in a
      valid table is fresh, and no other row changes. */
  function InsertWithId<R>(t: Table<R>, key: Option<nat>, r: R): (u: Table<R>)
    requires key.Some? && key.value > 0 ==> key.value !in t.rows
    ensures u.rows == t.rows[AssignedId(t, key) := r]
    ensures key.Some? && key.value > 0 ==> u.rows == t.rows[key.value := r]
    ensures key.None? || key.value == 0 ==> u.rows == t.rows[t.next := r] && u.next == t.next + 1
    ensures Valid(t) ==> AssignedId(t, key) !in t.rows && Valid(u)
  {
    if key.Some? && key.value > 0 then InsertAt(t, key.value, r) else Insert(t, r)
  }

  /** An UPDATE of an existing row; ids and counter are unchanged. */
  function Put<R>(t: Table<R>, k: nat, r: R): (u: Table<R>)
    requires k in t.rows
    ensures Valid(t) ==> Valid(u)
    ensures u.rows.Keys == t.rows.Keys && u.rows[k] == r
    ensures forall j :: j in t.rows && j != k ==> u.rows[j] == t.rows[j]
  {
    Table(t.rows[k := r], t.next)
  }

  /** A DELETE by id; `affectedRows` is 1 when the row existed, else 0. */
  function Remove<R>(t: Table<R>, k: nat): (u: Table<R>)
    ensures Valid(t) ==> Valid(u)
    ensures k !in u.rows && u.rows.Keys == t.rows.Keys - {k}
    ensures forall j :: j in u.rows ==> u.rows[j] == t.rows[j]
  {
    Table(t.rows - {k}, t.next)
  }

  /** `SELECT ... WHERE id = ?`: the row for a key, none for NULL. */
  function Lookup<R>(t: Table<R>, key: Option<nat>): (r: Option<R>)
    ensures r.Some? <==> key.Some? && key.value in t.rows
    ensures r.Some? ==> r.value == t.rows[key.value]
  {
    if key.Some? && key.value in t.rows then Some(t.rows[key.value]) else None
  }

  datatype Book = Book(title: Value, author: Value, genre: Value, published_year: Value, isbn: Value)
  datatype Author = Author(name: Value, biography: Value, birth_year: Value, country: Value)
  datatype Library = Library(name: Value, location: Value)
  /** A `library_books` row; its three columns hold ids. */
  datatype Entry = Entry(libraryId: nat, bookId: nat, authorId: nat)

  datatype Store = Store(books: Table<Book>, authors: Table<Author>,
                         libraries: Table<Library>, entries: Table<Entry>)

  predicate ValidStore(s: Store)
  {
    Valid(s.books) && Valid(s.authors) && Valid(s.libraries) && Valid(s.entries)
  }

  /** No two `library_books` rows put the same book in the same library. */
  predicate EntriesUnique(entries: Table<Entry>)
  {
    forall j, k :: j in entries.rows && k in entries.rows && j != k ==>
      (entries.rows[j].libraryId, entries.rows[j].bookId) != (entries.rows[k].libraryId, entries.rows[k].bookId)
  }

  /** The key a route id selects: its digits' value (MySQL compares the
      string numerically), nothing for `undefined`. */
  function RowKey(id: Option<string>): (k: Option<nat>)
    ensures id.Some? && IsDigits(id.value) <==> k.Some?
    ensures k.Some? ==> k.value == DigitsValue(id.value)
  {
    if id.Some? && IsDigits(id.value) then Some(DigitsValue(id.value)) else None
  }

  /** The key a body value selects: a non-negative number or a digit string. */
  function KeyOfValue(v: Value): (k: Option<nat>)
    ensures v.Num? && v.n >= 0 ==> k == Some(v.n)
    ensures v.Str? ==> (k.Some? <==> IsDigits(v.s))
    ensures !v.Num? && !v.Str? ==> k.None?
  {
    match v
    case Num(n) => if n >= 0 then Some(n) else None
    case Str(s) => if IsDigits(s) then Some(DigitsValue(s)) else None
    case _ => None
  }

  /** Which statement of a request fails, if any.  Statements are numbered
      from 0 in the order a handler issues them; `duplicate` says whether the
      failure is MySQL's duplicate-key error. */
  datatype Fault = Healthy | FailAt(step: nat, duplicate: bool)

  /** The database for one request: its fault, and whether a recommendation
      statement returns any row. */
  datatype Db = Db(fault: Fault, found: bool)

  predicate Fails(db: Db, step: nat)
  {
    db.fault.FailAt? && db.fault.step == step
  }

  predicate Duplicate(db: Db, step: nat)
  {
    Fails(db, step) && db.fault.duplicate
  }

  /** The number of `library_books` rows of one library. */
  function BooksIn(entries: Table<Entry>, library: nat): (n: nat)
    ensures n <= |entries.rows|
  {
    var ks := set k | k in entries.rows && entries.rows[k].libraryId == library;
    assert ks <= entries.rows.Keys;
    SubsetCard(ks, entries.rows.Keys);
    |ks|
  }

  lemma SubsetCard<T>(a: set<T>, b: set<T>)
    requires a <= b
    ensures |a| <= |b|
  {
    if a != {} {
      var x :| x in a;
      SubsetCard(a - {x}, b - {x});
    }
  }
}

=== FILE: validation.dfy ===
/** `validateBookData` and `validateAuthorData`: pure checks of a decoded
    request body that return the list of error messages, in a fixed order. */
module Validation {
  import opened Js
  import opened Seqs

  const TitleRequired := "Title is required"
  const AuthorRequired := "Author is required"
  const YearNotNumber := "Published year must be a number"
  const NameRequired := "Name is required"
  const BirthYearNotNumber := "Birth year must be a number"

  /** Every book message, in the order the checks run. */
  const BookMessages := [TitleRequired, AuthorRequired, YearNotNumber]
  const AuthorMessages := [NameRequired, BirthYearNotNumber]

  /** `data[k] && isNaN(data[k])`: a truthy value that does not coerce to a
      number.  A falsy value (0, "", null, absent) is never rejected. */
  predicate NotANumberField(data: map<string, Value>, k: string)
  {
    TruthyField(data, k) && IsNaN(data[k])
  }

  /** When a book body passes validation, stated without the message list. */
  predicate BookAcceptable(data: map<string, Value>, isRequired: bool)
  {
    (isRequired ==> TruthyField(data, "title") && TruthyField(data, "author"))
    && !NotANumberField(data, "published_year")
  }

  predicate AuthorAcceptable(data: map<string, Value>, isRequired: bool)
  {
    (isRequired ==> TruthyField(data, "name")) && !NotANumberField(data, "birth_year")
  }

  /** A message appended only when its check fails. */
  function When(failed: bool, message: string): (r: seq<string>)
    ensures failed ==> r == [message]
    ensures !failed ==> r == []
  {
    if failed then [message] else []
  }

  function ValidateBook(data: map<string, Value>, isRequired: bool): (errors: seq<string>)
    ensures TitleRequired in errors <==> isRequired && !TruthyField(data, "title")
    ensures AuthorRequired in errors <==> isRequired && !TruthyField(data, "author")
    ensures YearNotNumber in errors <==> NotANumberField(data, "published_year")
    ensures Subsequence(errors, BookMessages)
    ensures |errors| <= 3
    ensures errors == [] <==> BookAcceptable(data, isRequired)
  {
    var title := When(isRequired && !TruthyField(data, "title"), TitleRequired);
    var author := When(isRequired && !TruthyField(data, "author"), AuthorRequired);
    var year := When(NotANumberField(data, "published_year"), YearNotNumber);
    SubsequenceOfThree(title, author, year, TitleRequired, AuthorRequired, YearNotNumber);
    title + author + year
  }

  function ValidateAuthor(data: map<string, Value>, isRequired: bool): (errors: seq<string>)
    ensures NameRequired in errors <==> isRequired && !TruthyField(data, "name")
    ensures BirthYearNotNumber in errors <==> NotANumberField(data, "birth_year")
    ensures Subsequence(errors, AuthorMessages)
    ensures |errors| <= 2
    ensures errors == [] <==> AuthorAcceptable(data, isRequired)
  {
    var name := When(isRequired && !TruthyField(data, "name"), NameRequired);
    var year := When(NotANumberField(data, "birth_year"), BirthYearNotNumber);
    SubsequenceOfThree([], name, year, TitleRequired, NameRequired, BirthYearNotNumber);
    assert [] + name + year == name + year;
    name + year
  }

  /** Picking any of three elements, in order, gives a subsequence. */
  lemma SubsequenceOfThree<T>(a: seq<T>, b: seq<T>, c: seq<T>, x: T, y: T, z: T)
    requires a == [] || a == [x]
    requires b == [] || b == [y]
    requires c == [] || c == [z]
    ensures Subsequence(a + b + c, [x, y, z])
    ensures Subsequence(b + c, [y, z])
  {
    assert [x, y, z][1..] == [y, z];
    assert [y, z][1..] == [z];
    if b == [] {
      assert b + c == c;
      SubsequenceOfTail(c, [y, z]);
    } else {
      assert (b + c)[1..] == c;
    }
    assert Subsequence(b + c, [y, z]);
    if a == [] {
      assert a + b + c == b + c;
      SubsequenceOfTail(b + c, [x, y, z]);
    } else {
      assert (a + b + c)[1..] == b + c;
    }
  }

  /** `data[k]` reads the same in both bodies (both absent, or equal). */
  predicate SameField(d1: map<string, Value>, d2: map<string, Value>, k: string)
  {
    (k in d1 <==> k in d2) && (k in d1 ==> d1[k] == d2[k])
  }

  /** Only title, author and published_year influence the book result. */
  lemma ValidateBookReadsThreeKeys(d1: map<string, Value>, d2: map<string, Value>, isRequired: bool)
    requires SameField(d1, d2, "title") && SameField(d1, d2, "author")
    requires SameField(d1, d2, "published_year")
    ensures ValidateBook(d1, isRequired) == ValidateBook(d2, isRequired)
  {
  }

  /** Only name and birth_year influence the author result. */
  lemma ValidateAuthorReadsTwoKeys(d1: map<string, Value>, d2: map<string, Value>, isRequired: bool)
    requires SameField(d1, d2, "name") && SameField(d1, d2, "birth_year")
    ensures ValidateAuthor(d1, isRequired) == ValidateAuthor(d2, isRequired)
  {
  }

  /** `isNaN` coerces an array through its text: `[]` and `[1999]` pass as
      published years, while `[1, 2]` and an object are rejected. */
  lemma ArrayAndObjectYears()
    ensures ValidateBook(map["title" := Str("T"), "author" := Str("A"), "published_year" := Arr([Num(1999)])], true) == []
    ensures ValidateBook(map["title" := Str("T"), "author" := Str("A"), "published_year" := Arr([])], true) == []
    ensures ValidateBook(map["published_year" := Arr([Num(1), Num(2)])], false) == [YearNotNumber]
    ensures ValidateBook(map["published_year" := Obj], false) == [YearNotNumber]
  {
    ArrayYear(Arr([Num(1999)]));
    ArrayYear(Arr([]));
    ArrayYear(Arr([Num(1), Num(2)]));
    ArrayYear(Obj);
  }

  lemma ArrayYear(year: Value)
    ensures year == Arr([Num(1999)]) || year == Arr([]) ==>
      ValidateBook(map["title" := Str("T"), "author" := Str("A"), "published_year" := year], true) == []
    ensures year == Arr([Num(1), Num(2)]) || year == Obj ==>
      ValidateBook(map["published_year" := year], false) == [YearNotNumber]
  {
    if year.Arr? {
      ArrayNumber(year.items);
    }
    var full := map["title" := Str("T"), "author" := Str("A"), "published_year" := year];
    var bare := map["published_year" := year];
    assert TruthyField(full, "title") && TruthyField(full, "author");
    assert NotANumberField(full, "published_year") <==> IsNaN(year);
    assert NotANumberField(bare, "published_year") <==> IsNaN(year);
  }
}
